=== FILE: README.md ===
# Scriptable widgets: a verified model of their logic

The repository is a set of Scriptable (iOS) widget scripts. Each one fetches
JSON, works on it, and draws the result. This project models the part
between the fetch and the drawing for six of them:

- the life organiser (`MikesLifeOrganiser.js`): reminders, football, calendar,
  weather, trains and bins;
- the top-scores widget (`TopScores_Large.js`);
- the football-scores widget (`FootballScores.js`);
- the weather-forecast widget (`WeatherForecast.js`);
- the train-track widget (`TrainTrack.js`);
- the Bromley-bins widget (`BromleyBins.js`).

Everything the scripts get from outside is a parameter of the model:

- fetched JSON, with `Js.Fetched` and `Js.Option` for what may be missing;
- the current time, as today's ISO date string, the milliseconds since the
  epoch, or a local day number;
- location fixes, as a sequence of attempt outcomes;
- reminders and calendar events, as sequences;
- the logo lookup, as a function from team name to answer.

A thrown exception is `Js.Result`'s `Err`.

Modules, one per file, follow the scripts' components:

| file | module | what it holds |
|---|---|---|
| `js.dfy` | `Js` | `Option`, `Result`, `Fetched`, truthiness |
| `text.dfy` | `Text` | `padEnd`, `padStart`, `indexOf`/`includes`, `replace`, `split`, `join`, ASCII `toLowerCase`, string `<` |
| `numbers.dfy` | `Numbers` | digit strings and their values, `toString`, zero-padded fields |
| `sequences.dfy` | `Sequences` | `filter`, keep-first de-duplication, the capped filter loop, `indexOf` on arrays |
| `labels.dfy` | `ListText` | the fixed-width cells of a football row, team-name abbreviation, channel names |
| `dates.dfy` | `DateBuckets` | today/tomorrow tests and the date styling |
| `rows.dfy` | `RowLayout` | where date labels, headers and separators go |
| `matches.dfy` | `FeedMerger` | `getMatches` in its three variants and the team-logo plan |
| `departures.dfy` | `Departures` | `getDelay`, departure colours, platform, "HH:MM" label |
| `trains.dfy` | `TrainBoards` | journey direction, the organiser's trains panel, TrainTrack's two boards |
| `location.dfy` | `LocationResolver` | `getLocation` with its retry and single-slot cache |
| `forecast.dfy` | `ForecastWindows` | the forecast guard, the hourly and daily windows |
| `bins.dfy` | `Bins` | bin icons, and BromleyBins' icon label |
| `organiser.dfy` | `Organiser` | reminders, calendar events, the organiser's bin label |

JavaScript arithmetic on strings is modelled where the scripts rely on it.
`realtimeDepartureTime += 2400` appends text. `a - b` on two strings parses
them as numbers, and NaN becomes `None`.

## Model

| member | source | states |
|---|---|---|
| Text.PadEnd | top-scores/TopScores_Large.js:39 | the text kept as a prefix, then spaces up to `n`; a text of length `n` or more is unchanged |
| Text.PadStart | football-scores/FootballScores.js:95-117 | spaces in front up to `n`, the text as the suffix; a long text is unchanged |
| Text.IndexOf | top-scores/TopScores_Large.js:210-213 | the first index where the pattern occurs, or -1 exactly when it occurs nowhere |
| Text.ReplaceFirst | top-scores/TopScores_Large.js:323-328 | only the first occurrence is replaced; a text without the pattern is unchanged |
| Text.Split | top-scores/TopScores_Large.js:211 | at least one piece, two or more exactly when the separator occurs, and no piece contains the separator |
| Text.JoinSplit | top-scores/TopScores_Large.js:211 | one more piece than the text has separators, and joining the pieces with the separator gives the text back |
| Text.SplitSecond | weather-forecast/WeatherForecast.js:164 | `split(c)[1]` of a text holding the separator is the run after the first separator, up to the next separator or the end |
| Text.SplitJoin | mikes-life-organiser/MikesLifeOrganiser.js:978 | joining pieces free of the separator and splitting again gives the pieces back |
| Text.Lower | mikes-life-organiser/MikesLifeOrganiser.js:116 | same length, every ASCII capital lowered, every other character unchanged |
| Numbers.ToNumber | mikes-life-organiser/MikesLifeOrganiser.js:854 | a string of decimal digits, or the empty string, coerces to its decimal value; the model gives `None` (NaN) for every other string |
| Numbers.ToNumberOfNatToString | mikes-life-organiser/MikesLifeOrganiser.js:854 | coercing the decimal text of a count gives the count back |
| Numbers.NatToString | mikes-life-organiser/MikesLifeOrganiser.js:259 | a non-empty digit string whose value is the number, with no leading zero |
| Sequences.Dedupe | mikes-life-organiser/MikesLifeOrganiser.js:236 | an in-order subsequence with distinct keys and the same key set, each element the first with its key, kept in the order their keys first occur |
| Sequences.DedupeFromInOrder | mikes-life-organiser/MikesLifeOrganiser.js:236 | the kept elements come in the order in which their keys first occur, for any set of keys already seen |
| Sequences.FilterAppend | mikes-life-organiser/MikesLifeOrganiser.js:222-233 | filtering distributes over concatenation, so order is kept |
| Sequences.FirstPassing | mikes-life-organiser/MikesLifeOrganiser.js:515-521 | walking from the front and stopping at `max` kept elements gives the first `max` elements that pass |
| Sequences.FilterFilter | mikes-life-organiser/MikesLifeOrganiser.js:222-233 | filtering twice is filtering once by both tests |
| Sequences.CappedFilter | mikes-life-organiser/MikesLifeOrganiser.js:515-521 | the loop that stops at `max` kept elements keeps the first `max` that pass |
| Sequences.IndexOfItem | mikes-life-organiser/MikesLifeOrganiser.js:997 | the first position holding the item, or -1 exactly when it is absent |
| ListText.FormatForListWidget | top-scores/TopScores_Large.js:37-40 | exactly `n` characters: the text padded, or its first `n - 1` characters and a space |
| ListText.FormatIdempotent | top-scores/TopScores_Large.js:37-40 | formatting a formatted cell again changes nothing |
| ListText.HeaderCentered | football-scores/FootballScores.js:95-118 | the label right-aligned in its per-label width: length max(text, width), spaces then the label |
| ListText.TeamName | top-scores/TopScores_Large.js:209-219 | "A/B" gives two parts of at most three characters around one '/'; a placeholder gives "TBC"; other names are unchanged |
| ListText.TeamNameIdempotent | top-scores/TopScores_Large.js:209-219 | abbreviating an abbreviated name changes nothing |
| ListText.TeamCell | top-scores/TopScores_Large.js:271 | eight characters; an abbreviated two-team name or "TBC" is shown whole, and any other name gives the same cell as the raw name, padded or cut |
| ListText.RawTeamCell | football-scores/FootballScores.js:165 | eight characters; a longer display name is cut to seven characters and a space |
| ListText.MatchTime | top-scores/TopScores_Large.js:256-263 | the truthy `timeLabel`, else the truthy `kickOffTime`, else empty exactly when neither is truthy |
| ListText.ScoreCell | top-scores/TopScores_Large.js:283-286 | a TypeError exactly when the match started or finished and the score is `null`; otherwise two characters: the score when it is a number at least 0, else blanks |
| ListText.TruthyScoreCell | football-scores/FootballScores.js:177-180 | two characters; the score only when it is a non-zero number, blanks for 0, `null` and `undefined` |
| ListText.ScoreRulesDiffer | football-scores/FootballScores.js:177-180 | for a match under way, one rule shows exactly the scores >= 0, the other exactly the non-zero ones; 0 shows as "0 " in the first; `null` throws in the first and is hidden by the second |
| ListText.ChannelFourExample | top-scores/TopScores_Large.js:323-328 | "Channel Four" is shown as "Ch 4" |
| ListText.ChannelName | top-scores/TopScores_Large.js:323-328 | never longer than the name, and the name comes back unchanged exactly when it contains none of "One", "Two", "Three", "Four" and "Channel 4" |
| ListText.OnlyWordReplaced | top-scores/TopScores_Large.js:323-328 | when one word of the list is the only one that applies (no earlier word in the name, no later word in the result), the channel name is the name with that word's first occurrence replaced by its short form |
| ListText.BbcOneExample | top-scores/TopScores_Large.js:323-328 | "BBC One" is shown as "BBC 1" |
| ListText.ChannelCell | top-scores/TopScores_Large.js:322-329 | a cell exactly when the channel name is truthy: the shortened name padded to five characters, or its first four and a space when longer |
| ListText.RawChannelCell | football-scores/FootballScores.js:216-217 | a cell exactly when the channel name is truthy: the raw name padded to eight characters, or its first seven and a space when longer |
| DateBuckets.BucketOf | top-scores/TopScores_Large.js:73-86 | today, tomorrow or other, each exactly when its test holds |
| DateBuckets.TestOrderIrrelevant | mikes-life-organiser/MikesLifeOrganiser.js:1003-1016 | testing tomorrow first gives the same bucket |
| DateBuckets.DayLabel | mikes-life-organiser/MikesLifeOrganiser.js:986-993 | "Today", "Tomorrow", or the host's label for any other day |
| DateBuckets.DateStyle | top-scores/TopScores_Large.js:73-86 | bold white exactly for today, light grey exactly for tomorrow, grey exactly for other days, regular weight otherwise |
| DateBuckets.BinDateStyle | mikes-life-organiser/MikesLifeOrganiser.js:1003-1016 | large white exactly for tomorrow, light grey exactly for today, grey exactly for other days, regular weight otherwise |
| RowLayout.SeparatorBeforeEveryNewGroup | top-scores/TopScores_Large.js:337 | a separator follows a row exactly when the next row starts a new date group |
| RowLayout.Labels | top-scores/TopScores_Large.js:232 | row `i` has a date label exactly when it is first or its date differs from row `i - 1` |
| RowLayout.Separators | top-scores/TopScores_Large.js:337 | a separator follows row `i` exactly when it is not last and row `i + 1`'s date differs |
| RowLayout.LabelsOutnumberSeparators | top-scores/TopScores_Large.js:337-339 | a non-empty list has exactly one more date label than separators |
| RowLayout.FootballScoresHeaders | football-scores/FootballScores.js:128-144 | the loop that remembers the last header emits a header for exactly the rows that start a date group |
| FeedMerger.TodaysResults | mikes-life-organiser/MikesLifeOrganiser.js:291-300 | every listed result is labelled "Today", and every result dated today appears, relabelled |
| FeedMerger.TodaysResultsIsFilter | mikes-life-organiser/MikesLifeOrganiser.js:291-300 | exactly the results dated today, in feed order and with their repeats, each relabelled "Today" |
| FeedMerger.TodaysResultsAreToday | mikes-life-organiser/MikesLifeOrganiser.js:291-300 | every listed result is a result of today's date, relabelled |
| FeedMerger.AllFixtures | mikes-life-organiser/MikesLifeOrganiser.js:302-310 | the list so far is kept; each added fixture has a truthy date label and an id new to everything before it; every such fixture's id ends up listed |
| FeedMerger.AllFixturesIsDedupe | mikes-life-organiser/MikesLifeOrganiser.js:302-310 | what is appended is, in feed order, the fixtures with a truthy date label, keeping only the first with each id not already listed |
| FeedMerger.AddFixtures | mikes-life-organiser/MikesLifeOrganiser.js:302-316 | the early-stopping loop gives a prefix of the uncapped loop, and stops short only at the cap |
| FeedMerger.Items | mikes-life-organiser/MikesLifeOrganiser.js:302 | only an array contributes items; a failed request or a non-array contributes none |
| FeedMerger.Merge | mikes-life-organiser/MikesLifeOrganiser.js:287-326 | exactly the first `min(max, n)` matches of today's results followed by the kept fixtures; all dated; fixture ids fresh |
| FeedMerger.MissingFeedsContributeNothing | mikes-life-organiser/MikesLifeOrganiser.js:168-178 | failed, non-array or empty feeds give an empty list, not an error |
| FeedMerger.ResultsComeFirst | mikes-life-organiser/MikesLifeOrganiser.js:290-300 | the list opens with today's results in feed order, as far as the cap allows |
| FeedMerger.ResultWinsOverFixture | mikes-life-organiser/MikesLifeOrganiser.js:304-309 | a fixture sharing a result's id is dropped and the next fixture follows |
| FeedMerger.ShortMergeIsReference | mikes-life-organiser/MikesLifeOrganiser.js:325 | a merge that fits under the cap is shown whole |
| FeedMerger.CapHoldsWhenResultsOverflow | top-scores/TopScores_Large.js:152-175 | with more than 12 of today's results, the loop examines at most one fixture and the slice cuts the list to 12 |
| FeedMerger.MergeUnguarded | football-scores/FootballScores.js:20-61 | succeeds exactly when both feeds are arrays, then as the tolerant merge; a failed request rejects and a non-array throws a TypeError |
| FeedMerger.TeamNames | mikes-life-organiser/MikesLifeOrganiser.js:319 | the home names, then the away names, match by match |
| FeedMerger.UniqueTeams | mikes-life-organiser/MikesLifeOrganiser.js:319-320 | every team name exactly once |
| FeedMerger.LogoUrl | mikes-life-organiser/MikesLifeOrganiser.js:328-350 | the server's logo path for a lookup that gave one, the no-logo image for a two-team name, a placeholder, or a failed, `null` or empty lookup |
| FeedMerger.LogoLookups | mikes-life-organiser/MikesLifeOrganiser.js:340-345 | one lookup per distinct name that is not a two-team name or a placeholder |
| FeedMerger.TeamLogos | mikes-life-organiser/MikesLifeOrganiser.js:323 | the logo table has exactly the team names of the unsliced list as keys, each with its `LogoUrl` |
| FeedMerger.ShownTeamsHaveLogos | mikes-life-organiser/MikesLifeOrganiser.js:323-325 | every team of a shown row has a logo entry |
| FeedMerger.UnguardedLogoUrl | football-scores/FootballScores.js:63-80 | a failed lookup rejects, a `null` body throws a TypeError, and a missing `logoPath` gives the URL ending in "undefined" |
| FeedMerger.FootballScoresMatches | football-scores/FootballScores.js:57-60 | succeeds exactly when both feeds are arrays and every team of the unsliced list got a lookup object; the matches are then the merge; a failed feed or lookup request rejects, and otherwise a `null` lookup body throws a TypeError |
| Departures.AppendHours | mikes-life-organiser/MikesLifeOrganiser.js:852 | appending "2400" to a time string multiplies its number by 10000 and adds 2400 |
| Departures.Delay | mikes-life-organiser/MikesLifeOrganiser.js:849-856 | a number exactly when both times are digit strings: the plain difference, or realtime·10000 + 2400 − booked across midnight |
| Departures.HhmmOfMinutes | mikes-life-organiser/MikesLifeOrganiser.js:848 | an "HHMM" time is the text of its own minute count |
| Departures.DelayMinutes | mikes-life-organiser/MikesLifeOrganiser.js:848-856 | on "HHMM" times a minute count in (−1440, 2880); otherwise as written |
| Departures.DelayMinutesSameDay | mikes-life-organiser/MikesLifeOrganiser.js:848 | a train `late` minutes after its booked time on the same day gets delay `late` |
| Departures.DelayMinutesNextDay | mikes-life-organiser/MikesLifeOrganiser.js:850-853 | a train booked after 23:00 and leaving after midnight gets its lateness in minutes |
| Departures.DelayCountsHoursAsHundreds | mikes-life-organiser/MikesLifeOrganiser.js:854 | as written, a same-day delay is off by 40 per hour boundary crossed |
| Departures.HourBoundaryExample | mikes-life-organiser/MikesLifeOrganiser.js:854 | booked 14:59, left 15:01: 42 as written, 2 corrected |
| Departures.MidnightAlwaysSevere | train-track/TrainTrack.js:118-125 | as written, every departure across midnight has a delay of at least 41 |
| Departures.AfterMidnightExample | mikes-life-organiser/MikesLifeOrganiser.js:849-856 | booked 23:58, left 00:03: 30042 as written, 5 corrected |
| Departures.DepartureColours | mikes-life-organiser/MikesLifeOrganiser.js:912-942 | cancelled means red on white; otherwise each tier exactly on its delay band, and a NaN delay is on time |
| Departures.ColoursMonotone | mikes-life-organiser/MikesLifeOrganiser.js:924-936 | a larger delay never gets a less severe colour |
| Departures.PlatformLabel | mikes-life-organiser/MikesLifeOrganiser.js:945-949 | "X" when cancelled, the platform otherwise |
| Departures.FirstFourDigits | mikes-life-organiser/MikesLifeOrganiser.js:863 | the leftmost run of four digits, or -1 when there is none |
| Departures.ColonTime | train-track/TrainTrack.js:130 | a colon inserted in the middle of the first four-digit run, the rest unchanged; no run leaves the text unchanged |
| Departures.ColonTimeOfHhmm | train-track/TrainTrack.js:129-130 | an "HHMM" time reads "HH:MM" |
| Departures.Row | mikes-life-organiser/MikesLifeOrganiser.js:839-846 | as written: struck through exactly when cancelled, and then "X" and red; otherwise the platform and the colours of the `getDelay` result |
| Departures.CorrectedRow | mikes-life-organiser/MikesLifeOrganiser.js:839-846 | the same row with the colours of the delay in minutes |
| Departures.RowsDifferOnlyInColour | mikes-life-organiser/MikesLifeOrganiser.js:839-846 | the two rows share time, platform and strike-through, and are equal for a cancelled train or times outside "HHMM" |
| Departures.HourBoundaryRow | train-track/TrainTrack.js:111-125 | booked 14:59 and leaving 15:01, the row as written is red on white and the corrected row cyan on black |
| TrainBoards.IsoTime | mikes-life-organiser/MikesLifeOrganiser.js:816 | the time part of an ISO timestamp: 13 characters, the hour and minute digits at 0-1 and 3-4 |
| TrainBoards.NoonComparison | mikes-life-organiser/MikesLifeOrganiser.js:817 | a clock string compares greater than "12:00" exactly when its hour is 12 or later |
| TrainBoards.AfterNoonIff | mikes-life-organiser/MikesLifeOrganiser.js:816-819 | the reversal test holds exactly from 12:00 UTC to midnight |
| TrainBoards.OrganiserRoute | mikes-life-organiser/MikesLifeOrganiser.js:813-821 | KTH to VIC before noon UTC, VIC to KTH from noon |
| TrainBoards.MakeBoard | mikes-life-organiser/MikesLifeOrganiser.js:823-837 | fails exactly on an empty list; otherwise the first departure's station and the rows of the first `max` departures |
| TrainBoards.OrganiserTrains | mikes-life-organiser/MikesLifeOrganiser.js:789-811 | "No trains found" for a failed request or missing departures; otherwise a board of at most four, failing on an empty list |
| TrainBoards.PrependBoard | train-track/TrainTrack.js:67-74 | an answer without departures adds no board; an empty list throws; otherwise its board goes in front of the later ones, unless a later one threw |
| TrainBoards.TrainTrack | train-track/TrainTrack.js:62-78 | as written, any failed direction makes the whole widget throw; with every request answered, a TypeError exactly when some departure list is empty, otherwise one board per answer with departures, in route order |
| TrainBoards.SkipOrBoard | train-track/TrainTrack.js:67-68 | a failed direction is skipped; any other answer is drawn as by `PrependBoard` |
| TrainBoards.TrainTrackSkippingFailures | train-track/TrainTrack.js:62-78 | a TypeError exactly when some answered direction has an empty list, otherwise one board per answered direction with departures, in route order; with no failure it equals the code as written |
| TrainBoards.FailedDirectionIsolated | train-track/TrainTrack.js:66-75 | with failures skipped, a failed direction leaves the other boards exactly as they were |
| TrainBoards.FailedOutboundHidesInbound | train-track/TrainTrack.js:67-68 | as written, a failed outbound request hides a good inbound board |
| LocationResolver.CacheAfter | weather-forecast/WeatherForecast.js:132-137 | an attempt that wrote its fix replaces the cache; any other attempt leaves it |
| LocationResolver.FirstSuccess | weather-forecast/WeatherForecast.js:115-121 | the first attempt from `from` on that returns a fix, or -1 when none does |
| LocationResolver.GetLocation | weather-forecast/WeatherForecast.js:115-148 | the first success's fix; or else, after all four attempts, the cache file as they left it when the final read succeeds and `undefined` when it fails; a returned location is always the cached one |
| LocationResolver.ResolveLocation | weather-forecast/WeatherForecast.js:115-129 | the retry loop with the cache as its state gives what the recursion gives |
| LocationResolver.LastWriteWins | weather-forecast/WeatherForecast.js:132-133 | after failed attempts the cache holds the fix of the last one that wrote |
| LocationResolver.NoFixNoCache | weather-forecast/WeatherForecast.js:139-148 | no fix and no readable cache gives `undefined`, not an error, whatever the final read does |
| LocationResolver.WrittenButUnconfirmed | weather-forecast/WeatherForecast.js:132-148 | a fix that was written but failed the read-back stays in the file; exhaustion returns it when the final read succeeds and `undefined` when it fails |
| ForecastWindows.HourlyWindow | weather-forecast/WeatherForecast.js:157-162 | the first four slots of the feed that started no more than an hour ago, in feed order; all from the feed; fewer than four means every such slot |
| ForecastWindows.HourLabel | weather-forecast/WeatherForecast.js:164 | defined exactly when the time has a space; then the text right after the first space, running to the next space or the end |
| ForecastWindows.HourColumns | weather-forecast/WeatherForecast.js:164-168 | five parallel arrays, one entry per kept slot; entry k is slot k's time label, icon, temperature, chance of rain and rainfall |
| ForecastWindows.HourlyColumns | weather-forecast/WeatherForecast.js:157-170 | the loop's five arrays agree in length, hold at most four entries, and are the columns of the hourly window |
| ForecastWindows.TodayNotShown | weather-forecast/WeatherForecast.js:198-201 | today's own entry is never a daily column |
| ForecastWindows.DailyWindow | weather-forecast/WeatherForecast.js:192-201 | the first four days of the feed dated after today, in feed order; all from the feed; fewer than four means every such day |
| ForecastWindows.DayColumns | weather-forecast/WeatherForecast.js:203-208 | five parallel arrays, one entry per kept day; entry k is day k's date, icon, temperature (the organiser's maximum or the widget's average), chance of rain and rainfall |
| ForecastWindows.IsoDate | weather-forecast/WeatherForecast.js:198 | "YYYY-MM-DD": ten characters, dashes at 4 and 7 |
| ForecastWindows.IsoDateOrder | weather-forecast/WeatherForecast.js:201 | on ISO dates, string order is calendar order |
| ForecastWindows.DayShownIffLater | weather-forecast/WeatherForecast.js:201 | a day is kept exactly when its date is later than today |
| ForecastWindows.Panel | weather-forecast/WeatherForecast.js:72-107 | a panel exactly when the forecast has a day and day 0 has an hour; then the hourly and daily windows |
| ForecastWindows.OrganiserWeather | mikes-life-organiser/MikesLifeOrganiser.js:593-638 | no location, no panel; otherwise the panel with maximum temperatures |
| ForecastWindows.WeatherForecast | weather-forecast/WeatherForecast.js:65-79 | as written, a missing location throws; otherwise the panel with average temperatures |
| ForecastWindows.GuardedWeatherForecast | weather-forecast/WeatherForecast.js:68-70 | with a guard, a missing location gives no panel; otherwise the same as written |
| ForecastWindows.NoLocationFailsWidget | weather-forecast/WeatherForecast.js:68-70 | four failed fixes and no cache stop the widget as written, and only drop the panel when guarded |
| Bins.TableWellFormed | bromley-bins/BromleyBins.js:22-25 | one icon per bin name, each icon non-empty and without spaces, no name twice |
| Bins.BinIcon | mikes-life-organiser/MikesLifeOrganiser.js:995-1000 | a bin of interest gets the icon at its own position; empty exactly for other bins |
| Bins.IconAt | bromley-bins/BromleyBins.js:65 | the icon at the index, or the non-empty text "undefined" past the end |
| Bins.EmptyIffNoneOfInterest | bromley-bins/BromleyBins.js:59-68 | both icon folds are empty exactly when no bin is of interest |
| Bins.IconsByIdentityAppend | mikes-life-organiser/MikesLifeOrganiser.js:978 | the icons of two runs of bins are the icons of each, concatenated |
| Bins.BromleyLabel | bromley-bins/BromleyBins.js:54-75 | a failed request throws; a non-array or empty answer gives "✖️"; otherwise the icons at positions 0, 1, 2, ... one per bin of interest (`undefined` past the third), so empty exactly when no bin is of interest |
| Bins.CounterIsConcat | bromley-bins/BromleyBins.js:60-66 | the counting loop concatenates the icons at successive counter positions, one per bin of interest |
| Bins.BromleyLabelByIdentity | bromley-bins/BromleyBins.js:54-75 | the same outcomes, but the icons are each bin of interest's own icon, in answer order |
| Bins.IdentityIsConcat | bromley-bins/BromleyBins.js:60-66 | the intended loop concatenates each bin of interest's own icon, in answer order |
| Bins.IconsRow | bromley-bins/BromleyBins.js:96-103 | the row is added exactly for a non-empty label |
| Bins.NoBinsOfInterestNoRow | bromley-bins/BromleyBins.js:96-103 | bins that are none of interest give an empty label and no row |
| Bins.CounterAgreesInOrder | bromley-bins/BromleyBins.js:60-66 | the counter gives each bin its own icon when the bins arrive in table order |
| Bins.LabelsAgreeInOrder | bromley-bins/BromleyBins.js:60-66 | bins of interest in table order give the same label either way |
| Bins.LoneRefuseShowsPaperIcon | bromley-bins/BromleyBins.js:60-66 | a lone "Non-Recyclable Refuse" shows 📦 as written and 🗑️ by identity |
| Organiser.Candidates | mikes-life-organiser/MikesLifeOrganiser.js:221-233 | the category's overdue open reminders in scheduled order, then its open reminders due today, then its undated ones; a reminder is a candidate exactly when it is in one of those groups |
| Organiser.CandidateSections | mikes-life-organiser/MikesLifeOrganiser.js:222-233 | filtering the joined lists by calendar equals filtering each list by its own test and the calendar |
| Organiser.GetReminders | mikes-life-organiser/MikesLifeOrganiser.js:218-239 | the candidates in order with one reminder per title, the first of each, kept in the order their titles first occur, all in the category |
| Organiser.RepeatKeepsFirstPlace | mikes-life-organiser/MikesLifeOrganiser.js:230-236 | a reminder listed twice with another between keeps its first place: `[x, y, x]` gives `[x, y]`, so `x` heads the column |
| Organiser.OverdueWins | mikes-life-organiser/MikesLifeOrganiser.js:230-236 | an overdue reminder beats one due today with the same title |
| Organiser.OverdueThenDueToday | mikes-life-organiser/MikesLifeOrganiser.js:222-233 | an open overdue reminder and an open one due today, both in the category, are the candidates in that order |
| Organiser.RemindersColumn | mikes-life-organiser/MikesLifeOrganiser.js:207-264 | nothing for no reminders; else the first title and, exactly when there are more, "+" and how many |
| Organiser.ShowsDespite | mikes-life-organiser/MikesLifeOrganiser.js:114-121 | true exactly when the lower-cased title contains none of the lower-cased words |
| Organiser.ShownEvents | mikes-life-organiser/MikesLifeOrganiser.js:515-521 | the first five events, in input order, from a listed calendar and free of "laundry"; fewer than five means every such event |
| Organiser.EventLoop | mikes-life-organiser/MikesLifeOrganiser.js:513-580 | the loop with its counter draws the shown events |
| Organiser.BlockedInAnyCase | mikes-life-organiser/MikesLifeOrganiser.js:116 | "Do the Laundry" is not shown |
| Organiser.EventRowOf | mikes-life-organiser/MikesLifeOrganiser.js:528-569 | the day label, start time and title formatted to 10, 6 and 35 characters; blank time for all-day events; the tag of the event's calendar, 🎉 exactly for Parties |
| Organiser.Icons | mikes-life-organiser/MikesLifeOrganiser.js:978 | one icon per bin, each the bin's own |
| Organiser.BinLabel | mikes-life-organiser/MikesLifeOrganiser.js:969-993 | a label exactly when the answer has a day name and bins; then the day label, ": " and the icons joined by spaces |
| Organiser.BinIconsByIdentity | mikes-life-organiser/MikesLifeOrganiser.js:978 | splitting the joined icons on spaces gives the bins' own icons back |
| Organiser.LoneRefuseBin | mikes-life-organiser/MikesLifeOrganiser.js:995-1000 | a lone general-waste bin shows the general-waste icon |

## Left out

- Widget drawing is not modelled: stacks, spacers, fonts, URLs, refresh dates, and the present and complete calls. Colours and fonts are reduced to tags.
- Network and host APIs are parameters: `Request.loadJSON`, `loadImage`, `FileManager`, `Location.current`, `Reminder.*` and `CalendarEvent.between`. Image loads are not modelled, and neither is their lack of a fallback.
- `Promise.all` interleaving is not modelled. The football-scores widget runs one logo lookup per match concurrently, and the model does not claim those lookups happen exactly once.
- FeedMerger.FootballScoresMatches: when one lookup request fails and another returns a `null` body, the model reports the failed request. Which rejection `Promise.all` sees first depends on timing, so the source fixes no order.
- Locale formatting is not modelled: `toLocaleDateString`, `toLocaleTimeString` and weekday names. Dates are day numbers or ISO strings, and formatted labels are parameters.
- Temperatures and rainfall are carried as `real` and passed through. Their colour thresholds, `parseInt` and the strike-through gradient are floating-point presentation.
- Text.Lower: lowers only the ASCII capitals, because `toLowerCase`'s full Unicode case mapping is out of scope.
- Numbers.ToNumber: covers digit strings and the empty string only. JavaScript also coerces surrounding whitespace, a sign, a decimal point, an exponent and a `0x` prefix (" 12", "+5", "1.5", "1e3", "0x10"); the model gives `None` for those, because the departure times it is applied to are "HHMM" digit strings.
- Organiser.EventRowOf: the event tag cell's width-2 padding is not stated, because the scripts measure emoji in UTF-16 code units and the model counts characters.
- Departures.Departure: every departure is assumed to carry both its booked and realtime "HHMM" times. The scripts call `slice` and `replace` on `locationDetail.realtimeDeparture` unguarded (train-track/TrainTrack.js:110-128, mikes-life-organiser/MikesLifeOrganiser.js:842-851), so a departure without one throws a TypeError there; the model does not have that path.
- Js.Fetched: a feed that parses to a JSON string is not distinguished. `NotAList` stands for `null`, an object, a number or a boolean.
- The scripts' `log` and `console.error` calls, and the deploy scripts, are not modelled.

## Findings

| source | as written | input that shows it | evidently intended | confidence | as-written member | corrected member |
|---|---|---|---|---|---|---|
| mikes-life-organiser/MikesLifeOrganiser.js:849-856 | across midnight `+= 2400` appends text, so the delay is realtime·10000 + 2400 − booked | booked "2358", realtime "0003" gives 30042 | 5 minutes | not executed | Departures.AfterMidnightExample | Departures.DelayMinutesNextDay |
| train-track/TrainTrack.js:118-125 | HHMM numbers are subtracted as if they were minutes | booked "1459", realtime "1501" gives 42 | 2 minutes | not executed | Departures.HourBoundaryExample | Departures.DelayMinutesSameDay |
| train-track/TrainTrack.js:66-68 | `data.departures` is read on a failed (`undefined`) direction, which throws and hides the other board | outbound request fails, inbound returns departures | the failed direction is skipped | not executed | TrainBoards.FailedOutboundHidesInbound | TrainBoards.FailedDirectionIsolated |
| weather-forecast/WeatherForecast.js:68-70 | the location goes to `getForecastData` unchecked, so no fix and no cache throw | four failed fixes, no cache file | no panel, as in the organiser's `if (location)` | not executed | ForecastWindows.NoLocationFailsWidget | ForecastWindows.GuardedWeatherForecast |
| bromley-bins/BromleyBins.js:60-66 | the k-th bin of interest gets the k-th icon, whichever bin it is | answer ["Non-Recyclable Refuse"] gives 📦 | 🗑️, the bin's own icon | not executed | Bins.LoneRefuseShowsPaperIcon | Bins.BromleyLabelByIdentity |

`Departures.Row` and the boards built from it follow the code as written; `Departures.CorrectedRow` takes its colours from the corrected delay, `Departures.DelayMinutes`, and `Departures.HourBoundaryRow` shows the two rows disagree.
The other corrected members are proved beside the code as written:

- `Departures.MidnightAlwaysSevere` and `Departures.DelayCountsHoursAsHundreds` show the two delay faults for all inputs.
- `TrainBoards.TrainTrackSkippingFailures` agrees with `TrainBoards.TrainTrack` whenever no request fails.
- `Bins.LabelsAgreeInOrder` shows the two bin labels agree whenever the bins arrive in table order.

=== FILE: bins.dfy ===
/** The bins of interest with their icons, and the BromleyBins widget's
    label of tomorrow's bins. */
module Bins {
  import opened Js
  import opened Sequences

  /** Bin names as the collections server spells them, each paired with the
      icon at the same position. */
  datatype IconTable = IconTable(interest: seq<string>, icons: seq<string>)

  const Table := IconTable(
    ["Paper & Cardboard", "Mixed Recycling (Cans, Plastics & Glass)", "Non-Recyclable Refuse"],
    ["📦", "♻️", "🗑️"])
  const NoCollectionTomorrowIcon := "✖️"

  /** One icon per bin name, no icon empty or containing a space, and no
      bin name listed twice. */
  predicate WellFormed(t: IconTable)
  {
    |t.icons| == |t.interest|
    && (forall k :: 0 <= k < |t.icons| ==> t.icons[k] != "" && ' ' !in t.icons[k])
    && (forall i, j :: 0 <= i < j < |t.interest| ==> t.interest[i] != t.interest[j])
  }

  lemma {:induction false} TableWellFormed()
    ensures WellFormed(Table)
  {
    var t := Table;
    assert t.interest[0][0] == 'P' && t.interest[1][0] == 'M' && t.interest[2][0] == 'N';
  }

  predicate OfInterest(t: IconTable, bin: string)
  {
    bin in t.interest
  }

  /** The bins of interest in `bins`, in their order. */
  function InterestIn(t: IconTable, bins: seq<string>): seq<string>
  {
    Filter(bins, b => OfInterest(t, b))
  }

  /** `getBinIcon`: a bin of interest gets the icon at its own position,
      any other bin the empty string. */
  function BinIcon(t: IconTable, bin: string): (icon: string)
    requires WellFormed(t)
    ensures !OfInterest(t, bin) <==> icon == ""
    ensures forall k :: 0 <= k < |t.interest| && bin == t.interest[k] ==> icon == t.icons[k]
    ensures ' ' !in icon
  {
    if bin in t.interest then t.icons[IndexOfItem(t.interest, bin)] else ""
  }

  /** `BIN_ICONS[binIndex]`: past the last icon the index reads `undefined`,
      which string concatenation spells out. */
  function IconAt(t: IconTable, binIndex: nat): (icon: string)
    requires WellFormed(t)
    ensures icon != ""
    ensures binIndex < |t.icons| ==> icon == t.icons[binIndex]
  {
    if binIndex < |t.icons| then t.icons[binIndex] else "undefined"
  }

  /** The loop of `getBinIconsLabel` as written: the `k`-th bin of interest
      met gets the `k`-th icon, whichever bin it is. */
  function IconsByCounter(t: IconTable, bins: seq<string>, binIndex: nat): (r: string)
    requires WellFormed(t)
  {
    if |bins| == 0 then ""
    else
      var rest := IconsByCounter(t, bins[1..], if OfInterest(t, bins[0]) then binIndex + 1 else binIndex);
      if OfInterest(t, bins[0]) then IconAt(t, binIndex) + rest else rest
  }

  /** The loop as the organiser's `getBinIcon` does it: every bin gets its
      own icon. */
  function IconsByIdentity(t: IconTable, bins: seq<string>): (r: string)
    requires WellFormed(t)
  {
    if |bins| == 0 then ""
    else
      var rest := IconsByIdentity(t, bins[1..]);
      BinIcon(t, bins[0]) + rest
  }

  /** The texts one after the other, as repeated `+=` builds them. */
  function ConcatAll(ss: seq<string>): string
    decreases |ss|
  {
    if |ss| == 0 then "" else ss[0] + ConcatAll(ss[1..])
  }

  /** The icons at `n` successive counter positions from `from`. */
  function CounterIcons(t: IconTable, n: nat, from: nat): (r: seq<string>)
    requires WellFormed(t)
    ensures |r| == n && forall j :: 0 <= j < n ==> r[j] == IconAt(t, from + j)
  {
    seq(n, j requires 0 <= j < n => IconAt(t, from + j))
  }

  /** Each bin's own icon, in order. */
  function OwnIcons(t: IconTable, bins: seq<string>): (r: seq<string>)
    requires WellFormed(t)
    ensures |r| == |bins| && forall j :: 0 <= j < |bins| ==> r[j] == BinIcon(t, bins[j])
  {
    seq(|bins|, j requires 0 <= j < |bins| => BinIcon(t, bins[j]))
  }

  /** The loop as written concatenates the icons at positions
      `binIndex`, `binIndex + 1`, ... one per bin of interest. */
  lemma {:induction false} CounterIsConcat(t: IconTable, bins: seq<string>, binIndex: nat)
    requires WellFormed(t)
    ensures IconsByCounter(t, bins, binIndex) == ConcatAll(CounterIcons(t, |InterestIn(t, bins)|, binIndex))
    decreases |bins|
  {
    if |bins| == 0 {
      assert InterestIn(t, bins) == [];
    } else {
      var x, rest := bins[0], bins[1..];
      assert bins == [x] + rest;
      InterestCons(t, x, rest);
      var n := |InterestIn(t, rest)|;
      if OfInterest(t, x) {
        CounterIsConcat(t, rest, binIndex + 1);
        var all := CounterIcons(t, n + 1, binIndex);
        assert all[1..] == CounterIcons(t, n, binIndex + 1);
      } else {
        CounterIsConcat(t, rest, binIndex);
      }
    }
  }

  /** The intended loop concatenates each bin of interest's own icon. */
  lemma {:induction false} IdentityIsConcat(t: IconTable, bins: seq<string>)
    requires WellFormed(t)
    ensures IconsByIdentity(t, bins) == ConcatAll(OwnIcons(t, InterestIn(t, bins)))
    decreases |bins|
  {
    if |bins| == 0 {
      assert InterestIn(t, bins) == [];
    } else {
      var x, rest := bins[0], bins[1..];
      assert bins == [x] + rest;
      InterestCons(t, x, rest);
      IdentityIsConcat(t, rest);
      assert IconsByIdentity(t, bins) == BinIcon(t, x) + IconsByIdentity(t, rest);
      if OfInterest(t, x) {
        OwnIconsCons(t, x, InterestIn(t, rest));
      } else {
        assert BinIcon(t, x) == "";
      }
    }
  }

  /** The first bin's own icon comes first. */
  lemma {:induction false} OwnIconsCons(t: IconTable, x: string, xs: seq<string>)
    requires WellFormed(t)
    ensures ConcatAll(OwnIcons(t, [x] + xs)) == BinIcon(t, x) + ConcatAll(OwnIcons(t, xs))
  {
    var ys := [x] + xs;
    var all := OwnIcons(t, ys);
    assert ys[0] == x;
    assert all[0] == BinIcon(t, x);
    assert forall j :: 0 <= j < |xs| ==> ys[j + 1] == xs[j];
    assert all[1..] == OwnIcons(t, xs);
  }

  /** Both loops leave the label empty exactly when no bin is of interest:
      every icon, `undefined` included, is non-empty. */
  lemma {:induction false} EmptyIffNoneOfInterest(t: IconTable, bins: seq<string>, binIndex: nat)
    requires WellFormed(t)
    ensures IconsByCounter(t, bins, binIndex) == "" <==> forall i :: 0 <= i < |bins| ==> !OfInterest(t, bins[i])
    ensures IconsByIdentity(t, bins) == "" <==> forall i :: 0 <= i < |bins| ==> !OfInterest(t, bins[i])
    decreases |bins|
  {
    if |bins| > 0 {
      EmptyIffNoneOfInterest(t, bins[1..], if OfInterest(t, bins[0]) then binIndex + 1 else binIndex);
      assert forall i :: 1 <= i < |bins| ==> bins[i] == bins[1..][i - 1];
    }
  }

  /** Each bin contributes on its own, whatever came before it: the icons of
      two runs of bins are the icons of each, one after the other. */
  lemma {:induction false} IconsByIdentityAppend(t: IconTable, a: seq<string>, b: seq<string>)
    requires WellFormed(t)
    ensures IconsByIdentity(t, a + b) == IconsByIdentity(t, a) + IconsByIdentity(t, b)
    decreases |a|
  {
    if |a| == 0 {
      assert a + b == b;
    } else {
      IconsByIdentityAppend(t, a[1..], b);
      IconsByIdentityStep(t, a, b);
    }
  }

  /** One step of the induction: the first bin of `a` moves to the front. */
  lemma {:induction false} IconsByIdentityStep(t: IconTable, a: seq<string>, b: seq<string>)
    requires WellFormed(t) && |a| > 0
    requires IconsByIdentity(t, a[1..] + b) == IconsByIdentity(t, a[1..]) + IconsByIdentity(t, b)
    ensures IconsByIdentity(t, a + b) == IconsByIdentity(t, a) + IconsByIdentity(t, b)
  {
    var x, y, z := BinIcon(t, a[0]), IconsByIdentity(t, a[1..]), IconsByIdentity(t, b);
    assert IconsByIdentity(t, a + b) == x + IconsByIdentity(t, a[1..] + b) by {
      assert a + b == [a[0]] + (a[1..] + b);
      IconsByIdentityCons(t, a[0], a[1..] + b);
    }
    assert IconsByIdentity(t, a) == x + y by {
      assert a == [a[0]] + a[1..];
      IconsByIdentityCons(t, a[0], a[1..]);
    }
    ConcatAssociative(x, y, z);
  }

  lemma ConcatAssociative(x: string, y: string, z: string)
    ensures x + (y + z) == (x + y) + z
  {
  }

  /** The first bin's icon comes first. */
  lemma {:induction false} IconsByIdentityCons(t: IconTable, x: string, rest: seq<string>)
    requires WellFormed(t)
    ensures IconsByIdentity(t, [x] + rest) == BinIcon(t, x) + IconsByIdentity(t, rest)
  {
    assert ([x] + rest)[0] == x && ([x] + rest)[1..] == rest;
  }

  /** The label of `getBinIconsLabel`, as written. A failed request throws;
      anything but a non-empty array shows the no-collection icon. */
  function BromleyLabel(response: Fetched<string>): (r: Result<string>)
    ensures response.Failed? <==> r == Err(FetchFailed)
    ensures response.NotAList? ==> r == Ok(NoCollectionTomorrowIcon)
    ensures response.List? && |response.items| == 0 ==> r == Ok(NoCollectionTomorrowIcon)
    ensures response.List? && |response.items| > 0 ==>
      r.Ok? && (r.value == "" <==> forall i :: 0 <= i < |response.items| ==> !OfInterest(Table, response.items[i]))
    ensures response.List? && |response.items| > 0 ==>
      (WellFormed(Table) && r == Ok(ConcatAll(CounterIcons(Table, |InterestIn(Table, response.items)|, 0))))
  {
    TableWellFormed();
    match response
    case Failed => Err(FetchFailed)
    case NotAList => Ok(NoCollectionTomorrowIcon)
    case List(items) =>
      EmptyIffNoneOfInterest(Table, items, 0);
      CounterIsConcat(Table, items, 0);
      if |items| > 0 then Ok(IconsByCounter(Table, items, 0)) else Ok(NoCollectionTomorrowIcon)
  }

  /** The label with each bin's own icon, as the pairing of the two
      configuration lists evidently intends. */
  function BromleyLabelByIdentity(response: Fetched<string>): (r: Result<string>)
    ensures response.Failed? <==> r == Err(FetchFailed)
    ensures response.NotAList? ==> r == Ok(NoCollectionTomorrowIcon)
    ensures response.List? && |response.items| == 0 ==> r == Ok(NoCollectionTomorrowIcon)
    ensures response.List? && |response.items| > 0 ==>
      r.Ok? && (r.value == "" <==> forall i :: 0 <= i < |response.items| ==> !OfInterest(Table, response.items[i]))
    ensures response.List? && |response.items| > 0 ==>
      (WellFormed(Table) && r == Ok(ConcatAll(OwnIcons(Table, InterestIn(Table, response.items)))))
  {
    TableWellFormed();
    match response
    case Failed => Err(FetchFailed)
    case NotAList => Ok(NoCollectionTomorrowIcon)
    case List(items) =>
      EmptyIffNoneOfInterest(Table, items, 0);
      IdentityIsConcat(Table, items);
      if |items| > 0 then Ok(IconsByIdentity(Table, items)) else Ok(NoCollectionTomorrowIcon)
  }

  /** The icons row is added only for a non-empty label. */
  function IconsRow(icons: string): (row: Option<string>)
    ensures row.Some? <==> |icons| > 0
    ensures row.Some? ==> row.value == icons
  {
    if |icons| > 0 then Some(icons) else None
  }

  /** A day whose bins are none of interest shows neither icons nor the
      no-collection icon: the widget has no icons row at all. */
  lemma {:induction false} NoBinsOfInterestNoRow(bins: seq<string>)
    requires |bins| > 0
    requires forall i :: 0 <= i < |bins| ==> !OfInterest(Table, bins[i])
    ensures BromleyLabel(List(bins)) == Ok("")
    ensures IconsRow(BromleyLabel(List(bins)).value) == None
  {
    TableWellFormed();
    EmptyIffNoneOfInterest(Table, bins, 0);
  }

  /** The counter gives each bin its own icon when the bins of interest
      arrive in the order of the table, starting at the counter's position. */
  lemma {:induction false} CounterAgreesInOrder(t: IconTable, bins: seq<string>, binIndex: nat)
    requires WellFormed(t)
    requires binIndex + |InterestIn(t, bins)| <= |t.interest|
    requires forall j :: 0 <= j < |InterestIn(t, bins)| ==> InterestIn(t, bins)[j] == t.interest[binIndex + j]
    ensures IconsByCounter(t, bins, binIndex) == IconsByIdentity(t, bins)
    decreases |bins|
  {
    if |bins| > 0 {
      var next := if OfInterest(t, bins[0]) then binIndex + 1 else binIndex;
      InOrderRest(t, bins, binIndex);
      CounterAgreesInOrder(t, bins[1..], next);
      CounterStep(t, bins, binIndex);
    }
  }

  /** The bins after the first still arrive in table order, from the
      counter's next position. */
  lemma {:induction false} InOrderRest(t: IconTable, bins: seq<string>, binIndex: nat)
    requires |bins| > 0
    requires binIndex + |InterestIn(t, bins)| <= |t.interest|
    requires forall j :: 0 <= j < |InterestIn(t, bins)| ==> InterestIn(t, bins)[j] == t.interest[binIndex + j]
    ensures var next := if OfInterest(t, bins[0]) then binIndex + 1 else binIndex;
      next + |InterestIn(t, bins[1..])| <= |t.interest| &&
      forall j :: 0 <= j < |InterestIn(t, bins[1..])| ==> InterestIn(t, bins[1..])[j] == t.interest[next + j]
    ensures OfInterest(t, bins[0]) ==> bins[0] == t.interest[binIndex]
  {
    var x, rest := bins[0], bins[1..];
    assert bins == [x] + rest;
    InterestCons(t, x, rest);
    var f, fr := InterestIn(t, bins), InterestIn(t, rest);
    if OfInterest(t, x) {
      assert f[0] == x;
      forall j | 0 <= j < |fr| ensures fr[j] == t.interest[binIndex + 1 + j] {
        assert fr[j] == f[j + 1];
      }
    }
  }

  /** One step of the agreement: the first bin gets the same icon from
      both loops. */
  lemma {:induction false} CounterStep(t: IconTable, bins: seq<string>, binIndex: nat)
    requires WellFormed(t) && |bins| > 0
    requires OfInterest(t, bins[0]) ==> binIndex < |t.interest| && bins[0] == t.interest[binIndex]
    requires var next := if OfInterest(t, bins[0]) then binIndex + 1 else binIndex;
      IconsByCounter(t, bins[1..], next) == IconsByIdentity(t, bins[1..])
    ensures IconsByCounter(t, bins, binIndex) == IconsByIdentity(t, bins)
  {
    var x, rest := bins[0], bins[1..];
    assert bins == [x] + rest;
    IconsByIdentityCons(t, x, rest);
    if OfInterest(t, x) {
      IconAtOwnPosition(t, binIndex);
    }
  }

  /** The counter's icon for the bin at the counter's own position is that
      bin's icon. */
  lemma {:induction false} IconAtOwnPosition(t: IconTable, k: nat)
    requires WellFormed(t) && k < |t.interest|
    ensures IconAt(t, k) == BinIcon(t, t.interest[k])
  {
  }

  lemma {:induction false} InterestCons(t: IconTable, x: string, rest: seq<string>)
    ensures OfInterest(t, x) ==> InterestIn(t, [x] + rest) == [x] + InterestIn(t, rest)
    ensures !OfInterest(t, x) ==> InterestIn(t, [x] + rest) == InterestIn(t, rest)
  {
    var keep := b => OfInterest(t, b);
    FilterAppend([x], rest, keep);
    FilterSingle(x, keep);
  }

  /** Whenever the bins of interest arrive in table order, the label as
      written is the intended one. */
  lemma {:induction false} LabelsAgreeInOrder(response: Fetched<string>)
    requires response.List?
    requires |InterestIn(Table, response.items)| <= |Table.interest|
    requires forall j :: 0 <= j < |InterestIn(Table, response.items)| ==> InterestIn(Table, response.items)[j] == Table.interest[j]
    ensures BromleyLabel(response) == BromleyLabelByIdentity(response)
  {
    TableWellFormed();
    CounterAgreesInOrder(Table, response.items, 0);
  }

  /** A day with only general waste shows the paper-and-cardboard icon. */
  lemma {:induction false} LoneRefuseShowsPaperIcon(bin: string)
    requires bin == "Non-Recyclable Refuse"
    ensures BromleyLabel(List([bin])) == Ok("📦")
    ensures BromleyLabelByIdentity(List([bin])) == Ok("🗑️")
  {
    TableWellFormed();
    var bins := [bin];
    assert bin == Table.interest[2];
    assert OfInterest(Table, bin);
    assert BinIcon(Table, bin) == "🗑️";
    assert IconAt(Table, 0) == "📦";
    assert bins[1..] == [];
    assert IconsByCounter(Table, bins[1..], 1) == "";
    assert IconsByIdentity(Table, bins[1..]) == "";
    assert IconsByCounter(Table, bins, 0) == "📦" + "";
    assert IconsByIdentity(Table, bins) == "🗑️" + "";
    assert "📦" + "" == "📦" && "🗑️" + "" == "🗑️";
  }
}

=== FILE: dates.dfy ===
/** "Is this date today or tomorrow": the scripts compare local calendar
    dates, taking "tomorrow" as the local date 24 hours from now. Dates are
    local calendar day numbers here, so "tomorrow" is `today + 1`. */
module DateBuckets {

  datatype Bucket = Today | Tomorrow | Other

  /** `isToday`. */
  predicate IsToday(day: int, today: int)
  {
    day == today
  }

  /** `isTomorrow`: the local date of now + 24h. */
  predicate IsTomorrow(day: int, today: int)
  {
    day == today + 1
  }

  /** The bucket a date falls in, testing "today" first as
      `setTextAttributesForDate` and the row labels do. */
  function BucketOf(day: int, today: int): (b: Bucket)
    ensures b == Today <==> IsToday(day, today)
    ensures b == Tomorrow <==> IsTomorrow(day, today)
    ensures b == Other <==> !IsToday(day, today) && !IsTomorrow(day, today)
  {
    if IsToday(day, today) then Today
    else if IsTomorrow(day, today) then Tomorrow
    else Other
  }

  /** The bin-collection styling tests "tomorrow" first; because the two
      tests are exclusive the order makes no difference. */
  lemma {:induction false} TestOrderIrrelevant(day: int, today: int)
    ensures BucketOf(day, today) ==
      (if IsTomorrow(day, today) then Tomorrow else if IsToday(day, today) then Today else Other)
  {
  }

  /** A day label: "Today", "Tomorrow", or the locale-formatted date the host
      supplies for any other day. */
  function DayLabel(day: int, today: int, otherLabel: string): (r: string)
    ensures IsToday(day, today) ==> r == "Today"
    ensures IsTomorrow(day, today) ==> r == "Tomorrow"
    ensures BucketOf(day, today) == Other ==> r == otherLabel
  {
    match BucketOf(day, today)
    case Today => "Today"
    case Tomorrow => "Tomorrow"
    case Other => otherLabel
  }

  datatype Colour = White | LightGray | Gray
  datatype Weight = Regular | Bold | Large

  datatype Style = Style(colour: Colour, weight: Weight)

  /** `setTextAttributesForDate`: today bold white, tomorrow light grey,
      anything else grey. */
  function DateStyle(day: int, today: int): (s: Style)
    ensures s.weight == Bold <==> IsToday(day, today)
    ensures s.weight == Regular <==> !IsToday(day, today)
    ensures s.colour == White <==> IsToday(day, today)
    ensures s.colour == LightGray <==> IsTomorrow(day, today)
    ensures s.colour == Gray <==> BucketOf(day, today) == Other
  {
    match BucketOf(day, today)
    case Today => Style(White, Bold)
    case Tomorrow => Style(LightGray, Regular)
    case Other => Style(Gray, Regular)
  }

  /** `setTextAttributesForBinCollectionDate`: the emphasis moves to
      tomorrow (large white), today is light grey, anything else grey. */
  function BinDateStyle(day: int, today: int): (s: Style)
    ensures s.weight == Large <==> IsTomorrow(day, today)
    ensures s.weight == Regular <==> !IsTomorrow(day, today)
    ensures s.colour == White <==> IsTomorrow(day, today)
    ensures s.colour == LightGray <==> IsToday(day, today)
    ensures s.colour == Gray <==> BucketOf(day, today) == Other
  {
    if IsTomorrow(day, today) then Style(White, Large)
    else if IsToday(day, today) then Style(LightGray, Regular)
    else Style(Gray, Regular)
  }
}

=== FILE: departures.dfy ===
/** One departure row of the train boards (organiser and TrainTrack): the
    delay between the booked and realtime departure times, the colours it
    selects, the "HH:MM" time label and the platform cell. */
module Departures {
  import opened Js
  import opened Numbers

  /** The `locationDetail` of a departure. Times are "HHMM" strings. */
  datatype Departure = Departure(
    crs: string,
    bookedDeparture: string,
    realtimeDeparture: string,
    cancelReasonCode: Option<string>,
    platform: Option<string>)

  /** `slice(0, 2)`. */
  function Prefix2(s: string): (r: string)
    ensures |r| == (if |s| < 2 then |s| else 2) && r == s[..|r|]
  {
    if |s| <= 2 then s else s[..2]
  }

  /** The midnight test of `getDelay`: booked in hour 23, leaving in hour 00. */
  predicate CrossesMidnight(booked: string, realtime: string)
  {
    Prefix2(booked) == "23" && Prefix2(realtime) == "00"
  }

  /** Appending the text "2400" to a time string multiplies its number by
      10000 and adds 2400; a non-number stays a non-number. */
  lemma {:induction false} AppendHours(t: string)
    ensures AllDigits(t + "2400") <==> AllDigits(t)
    ensures AllDigits(t) ==> Value(t + "2400") == Value(t) * 10000 + 2400
  {
    var s := t + "2400";
    assert forall i :: 0 <= i < |t| ==> s[i] == t[i];
    if AllDigits(t) {
      assert AllDigits("2400");
      assert Value("2400") == 2400 by {
        assert "2400"[..3] == "240" && "240"[..2] == "24" && "24"[..1] == "2";
      }
      ValueConcat(t, "2400");
      Pow10Small();
    }
  }

  /** `getDelay` as written. Across midnight `realtimeDepartureTime += 2400`
      appends the text "2400" to the time string; the subtraction then
      coerces both strings to numbers, so anything but digits gives NaN. */
  function Delay(booked: string, realtime: string): (d: Option<int>)
    ensures d.Some? <==> AllDigits(booked) && AllDigits(realtime)
    ensures d.Some? && !CrossesMidnight(booked, realtime) ==>
      d.value == Value(realtime) - Value(booked)
    ensures d.Some? && CrossesMidnight(booked, realtime) ==>
      d.value == Value(realtime) * 10000 + 2400 - Value(booked)
  {
    var shifted := if CrossesMidnight(booked, realtime) then realtime + "2400" else realtime;
    var a := ToNumber(shifted);
    var b := ToNumber(booked);
    AppendHours(realtime);
    if a.Some? && b.Some? then Some(a.value - b.value) else None
  }

  // ---------------------------------------------------------------------
  // Clock times

  /** A well-formed "HHMM" clock time. */
  predicate ValidHhmm(s: string)
  {
    |s| == 4 && AllDigits(s) && Value(s[..2]) < 24 && Value(s[2..]) < 60
  }

  /** Minutes since midnight of an "HHMM" time. */
  function Minutes(s: string): (m: nat)
    requires ValidHhmm(s)
    ensures m < 1440
  {
    Value(s[..2]) * 60 + Value(s[2..])
  }

  /** The "HHMM" text of a number of minutes since midnight. */
  function Hhmm(m: nat): (s: string)
    requires m < 1440
    ensures ValidHhmm(s) && Minutes(s) == m
    ensures s[..2] == Fixed(m / 60, 2) && s[2..] == Fixed(m % 60, 2)
  {
    var s := Fixed(m / 60, 2) + Fixed(m % 60, 2);
    assert s[..2] == Fixed(m / 60, 2) && s[2..] == Fixed(m % 60, 2);
    s
  }

  /** `Hhmm` and `Minutes` are inverse: every well-formed time is the text
      of its own minute count. */
  lemma {:induction false} HhmmOfMinutes(s: string)
    requires ValidHhmm(s)
    ensures Hhmm(Minutes(s)) == s
  {
    var h, m := s[..2], s[2..];
    FixedOfValue(h);
    FixedOfValue(m);
    assert Minutes(s) / 60 == Value(h);
    assert Minutes(s) % 60 == Value(m);
    assert s == h + m;
  }

  /** The number an "HHMM" text coerces to is 100 per hour plus the minutes. */
  lemma {:induction false} HhmmValue(s: string)
    requires ValidHhmm(s)
    ensures Value(s) == Value(s[..2]) * 100 + Value(s[2..])
  {
    assert s == s[..2] + s[2..];
    ValueConcat(s[..2], s[2..]);
  }

  /** The number an "HHMM" text of a minute count coerces to. */
  lemma {:induction false} HhmmNumber(m: nat)
    requires m < 1440
    ensures Value(Hhmm(m)) == (m / 60) * 100 + m % 60
  {
    HhmmValue(Hhmm(m));
  }

  /** The hour field decides the midnight test. */
  lemma {:induction false} HourPrefix(m: nat)
    requires m < 1440
    ensures Prefix2(Hhmm(m)) == "23" <==> m / 60 == 23
    ensures Prefix2(Hhmm(m)) == "00" <==> m / 60 == 0
  {
    var h := Hhmm(m)[..2];
    assert Value("23") == 23 by { assert "23"[..1] == "2"; }
    assert Value("00") == 0 by { assert "00"[..1] == "0"; }
    FixedOfValue("23");
    FixedOfValue("00");
  }

  /** The evidently intended `getDelay`: the lateness in minutes, with a
      departure after midnight counted from the booked time the day before.
      Outside the "HHMM" format it behaves as written. */
  function DelayMinutes(booked: string, realtime: string): (d: Option<int>)
    ensures ValidHhmm(booked) && ValidHhmm(realtime) ==> d.Some? && -1440 < d.value < 2880
    ensures !(ValidHhmm(booked) && ValidHhmm(realtime)) ==> d == Delay(booked, realtime)
  {
    if ValidHhmm(booked) && ValidHhmm(realtime) then
      var late := Minutes(realtime) - Minutes(booked);
      Some(if CrossesMidnight(booked, realtime) then late + 1440 else late)
    else
      Delay(booked, realtime)
  }

  /** A train leaving `late` minutes after its booked time on the same day
      (or at most an hour early) gets a delay of exactly `late`. */
  lemma {:induction false} DelayMinutesSameDay(booked: nat, late: int)
    requires booked < 1440 && 0 <= booked + late < 1440 && late >= -60
    ensures DelayMinutes(Hhmm(booked), Hhmm(booked + late)) == Some(late)
  {
    var b, r := Hhmm(booked), Hhmm(booked + late);
    assert !CrossesMidnight(b, r) by {
      HourPrefix(booked);
      HourPrefix(booked + late);
      if booked / 60 == 23 {
        assert booked >= 1380;
        assert (booked + late) / 60 != 0;
      }
    }
    assert Minutes(r) - Minutes(b) == late;
  }

  /** A train booked in the last hour of the day and leaving after midnight
      gets its lateness in minutes, not a time of the next day. */
  lemma {:induction false} DelayMinutesNextDay(booked: nat, late: int)
    requires 23 * 60 <= booked < 1440 && 1440 <= booked + late < 1440 + 60
    ensures DelayMinutes(Hhmm(booked), Hhmm(booked + late - 1440)) == Some(late)
  {
    var b, r := Hhmm(booked), Hhmm(booked + late - 1440);
    HourPrefix(booked);
    HourPrefix(booked + late - 1440);
    assert CrossesMidnight(b, r);
    assert Minutes(r) - Minutes(b) + 1440 == late;
  }

  /** As written, a same-day delay is off by 40 for every hour boundary
      the train crosses, because HHMM numbers are subtracted as if they were
      minutes. */
  lemma {:induction false} DelayCountsHoursAsHundreds(booked: string, realtime: string)
    requires ValidHhmm(booked) && ValidHhmm(realtime) && !CrossesMidnight(booked, realtime)
    ensures Delay(booked, realtime) ==
      Some(DelayMinutes(booked, realtime).value + 40 * (Value(realtime[..2]) - Value(booked[..2])))
  {
    HhmmValue(booked);
    HhmmValue(realtime);
  }

  /** Booked 14:59, left 15:01: two minutes late, reported as 42. */
  lemma {:induction false} HourBoundaryExample()
    ensures Delay(Hhmm(14 * 60 + 59), Hhmm(15 * 60 + 1)) == Some(42)
    ensures DelayMinutes(Hhmm(14 * 60 + 59), Hhmm(15 * 60 + 1)) == Some(2)
  {
    var booked, realtime := Hhmm(14 * 60 + 59), Hhmm(15 * 60 + 1);
    DelayMinutesSameDay(14 * 60 + 59, 2);
    assert DelayMinutes(booked, realtime) == Some(2);
    HourPrefix(14 * 60 + 59);
    assert Value(booked[..2]) == 14 && Value(realtime[..2]) == 15;
    DelayCountsHoursAsHundreds(booked, realtime);
  }

  /** As written, every departure across midnight reports a delay of at
      least 41, whatever the real lateness, so it always shows as severe. */
  lemma {:induction false} MidnightAlwaysSevere(booked: string, realtime: string)
    requires ValidHhmm(booked) && ValidHhmm(realtime) && CrossesMidnight(booked, realtime)
    ensures Delay(booked, realtime).Some? && Delay(booked, realtime).value >= 41
  {
    HhmmValue(booked);
  }

  /** Booked 23:58, left 00:03: five minutes late, reported as 30042. */
  lemma {:induction false} AfterMidnightExample()
    ensures Delay(Hhmm(23 * 60 + 58), Hhmm(3)) == Some(30042)
    ensures DelayMinutes(Hhmm(23 * 60 + 58), Hhmm(3)) == Some(5)
  {
    var b, r := Hhmm(23 * 60 + 58), Hhmm(3);
    assert CrossesMidnight(b, r) by {
      HourPrefix(23 * 60 + 58);
      HourPrefix(3);
    }
    assert Value(b) == 2358 by { HhmmNumber(23 * 60 + 58); }
    assert Value(r) == 3 by { HhmmNumber(3); }
    DelayMinutesNextDay(23 * 60 + 58, 5);
  }

  // ---------------------------------------------------------------------
  // Colours

  const SevereRed := "#fe4c29"
  const LateOrange := "#ff9913"
  const ModerateAmber := "#ffc800"
  const SlightCyan := "#61d2d9"
  const OnTimeGreen := "#57f470"

  datatype Ink = Black | White

  datatype Colours = Colours(background: string, foreground: Ink)

  predicate Cancelled(cancelReasonCode: Option<string>)
  {
    Truthy(cancelReasonCode)
  }

  /** How alarming a background is, from on time (0) to severe (4). */
  function Severity(background: string): nat
  {
    if background == SevereRed then 4
    else if background == LateOrange then 3
    else if background == ModerateAmber then 2
    else if background == SlightCyan then 1
    else 0
  }

  /** `getDepartureColors`: a cancelled train is red on white; otherwise the
      delay picks one of five tiers (over 6, over 4, over 2, over 0, else on
      time), and an unknown (NaN) delay compares false everywhere. */
  function DepartureColours(delay: Option<int>, cancelReasonCode: Option<string>): (c: Colours)
    ensures Cancelled(cancelReasonCode) ==> c == Colours(SevereRed, White)
    ensures c.foreground == White <==> Cancelled(cancelReasonCode) || (delay.Some? && delay.value > 6)
    ensures !Cancelled(cancelReasonCode) ==>
      (c.background == SevereRed <==> delay.Some? && delay.value > 6) &&
      (c.background == LateOrange <==> delay.Some? && 4 < delay.value <= 6) &&
      (c.background == ModerateAmber <==> delay.Some? && 2 < delay.value <= 4) &&
      (c.background == SlightCyan <==> delay.Some? && 0 < delay.value <= 2) &&
      (c.background == OnTimeGreen <==> delay.None? || delay.value <= 0)
  {
    if Cancelled(cancelReasonCode) then Colours(SevereRed, White)
    else if delay.None? then Colours(OnTimeGreen, Black)
    else if delay.value > 6 then Colours(SevereRed, White)
    else if delay.value > 4 then Colours(LateOrange, Black)
    else if delay.value > 2 then Colours(ModerateAmber, Black)
    else if delay.value > 0 then Colours(SlightCyan, Black)
    else Colours(OnTimeGreen, Black)
  }

  /** A later train never looks less alarming than an earlier one. */
  lemma {:induction false} ColoursMonotone(d1: int, d2: int, code: Option<string>)
    requires d1 <= d2
    ensures Severity(DepartureColours(Some(d1), code).background)
      <= Severity(DepartureColours(Some(d2), code).background)
  {
  }

  /** `addDeparturePlatform`: a cancelled train shows "X" in place of its
      platform. */
  function PlatformLabel(platform: Option<string>, cancelReasonCode: Option<string>): (r: Option<string>)
    ensures Cancelled(cancelReasonCode) ==> r == Some("X")
    ensures !Cancelled(cancelReasonCode) ==> r == platform
  {
    if Cancelled(cancelReasonCode) then Some("X") else platform
  }

  // ---------------------------------------------------------------------
  // The time label

  /** Four digits start at index `i` of `s`. */
  predicate FourDigitsAt(s: string, i: int)
  {
    0 <= i && i + 4 <= |s| && AllDigits(s[i..i + 4])
  }

  /** The leftmost match of `/\d{4}/` at or after `from`, or -1. */
  function FirstFourDigits(s: string, from: nat): (r: int)
    requires from <= |s|
    ensures r == -1 || (from <= r && FourDigitsAt(s, r))
    ensures forall j :: from <= j && (r == -1 || j < r) ==> !FourDigitsAt(s, j)
    decreases |s| - from
  {
    if from + 4 > |s| then -1
    else if FourDigitsAt(s, from) then from
    else FirstFourDigits(s, from + 1)
  }

  /** `replace(/(\d{2})(\d{2})/, '$1:$2')`: a colon goes into the middle of
      the first run of four digits; a text without one is left alone. */
  function ColonTime(s: string): (r: string)
    ensures FirstFourDigits(s, 0) == -1 ==> r == s
    ensures var i := FirstFourDigits(s, 0);
      i >= 0 ==> |r| == |s| + 1 && r[i + 2] == ':' && r[..i + 2] + r[i + 3..] == s
  {
    var i := FirstFourDigits(s, 0);
    if i == -1 then s
    else
      var r := s[..i + 2] + ":" + s[i + 2..];
      assert r[..i + 2] == s[..i + 2] && r[i + 3..] == s[i + 2..];
      r
  }

  /** A well-formed realtime departure reads "HH:MM". */
  lemma {:induction false} ColonTimeOfHhmm(m: nat)
    requires m < 1440
    ensures ColonTime(Hhmm(m)) == Fixed(m / 60, 2) + ":" + Fixed(m % 60, 2)
  {
    var s := Hhmm(m);
    assert FourDigitsAt(s, 0) by { assert s[0..4] == s; }
    var r := ColonTime(s);
    assert r[..2] == s[..2] && r[3..] == s[2..] by {
      assert r[..2] + r[3..] == s;
    }
    assert r == r[..2] + [r[2]] + r[3..];
  }

  /** What one departure row shows. */
  datatype DepartureRow = DepartureRow(time: string, colours: Colours, struckThrough: bool, platform: Option<string>)

  /** `addDeparture` as written: time label, colours from the `getDelay`
      result, strike-through and platform. Cancellation shows in all three
      at once. */
  function Row(d: Departure): (r: DepartureRow)
    ensures r.struckThrough <==> Cancelled(d.cancelReasonCode)
    ensures r.struckThrough ==> r.platform == Some("X") && r.colours == Colours(SevereRed, White)
    ensures !r.struckThrough ==>
      r.platform == d.platform && r.colours == DepartureColours(Delay(d.bookedDeparture, d.realtimeDeparture), None)
    ensures r.time == ColonTime(d.realtimeDeparture)
  {
    DepartureRow(
      ColonTime(d.realtimeDeparture),
      DepartureColours(Delay(d.bookedDeparture, d.realtimeDeparture), d.cancelReasonCode),
      Cancelled(d.cancelReasonCode),
      PlatformLabel(d.platform, d.cancelReasonCode))
  }

  /** The row with the evidently intended delay, `DelayMinutes`. */
  function CorrectedRow(d: Departure): (r: DepartureRow)
    ensures r.struckThrough <==> Cancelled(d.cancelReasonCode)
    ensures r.struckThrough ==> r.platform == Some("X") && r.colours == Colours(SevereRed, White)
    ensures !r.struckThrough ==>
      r.platform == d.platform && r.colours == DepartureColours(DelayMinutes(d.bookedDeparture, d.realtimeDeparture), None)
    ensures r.time == ColonTime(d.realtimeDeparture)
  {
    DepartureRow(
      ColonTime(d.realtimeDeparture),
      DepartureColours(DelayMinutes(d.bookedDeparture, d.realtimeDeparture), d.cancelReasonCode),
      Cancelled(d.cancelReasonCode),
      PlatformLabel(d.platform, d.cancelReasonCode))
  }

  /** The two rows differ at most in their colours: they agree on a
      cancelled train and on times outside the "HHMM" format. */
  lemma {:induction false} RowsDifferOnlyInColour(d: Departure)
    ensures Row(d).time == CorrectedRow(d).time && Row(d).platform == CorrectedRow(d).platform
    ensures Row(d).struckThrough == CorrectedRow(d).struckThrough
    ensures Cancelled(d.cancelReasonCode) ==> Row(d) == CorrectedRow(d)
    ensures !(ValidHhmm(d.bookedDeparture) && ValidHhmm(d.realtimeDeparture)) ==> Row(d) == CorrectedRow(d)
  {
  }

  /** Booked 14:59, left 15:01, not cancelled: the row as written is red,
      the corrected row cyan. */
  lemma {:induction false} HourBoundaryRow(d: Departure)
    requires d.bookedDeparture == Hhmm(14 * 60 + 59) && d.realtimeDeparture == Hhmm(15 * 60 + 1)
    requires !Cancelled(d.cancelReasonCode)
    ensures Row(d).colours == Colours(SevereRed, White)
    ensures CorrectedRow(d).colours == Colours(SlightCyan, Black)
  {
    HourBoundaryExample();
  }
}

=== FILE: forecast.dfy ===
/** The weather panel of the organiser and of the WeatherForecast widget:
    when a forecast is drawn at all, and which hours and days it shows. */
module ForecastWindows {
  import opened Js
  import opened Text
  import opened Numbers
  import opened Sequences
  import opened LocationResolver

  const MaxWeatherHours: nat := 4
  const MaxWeatherDays: nat := 4
  /** The look-back of the hourly window: one hour, in milliseconds. */
  const LookBackMs: int := 1000 * 60 * 60

  /** One entry of `forecastday[0].hour`. */
  datatype Hour = Hour(timeEpoch: Option<int>, time: string, icon: string, tempC: real, chanceOfRain: int, precipMm: real)

  /** The `day` summary of a forecast day. */
  datatype DaySummary = DaySummary(icon: string, maxTempC: real, avgTempC: real, dailyChanceOfRain: int, totalPrecipMm: real)

  datatype ForecastDay = ForecastDay(date: Option<string>, day: DaySummary, hour: Option<seq<Hour>>)

  /** A parsed forecast answer; `forecastday` is `None` when it, or the
      `forecast` object holding it, is missing. */
  datatype ForecastResponse = ForecastResponse(forecastday: Option<seq<ForecastDay>>)

  /** The five arrays a weather section pushes to, one entry per column. */
  datatype Columns = Columns(times: seq<Option<string>>, icons: seq<string>, temps: seq<real>, chances: seq<int>, precips: seq<real>)

  /** All five arrays have one entry per column. */
  predicate Parallel(c: Columns)
  {
    |c.icons| == |c.times| && |c.temps| == |c.times| && |c.chances| == |c.times| && |c.precips| == |c.times|
  }

  // ---------------------------------------------------------------------
  // Hourly window

  /** An hour slot is shown when its `time_epoch` is truthy and no more
      than an hour before now: `time_epoch >= (now - 3600000) / 1000`,
      scaled to milliseconds. */
  predicate HourShown(h: Hour, nowMs: int)
  {
    h.timeEpoch.Some? && h.timeEpoch.value != 0 && h.timeEpoch.value * 1000 >= nowMs - LookBackMs
  }

  /** The hourly test as a function value. */
  function ShownAt(nowMs: int): Hour -> bool
  {
    h => HourShown(h, nowMs)
  }

  /** The slots the hourly loop keeps: the first four shown, in feed order.
      A window with room to spare holds every shown slot. */
  function HourlyWindow(hours: seq<Hour>, nowMs: int): (r: seq<Hour>)
    ensures r == Take(Filter(hours, ShownAt(nowMs)), MaxWeatherHours)
    ensures forall k :: 0 <= k < |r| ==> HourShown(r[k], nowMs)
    ensures forall h :: h in r ==> h in hours
    ensures |r| < MaxWeatherHours ==> forall h :: h in hours && HourShown(h, nowMs) ==> h in r
  {
    var r := FirstPassing(hours, ShownAt(nowMs), MaxWeatherHours);
    assert forall h :: h in Filter(hours, ShownAt(nowMs)) <==> h in hours && HourShown(h, nowMs) by {
      forall h ensures h in Filter(hours, ShownAt(nowMs)) <==> h in hours && HourShown(h, nowMs) {
        FilterMembers(hours, ShownAt(nowMs), h);
      }
    }
    r
  }

  /** `forecast.time.split(' ')[1]`: the text after the first space, up to
      the next space or the end, or `undefined` when the time has no
      space. */
  function HourLabel(time: string): (r: Option<string>)
    ensures r.Some? <==> ' ' in time
    ensures r.Some? ==> ' ' !in r.value
    ensures r.Some? ==> var i := IndexOf(time, " ");
      0 <= i && i + 1 + |r.value| <= |time| && time[i + 1..i + 1 + |r.value|] == r.value
      && (i + 1 + |r.value| == |time| || time[i + 1 + |r.value|] == ' ')
  {
    assert [' '] == " ";
    if ' ' in time then
      SplitSecond(time, ' ');
      Some(Split(time, ' ')[1])
    else
      None
  }

  /** The hour columns of a list of kept slots: column `k` holds slot
      `k`'s time label, icon, temperature, chance of rain and rainfall. */
  function HourColumns(kept: seq<Hour>): (c: Columns)
    ensures Parallel(c) && |c.times| == |kept|
    ensures forall k :: 0 <= k < |kept| ==>
      c.times[k] == HourLabel(kept[k].time) && c.icons[k] == kept[k].icon && c.temps[k] == kept[k].tempC
      && c.chances[k] == kept[k].chanceOfRain && c.precips[k] == kept[k].precipMm
  {
    Columns(
      seq(|kept|, k requires 0 <= k < |kept| => HourLabel(kept[k].time)),
      seq(|kept|, k requires 0 <= k < |kept| => kept[k].icon),
      seq(|kept|, k requires 0 <= k < |kept| => kept[k].tempC),
      seq(|kept|, k requires 0 <= k < |kept| => kept[k].chanceOfRain),
      seq(|kept|, k requires 0 <= k < |kept| => kept[k].precipMm))
  }

  /** `populateHourlyWeatherContent`: the loop pushes to all five arrays at
      once and stops when four columns are filled, so the arrays always
      agree in length and hold the slots of the hourly window. */
  method HourlyColumns(hours: seq<Hour>, nowMs: int) returns (c: Columns)
    ensures Parallel(c) && |c.times| <= MaxWeatherHours
    ensures c == HourColumns(HourlyWindow(hours, nowMs))
  {
    var keep := ShownAt(nowMs);
    c := Columns([], [], [], [], []);
    var kept: seq<Hour> := [];
    var i := 0;
    while i < |hours| && |c.times| < MaxWeatherHours
      invariant 0 <= i <= |hours|
      invariant kept == Filter(hours[..i], keep)
      invariant |kept| <= MaxWeatherHours
      invariant c == HourColumns(kept)
    {
      var h := hours[i];
      assert hours[..i + 1][..i] == hours[..i];
      if h.timeEpoch.Some? && h.timeEpoch.value != 0 && h.timeEpoch.value * 1000 >= nowMs - LookBackMs {
        HourColumnsAppend(kept, h);
        c := Columns(c.times + [HourLabel(h.time)], c.icons + [h.icon], c.temps + [h.tempC],
          c.chances + [h.chanceOfRain], c.precips + [h.precipMm]);
        kept := kept + [h];
      }
      i := i + 1;
    }
    CappedLoopExit(hours, keep, MaxWeatherHours, i, kept);
  }

  /** One more kept slot adds one entry at the end of every column. */
  lemma {:induction false} HourColumnsAppend(kept: seq<Hour>, h: Hour)
    ensures var c := HourColumns(kept);
      HourColumns(kept + [h]) == Columns(c.times + [HourLabel(h.time)], c.icons + [h.icon],
        c.temps + [h.tempC], c.chances + [h.chanceOfRain], c.precips + [h.precipMm])
  {
  }

  // ---------------------------------------------------------------------
  // Daily window

  /** A day is shown when its `date` is truthy and compares greater than
      today's UTC ISO date, so today itself is not shown. */
  predicate DayShown(d: ForecastDay, today: string)
  {
    Truthy(d.date) && Less(today, d.date.value)
  }

  /** Today's own entry is never in the daily window. */
  lemma {:induction false} TodayNotShown(d: ForecastDay, today: string)
    requires d.date == Some(today)
    ensures !DayShown(d, today)
  {
    LessIrreflexive(today);
  }

  /** The daily test as a function value. */
  function LaterThan(today: string): ForecastDay -> bool
  {
    d => DayShown(d, today)
  }

  /** The days the daily loop keeps: the first four shown, in feed order.
      A window with room to spare holds every shown day. */
  function DailyWindow(days: seq<ForecastDay>, today: string): (r: seq<ForecastDay>)
    ensures r == Take(Filter(days, LaterThan(today)), MaxWeatherDays)
    ensures forall k :: 0 <= k < |r| ==> DayShown(r[k], today)
    ensures forall d :: d in r ==> d in days
    ensures |r| < MaxWeatherDays ==> forall d :: d in days && DayShown(d, today) ==> d in r
  {
    var r := FirstPassing(days, LaterThan(today), MaxWeatherDays);
    assert forall d :: d in Filter(days, LaterThan(today)) <==> d in days && DayShown(d, today) by {
      forall d ensures d in Filter(days, LaterThan(today)) <==> d in days && DayShown(d, today) {
        FilterMembers(days, LaterThan(today), d);
      }
    }
    r
  }

  /** Which temperature a day column shows: the organiser takes the day's
      maximum, WeatherForecast its average. */
  datatype DailyTemp = MaxTemp | AvgTemp

  /** The day columns of a list of kept days; the label is the date that
      the host formats as a weekday. */
  function DayColumns(kept: seq<ForecastDay>, temp: DailyTemp): (c: Columns)
    ensures Parallel(c) && |c.times| == |kept|
    ensures forall k :: 0 <= k < |kept| ==>
      c.times[k] == kept[k].date && c.icons[k] == kept[k].day.icon
      && c.temps[k] == (if temp == MaxTemp then kept[k].day.maxTempC else kept[k].day.avgTempC)
      && c.chances[k] == kept[k].day.dailyChanceOfRain && c.precips[k] == kept[k].day.totalPrecipMm
  {
    Columns(
      seq(|kept|, k requires 0 <= k < |kept| => kept[k].date),
      seq(|kept|, k requires 0 <= k < |kept| => kept[k].day.icon),
      seq(|kept|, k requires 0 <= k < |kept| =>
        if temp == MaxTemp then kept[k].day.maxTempC else kept[k].day.avgTempC),
      seq(|kept|, k requires 0 <= k < |kept| => kept[k].day.dailyChanceOfRain),
      seq(|kept|, k requires 0 <= k < |kept| => kept[k].day.totalPrecipMm))
  }

  /** The digit fields of an ISO 8601 calendar date: four for the year,
      two each for the month and the day. */
  predicate DateFields(y: string, m: string, d: string)
  {
    |y| == 4 && |m| == 2 && |d| == 2 && AllDigits(y) && AllDigits(m) && AllDigits(d)
  }

  /** "YYYY-MM-DD", as `toISOString` and the forecast feed write it. */
  function IsoDate(y: string, m: string, d: string): (s: string)
    requires DateFields(y, m, d)
    ensures |s| == 10 && s[4] == '-' && s[7] == '-'
  {
    y + ("-" + (m + ("-" + d)))
  }

  /** Calendar order of two dates given by their fields' values. */
  predicate Before(y1: nat, m1: nat, d1: nat, y2: nat, m2: nat, d2: nat)
  {
    y1 < y2 || (y1 == y2 && (m1 < m2 || (m1 == m2 && d1 < d2)))
  }

  /** On ISO dates, string order is calendar order. */
  lemma {:induction false} IsoDateOrder(y1: string, m1: string, d1: string, y2: string, m2: string, d2: string)
    requires DateFields(y1, m1, d1) && DateFields(y2, m2, d2)
    ensures Less(IsoDate(y1, m1, d1), IsoDate(y2, m2, d2)) <==>
      Before(Value(y1), Value(m1), Value(d1), Value(y2), Value(m2), Value(d2))
  {
    var md1, md2 := m1 + ("-" + d1), m2 + ("-" + d2);
    MonthDayOrder(m1, d1, m2, d2);
    AfterDash(md1, md2);
    DigitsThenRest(y1, "-" + md1, y2, "-" + md2);
  }

  /** Below the year: the month decides, then the day. */
  lemma {:induction false} MonthDayOrder(m1: string, d1: string, m2: string, d2: string)
    requires |m1| == |m2| == 2 && |d1| == |d2| == 2
    requires AllDigits(m1) && AllDigits(d1) && AllDigits(m2) && AllDigits(d2)
    ensures Less(m1 + ("-" + d1), m2 + ("-" + d2)) <==>
      Value(m1) < Value(m2) || (Value(m1) == Value(m2) && Value(d1) < Value(d2))
  {
    LessDigits(d1, d2);
    AfterDash(d1, d2);
    DigitsThenRest(m1, "-" + d1, m2, "-" + d2);
  }

  /** The daily window's `>` keeps exactly the days after today. */
  lemma {:induction false} DayShownIffLater(day: ForecastDay, y1: string, m1: string, d1: string, y2: string, m2: string, d2: string)
    requires DateFields(y1, m1, d1) && DateFields(y2, m2, d2)
    requires day.date == Some(IsoDate(y2, m2, d2))
    ensures DayShown(day, IsoDate(y1, m1, d1)) <==>
      Before(Value(y1), Value(m1), Value(d1), Value(y2), Value(m2), Value(d2))
  {
    IsoDateOrder(y1, m1, d1, y2, m2, d2);
  }

  /** A shared separator leaves the order to what follows it. */
  lemma {:induction false} AfterDash(r1: string, r2: string)
    ensures Less("-" + r1, "-" + r2) <==> Less(r1, r2)
  {
    LessConcat("-", r1, "-", r2);
  }

  // ---------------------------------------------------------------------
  // The panel

  /** The guard of `populateWeatherContent`: a forecast arrived, it has at
      least one day, and day 0 has at least one hour. */
  predicate Renderable(resp: Option<ForecastResponse>)
  {
    resp.Some? && resp.value.forecastday.Some? && |resp.value.forecastday.value| > 0
    && resp.value.forecastday.value[0].hour.Some? && |resp.value.forecastday.value[0].hour.value| > 0
  }

  datatype WeatherPanel = NoWeather | Weather(hourly: Columns, daily: Columns)

  /** The panel drawn for a forecast answer: the hourly window over day 0's
      hours, then the daily window over all days. */
  function Panel(resp: Option<ForecastResponse>, nowMs: int, today: string, temp: DailyTemp): (p: WeatherPanel)
    ensures p.Weather? <==> Renderable(resp)
    ensures p.Weather? ==>
      var days := resp.value.forecastday.value;
      p.hourly == HourColumns(HourlyWindow(days[0].hour.value, nowMs)) &&
      p.daily == DayColumns(DailyWindow(days, today), temp)
  {
    if Renderable(resp) then
      var days := resp.value.forecastday.value;
      Weather(HourColumns(HourlyWindow(days[0].hour.value, nowMs)), DayColumns(DailyWindow(days, today), temp))
    else
      NoWeather
  }

  /** The organiser's weather section: no location, no request and no
      panel. */
  function OrganiserWeather(location: Option<Coordinates>, fetch: Coordinates -> Option<ForecastResponse>, nowMs: int, today: string): (p: WeatherPanel)
    ensures location.None? ==> p == NoWeather
    ensures location.Some? ==> p == Panel(fetch(location.value), nowMs, today, MaxTemp)
  {
    if location.Some? then Panel(fetch(location.value), nowMs, today, MaxTemp) else NoWeather
  }

  /** The WeatherForecast widget as written: the location goes to
      `getForecastData` unchecked, so an `undefined` location throws when
      the request URL reads its latitude. */
  function WeatherForecast(location: Option<Coordinates>, fetch: Coordinates -> Option<ForecastResponse>, nowMs: int, today: string): (r: Result<WeatherPanel>)
    ensures location.None? ==> r == Err(TypeError)
    ensures location.Some? ==> r == Ok(Panel(fetch(location.value), nowMs, today, AvgTemp))
  {
    if location.None? then Err(TypeError) else Ok(Panel(fetch(location.value), nowMs, today, AvgTemp))
  }

  /** WeatherForecast with the organiser's `if (location)` guard: a missing
      location leaves the panel out instead of failing the widget. */
  function GuardedWeatherForecast(location: Option<Coordinates>, fetch: Coordinates -> Option<ForecastResponse>, nowMs: int, today: string): (p: WeatherPanel)
    ensures location.Some? ==> Ok(p) == WeatherForecast(location, fetch, nowMs, today)
    ensures location.None? ==> p == NoWeather
  {
    if location.Some? then Panel(fetch(location.value), nowMs, today, AvgTemp) else NoWeather
  }

  /** As written, four failed fixes with no cache stop the widget; guarded,
      it renders without a weather panel. */
  lemma {:induction false} NoLocationFailsWidget(outcomes: seq<Attempt>, finalRead: bool, fetch: Coordinates -> Option<ForecastResponse>, nowMs: int, today: string)
    requires |outcomes| == MaxAttempts
    requires forall j :: 0 <= j < MaxAttempts ==> outcomes[j] == NoFix
    ensures WeatherForecast(GetLocation(outcomes, 0, None, finalRead).location, fetch, nowMs, today) == Err(TypeError)
    ensures GuardedWeatherForecast(GetLocation(outcomes, 0, None, finalRead).location, fetch, nowMs, today) == NoWeather
  {
    NoFixNoCache(outcomes, finalRead);
  }
}

=== FILE: js.dfy ===
/** Values as the widget scripts see them after `JSON.parse`: absent fields,
    JavaScript truthiness, and the three ways a fetched list can arrive. */
module Js {

  /** A JSON field that may be absent (`undefined` or `null`). */
  datatype Option<+T> = None | Some(value: T)

  /** The outcome of a step that can throw: the error path of the scripts. */
  datatype Result<+T> = Ok(value: T) | Err(error: Error)

  /** The only exceptions the modelled code can raise. */
  datatype Error =
    | FetchFailed     // `Request.loadJSON` rejected (timeout, transport, bad JSON)
    | TypeError       // property access on `undefined`, or iterating a non-array

  /** What `loadJSON` delivered for an endpoint that should return an array:
      the request failed, it parsed to something that is not an array
      (`null`, an object, a number), or it parsed to an array. */
  datatype Fetched<+T> = Failed | NotAList | List(items: seq<T>)

  /** A string field in a condition: `undefined`, `null` and `''` are falsy. */
  predicate Truthy(s: Option<string>)
  {
    s.Some? && s.value != ""
  }
}

=== FILE: labels.dfy ===
/** The fixed-width text cells of the list widgets: truncation and padding,
    centred date headers, abbreviated team names, the match-time, score and
    TV-channel cells of a football row. */
module ListText {
  import opened Js
  import opened Text
  import opened Numbers

  /** `getTextFormattedForListWidget(text, n)`: a text longer than `n` keeps
      its first `n - 1` characters and gets one trailing space; a shorter one
      is space-padded on the right. Either way the cell is `n` wide. */
  function FormatForListWidget(text: string, n: nat): (r: string)
    ensures |r| == n
    ensures forall i :: 0 <= i < n ==>
      r[i] == (if i < |text| && (|text| <= n || i < n - 1) then text[i] else ' ')
  {
    var truncated := if |text| > n then (if n == 0 then "" else text[..n - 1]) else text;
    PadEnd(truncated, n)
  }

  /** A formatted cell is already formatted: a second pass changes nothing. */
  lemma {:induction false} FormatIdempotent(text: string, n: nat)
    ensures FormatForListWidget(FormatForListWidget(text, n), n) == FormatForListWidget(text, n)
  {
  }

  /** The width a date header is left-padded to in the football-scores
      widget, chosen per label by hand. */
  function HeaderWidth(text: string): nat
  {
    if text == "Today" then 23
    else if text == "Tomorrow" then 25
    else if text == "Monday" then 24
    else if text == "Tuesday" then 23
    else if text == "Wednesday" then 25
    else if text == "Thursday" then 25
    else if text == "Friday" then 24
    else if text == "Saturday" then 25
    else if text == "Sunday" then 24
    else 24
  }

  /** `getHeaderCentered`: the label right-aligned in its header width. */
  function HeaderCentered(text: string): (r: string)
    ensures |r| == if |text| >= HeaderWidth(text) then |text| else HeaderWidth(text)
    ensures r[|r| - |text|..] == text
    ensures forall i :: 0 <= i < |r| - |text| ==> r[i] == ' '
  {
    PadStart(text, HeaderWidth(text))
  }

  /** `slice(0, 3)`. */
  function Take3(s: string): (r: string)
    ensures |r| <= 3 && |r| <= |s| && r == s[..|r|]
    ensures |s| <= 3 ==> r == s
  {
    if |s| <= 3 then s else s[..3]
  }

  /** A knockout placeholder such as "Winner QF1" or "Loser SF2". */
  predicate IsPlaceholder(name: string)
  {
    Contains(name, "Winner") || Contains(name, "Loser")
  }

  /** `getTeamName`: a two-team name "A/B" is shortened to three characters
      on each side of the first '/', a placeholder becomes "TBC", and any
      other name is shown unchanged. */
  function TeamName(name: string): (r: string)
    ensures '/' in name ==>
      var parts := Split(name, '/');
      Split(r, '/') == [Take3(parts[0]), Take3(parts[1])] && |r| <= 7
    ensures '/' !in name && IsPlaceholder(name) ==> r == "TBC"
    ensures '/' !in name && !IsPlaceholder(name) ==> r == name
  {
    ContainsChar(name, '/');
    if Contains(name, "/") then
      var parts := Split(name, '/');
      var r := Take3(parts[0]) + "/" + Take3(parts[1]);
      assert r == Join([Take3(parts[0]), Take3(parts[1])], '/');
      SplitJoin([Take3(parts[0]), Take3(parts[1])], '/');
      r
    else if IsPlaceholder(name) then
      "TBC"
    else
      name
  }

  /** Abbreviating an abbreviated name changes nothing, so a display name
      that is already short is left alone. */
  lemma {:induction false} TeamNameIdempotent(name: string)
    ensures TeamName(TeamName(name)) == TeamName(name)
  {
    var r := TeamName(name);
    if '/' in name {
      var parts := Split(name, '/');
      var a, b := Take3(parts[0]), Take3(parts[1]);
      assert r == Join([a, b], '/');
      assert '/' in r by { assert r[|a|] == '/'; }
      SplitJoin([a, b], '/');
    } else if IsPlaceholder(name) {
      assert r == "TBC";
      assert IndexOf("TBC", "Winner") == -1;
      assert IndexOf("TBC", "Loser") == -1;
    }
  }

  /** The team-name cell of the top-scores and organiser rows: the
      abbreviated name in eight characters. A two-team name or a placeholder
      always fits, so it is shown whole. */
  function TeamCell(name: string): (r: string)
    ensures |r| == 8
    ensures '/' in name || IsPlaceholder(name) ==>
      var t := TeamName(name);
      |t| < 8 && r[..|t|] == t && forall i :: |t| <= i < 8 ==> r[i] == ' '
    ensures '/' !in name && !IsPlaceholder(name) ==> r == RawTeamCell(name)
  {
    FormatForListWidget(TeamName(name), 8)
  }

  /** The team-name cell of the football-scores rows: the display name as
      it is, so a name longer than eight characters loses everything from
      its eighth character on. */
  function RawTeamCell(name: string): (r: string)
    ensures |r| == 8
    ensures |name| > 8 ==> r == name[..7] + " "
    ensures |name| <= 8 ==> r[..|name|] == name && forall i :: |name| <= i < 8 ==> r[i] == ' '
  {
    FormatForListWidget(name, 8)
  }

  /** The match-time cell before padding: the in-play `timeLabel` when it is
      truthy, else the `kickOffTime` when truthy, else empty. */
  function MatchTime(timeLabel: Option<string>, kickOffTime: Option<string>): (r: string)
    ensures Truthy(timeLabel) ==> r == timeLabel.value
    ensures !Truthy(timeLabel) && Truthy(kickOffTime) ==> r == kickOffTime.value
    ensures r == "" <==> !Truthy(timeLabel) && !Truthy(kickOffTime)
  {
    if Truthy(timeLabel) then timeLabel.value
    else if Truthy(kickOffTime) then kickOffTime.value
    else ""
  }

  /** A team's `score` as the feed gives it: absent, JSON `null`, or a
      number. JavaScript treats the first two differently. */
  datatype Score = Undefined | Null | Num(n: int)

  /** `(started || finished) && score >= 0`: `undefined >= 0` is false,
      `null >= 0` is true, a number compares as itself. */
  predicate ScoreTested(started: bool, finished: bool, score: Score)
  {
    (started || finished) && (score.Null? || (score.Num? && score.n >= 0))
  }

  /** The two-character score cell of the top-scores and organiser widgets.
      A null score passes the test and then fails at `null.toString()`. */
  function ScoreCell(started: bool, finished: bool, score: Score): (r: Result<string>)
    ensures r.Err? <==> ScoreTested(started, finished, score) && score.Null?
    ensures r.Err? ==> r.error == TypeError
    ensures r.Ok? ==> |r.value| == 2
    ensures ScoreTested(started, finished, score) && score.Num? ==>
      r == Ok(FormatForListWidget(NatToString(score.n), 2))
    ensures !ScoreTested(started, finished, score) ==> r == Ok("  ")
  {
    var blank := FormatForListWidget("", 2);
    assert blank == "  ";
    if !ScoreTested(started, finished, score) then Ok(blank)
    else if score.Null? then Err(TypeError)
    else Ok(FormatForListWidget(IntToString(score.n), 2))
  }

  /** The football-scores rule: a score is shown only when it is truthy, so
      `undefined`, `null` and 0 are all hidden. */
  function TruthyScoreCell(score: Score): (r: string)
    ensures |r| == 2
    ensures score.Num? && score.n != 0 ==> r == FormatForListWidget(IntToString(score.n), 2)
    ensures !score.Num? || score.n == 0 ==> r == "  "
  {
    if score.Num? && score.n != 0 then
      FormatForListWidget(IntToString(score.n), 2)
    else
      FormatForListWidget("", 2)
  }

  /** For a match under way the two score rules disagree on the score 0
      (shown by one, hidden by the other), on negative scores, and on
      `null`, which one rule hides and the other throws on. */
  lemma {:induction false} ScoreRulesDiffer(v: int)
    ensures ScoreCell(true, false, Num(v)) != Ok("  ") <==> v >= 0
    ensures TruthyScoreCell(Num(v)) != "  " <==> v != 0
    ensures ScoreCell(true, false, Num(0)) == Ok("0 ")
    ensures ScoreCell(true, false, Null) == Err(TypeError) && TruthyScoreCell(Null) == "  "
  {
    var s := IntToString(v);
    assert |s| >= 1;
    assert s[0] != ' ' by {
      if v < 0 { assert s[0] == '-'; } else { assert IsDigit(s[0]); }
    }
    assert FormatForListWidget(s, 2)[0] == s[0];
    assert NatToString(0) == "0";
    assert FormatForListWidget("0", 2) == "0 ";
  }

  /** The TV channel name with number words turned into digits (the first
      "One", "Two", "Three" and "Four", in that order) and then "Channel 4"
      shortened to "Ch 4". */
  function ChannelName(fullName: string): (r: string)
    ensures |r| <= |fullName|
    ensures r == fullName <==>
      (!Contains(fullName, "One") && !Contains(fullName, "Two") && !Contains(fullName, "Three")
       && !Contains(fullName, "Four") && !Contains(fullName, "Channel 4"))
  {
    var one := ReplaceFirst(fullName, "One", "1");
    var two := ReplaceFirst(one, "Two", "2");
    var three := ReplaceFirst(two, "Three", "3");
    var four := ReplaceFirst(three, "Four", "4");
    ReplaceFirstLength(fullName, "One", "1");
    ReplaceFirstLength(one, "Two", "2");
    ReplaceFirstLength(two, "Three", "3");
    ReplaceFirstLength(three, "Four", "4");
    ReplaceFirstLength(four, "Channel 4", "Ch 4");
    ReplaceFirst(four, "Channel 4", "Ch 4")
  }

  /** The five replacements of the channel name, in the order they run. */
  const ChannelWords: seq<(string, string)> :=
    [("One", "1"), ("Two", "2"), ("Three", "3"), ("Four", "4"), ("Channel 4", "Ch 4")]

  /** `s` with the first occurrence of word `k` of `ChannelWords` replaced. */
  function ReplacedWord(s: string, k: nat): (r: string)
    requires k < |ChannelWords|
    requires Contains(s, ChannelWords[k].0)
  {
    var i := IndexOf(s, ChannelWords[k].0);
    s[..i] + ChannelWords[k].1 + s[i + |ChannelWords[k].0|..]
  }

  /** The first `n` replacements of `ChannelWords`, applied in order. */
  function ApplyWords(s: string, n: nat): string
    requires n <= |ChannelWords|
  {
    if n == 0 then s
    else ReplaceFirst(ApplyWords(s, n - 1), ChannelWords[n - 1].0, ChannelWords[n - 1].1)
  }

  /** The channel name runs all five replacements. */
  lemma {:induction false} ChannelNameAppliesWords(name: string)
    ensures ChannelName(name) == ApplyWords(name, |ChannelWords|)
  {
    assert ApplyWords(name, 1) == ReplaceFirst(name, "One", "1");
    assert ApplyWords(name, 2) == ReplaceFirst(ApplyWords(name, 1), "Two", "2");
    assert ApplyWords(name, 3) == ReplaceFirst(ApplyWords(name, 2), "Three", "3");
    assert ApplyWords(name, 4) == ReplaceFirst(ApplyWords(name, 3), "Four", "4");
  }

  /** Words that do not occur leave the name as it is. */
  lemma {:induction false} AbsentWordsKeepName(name: string, n: nat)
    requires n <= |ChannelWords|
    requires forall m :: 0 <= m < n ==> !Contains(name, ChannelWords[m].0)
    ensures ApplyWords(name, n) == name
  {
    if n > 0 {
      AbsentWordsKeepName(name, n - 1);
      ReplaceFirstLength(name, ChannelWords[n - 1].0, ChannelWords[n - 1].1);
    }
  }

  /** Once word `k` has been replaced, later words that do not occur in
      the result change nothing. */
  lemma {:induction false} LaterWordsKeepResult(name: string, k: nat, n: nat)
    requires k < n <= |ChannelWords|
    requires forall m :: 0 <= m < k ==> !Contains(name, ChannelWords[m].0)
    requires Contains(name, ChannelWords[k].0)
    requires forall m :: k < m < n ==> !Contains(ReplacedWord(name, k), ChannelWords[m].0)
    ensures ApplyWords(name, n) == ReplacedWord(name, k)
  {
    if n == k + 1 {
      FirstWordReplaced(name, k);
    } else {
      LaterWordsKeepResult(name, k, n - 1);
      AbsentWordStep(name, n, ReplacedWord(name, k));
    }
  }

  /** With no earlier word in the name, the first `k + 1` replacements
      replace word `k` alone. */
  lemma {:induction false} FirstWordReplaced(name: string, k: nat)
    requires k < |ChannelWords|
    requires forall m :: 0 <= m < k ==> !Contains(name, ChannelWords[m].0)
    requires Contains(name, ChannelWords[k].0)
    ensures ApplyWords(name, k + 1) == ReplacedWord(name, k)
  {
    AbsentWordsKeepName(name, k);
  }

  /** A word absent from the text so far changes nothing. */
  lemma {:induction false} AbsentWordStep(name: string, n: nat, t: string)
    requires 0 < n <= |ChannelWords|
    requires ApplyWords(name, n - 1) == t
    requires !Contains(t, ChannelWords[n - 1].0)
    ensures ApplyWords(name, n) == t
  {
    ReplaceFirstLength(t, ChannelWords[n - 1].0, ChannelWords[n - 1].1);
  }

  /** When word `k` is the only one that applies (no earlier word occurs in
      the name, and no later word in the name after its replacement), the
      channel name is the name with the first occurrence of that word
      replaced and nothing else changed. */
  lemma {:induction false} OnlyWordReplaced(name: string, k: nat)
    requires k < |ChannelWords|
    requires forall m :: 0 <= m < k ==> !Contains(name, ChannelWords[m].0)
    requires Contains(name, ChannelWords[k].0)
    requires forall m :: k < m < |ChannelWords| ==> !Contains(ReplacedWord(name, k), ChannelWords[m].0)
    ensures ChannelName(name) == ReplacedWord(name, k)
  {
    ChannelNameAppliesWords(name);
    LaterWordsKeepResult(name, k, |ChannelWords|);
  }

  /** "BBC One" becomes "BBC 1". */
  lemma {:induction false} BbcOneExample(name: string)
    requires name == "BBC One"
    ensures ChannelName(name) == "BBC 1"
  {
    assert name[4..7] == "One";
    FirstAt(name, "One", 4);
    var t := ReplacedWord(name, 0);
    assert t == "BBC 1";
    AbsentFirstChar(t, "Two");
    AbsentFirstChar(t, "Three");
    AbsentFirstChar(t, "Four");
    AbsentFirstChar(t, "Channel 4");
    OnlyWordReplaced(name, 0);
  }

  /** Because the digit replacement runs first, "Channel Four" ends up as
      "Ch 4". */
  lemma {:induction false} ChannelFourExample(name: string)
    requires name == "Channel Four"
    ensures ChannelName(name) == "Ch 4"
  {
    NumberWordsOfChannelFour(name);
    ShortenedChannelFour("Channel 4");
  }

  /** The number-word replacements turn "Channel Four" into "Channel 4". */
  lemma {:induction false} NumberWordsOfChannelFour(name: string)
    requires name == "Channel Four"
    ensures ReplaceFirst(ReplaceFirst(ReplaceFirst(ReplaceFirst(name, "One", "1"), "Two", "2"), "Three", "3"), "Four", "4")
      == "Channel 4"
  {
    NoSmallNumberWords(name);
    FourReplaced(name);
  }

  lemma {:induction false} NoSmallNumberWords(name: string)
    requires name == "Channel Four"
    ensures ReplaceFirst(name, "One", "1") == name
    ensures ReplaceFirst(name, "Two", "2") == name
    ensures ReplaceFirst(name, "Three", "3") == name
  {
    AbsentFirstChar(name, "One");
    AbsentFirstChar(name, "Two");
    AbsentFirstChar(name, "Three");
  }

  lemma {:induction false} FourReplaced(name: string)
    requires name == "Channel Four"
    ensures ReplaceFirst(name, "Four", "4") == "Channel 4"
  {
    assert IndexOf(name, "Four") == 8 by {
      assert name[8..12] == "Four";
      assert forall j :: 0 <= j < 8 ==> name[j] != 'F';
      FirstAt(name, "Four", 8);
    }
    assert ReplaceFirst(name, "Four", "4") == name[..8] + "4" + name[12..];
  }

  /** The final replacement shortens "Channel 4" to "Ch 4". */
  lemma {:induction false} ShortenedChannelFour(four: string)
    requires four == "Channel 4"
    ensures ReplaceFirst(four, "Channel 4", "Ch 4") == "Ch 4"
  {
    assert IndexOf(four, "Channel 4") == 0 by {
      assert four[..9] == "Channel 4";
    }
  }

  /** The channel cell of the top-scores and organiser rows: present only
      for a truthy channel name, five characters wide. */
  function ChannelCell(fullName: Option<string>): (r: Option<string>)
    ensures r.Some? <==> Truthy(fullName)
    ensures r.Some? ==> |r.value| == 5
    ensures r.Some? ==> var c := ChannelName(fullName.value);
      if |c| > 5 then r.value == c[..4] + " "
      else r.value[..|c|] == c && forall i :: |c| <= i < 5 ==> r.value[i] == ' '
  {
    if Truthy(fullName) then Some(FormatForListWidget(ChannelName(fullName.value), 5)) else None
  }

  /** The channel cell of the football-scores rows: the raw name, eight wide. */
  function RawChannelCell(fullName: Option<string>): (r: Option<string>)
    ensures r.Some? <==> Truthy(fullName)
    ensures r.Some? ==> |r.value| == 8
    ensures r.Some? ==> var c := fullName.value;
      if |c| > 8 then r.value == c[..7] + " "
      else r.value[..|c|] == c && forall i :: |c| <= i < 8 ==> r.value[i] == ' '
  {
    if Truthy(fullName) then Some(FormatForListWidget(fullName.value, 8)) else None
  }
}

=== FILE: location.dfy ===
/** `getLocation` with its single-slot cache file: up to four attempts to get
    a fix, each success written to the cache, and the cache read back when
    every attempt failed. */
module LocationResolver {
  import opened Js

  /** `retryCount` runs from 0 to 3. */
  const MaxAttempts: nat := 4

  datatype Coordinates = Coordinates(latitude: real, longitude: real)

  /** What one pass through the `try` block meets: no fix from
      `Location.current`, or a fix followed by the cache write (`stored`:
      `writeString` succeeded) and the logging read-back (`confirmed`:
      `readString` and `JSON.parse` succeeded). */
  datatype Attempt =
    | NoFix
    | Fix(location: Coordinates, stored: bool, confirmed: bool)

  /** The attempt returns its fix: nothing in the `try` block threw. */
  predicate Succeeds(a: Attempt)
  {
    a.Fix? && a.stored && a.confirmed
  }

  /** The attempt wrote its fix to the cache file, whether or not it then
      succeeded. */
  predicate Writes(a: Attempt)
  {
    a.Fix? && a.stored
  }

  /** The cache file after an attempt. */
  function CacheAfter(a: Attempt, cache: Option<Coordinates>): (c: Option<Coordinates>)
    ensures Writes(a) ==> c == Some(a.location)
    ensures !Writes(a) ==> c == cache
  {
    if Writes(a) then Some(a.location) else cache
  }

  datatype Resolved = Resolved(location: Option<Coordinates>, cache: Option<Coordinates>)

  /** The first successful attempt from `from` on, or -1. */
  function FirstSuccess(outcomes: seq<Attempt>, from: nat): (k: int)
    requires from <= |outcomes|
    ensures k == -1 || (from <= k < |outcomes| && Succeeds(outcomes[k]))
    ensures forall j :: from <= j < |outcomes| && (k == -1 || j < k) ==> !Succeeds(outcomes[j])
    decreases |outcomes| - from
  {
    if from == |outcomes| then -1
    else if Succeeds(outcomes[from]) then from
    else FirstSuccess(outcomes, from + 1)
  }

  /** The cache after attempts `from` up to (not including) `to`. */
  function CacheThrough(outcomes: seq<Attempt>, from: nat, to: nat, cache: Option<Coordinates>): Option<Coordinates>
    requires from <= to <= |outcomes|
    decreases |outcomes| - from
  {
    if from == to then cache
    else CacheThrough(outcomes, from + 1, to, CacheAfter(outcomes[from], cache))
  }

  /** `getLocation(retryCount)`, recursion and all: `outcomes[k]` is what
      attempt `k` meets, `cache` is the cache file before attempt
      `retryCount` (`None`: missing or unreadable), and `finalRead` is
      whether `getCachedLocation`'s read and parse succeed once every
      attempt has failed; when they fail it returns `undefined`. */
  function GetLocation(outcomes: seq<Attempt>, retryCount: nat, cache: Option<Coordinates>, finalRead: bool): (r: Resolved)
    requires |outcomes| == MaxAttempts && retryCount < MaxAttempts
    ensures r.location == None || r.location == r.cache
    ensures var k := FirstSuccess(outcomes, retryCount);
      k >= 0 ==> r.location == Some(outcomes[k].location)
    ensures FirstSuccess(outcomes, retryCount) == -1 ==>
      r.cache == CacheThrough(outcomes, retryCount, MaxAttempts, cache)
      && r.location == (if finalRead then r.cache else None)
    decreases MaxAttempts - retryCount
  {
    var a := outcomes[retryCount];
    var cache' := CacheAfter(a, cache);
    if Succeeds(a) then
      Resolved(Some(a.location), cache')
    else if retryCount < MaxAttempts - 1 then
      GetLocation(outcomes, retryCount + 1, cache', finalRead)
    else
      Resolved(if finalRead then cache' else None, cache')
  }

  /** The retry recursion as a loop over the attempt outcomes, with the
      cache file as the loop's state. */
  method ResolveLocation(outcomes: seq<Attempt>, initialCache: Option<Coordinates>, finalRead: bool)
    returns (location: Option<Coordinates>, cache: Option<Coordinates>)
    requires |outcomes| == MaxAttempts
    ensures Resolved(location, cache) == GetLocation(outcomes, 0, initialCache, finalRead)
  {
    cache := initialCache;
    var retryCount := 0;
    while retryCount < MaxAttempts
      invariant 0 <= retryCount <= MaxAttempts
      invariant forall j :: 0 <= j < retryCount ==> !Succeeds(outcomes[j])
      invariant cache == CacheThrough(outcomes, 0, retryCount, initialCache)
      invariant retryCount < MaxAttempts ==>
        GetLocation(outcomes, 0, initialCache, finalRead) == GetLocation(outcomes, retryCount, cache, finalRead)
    {
      var a := outcomes[retryCount];
      CacheThroughStep(outcomes, 0, retryCount, initialCache);
      cache := CacheAfter(a, cache);
      if Succeeds(a) {
        return Some(a.location), cache;
      }
      retryCount := retryCount + 1;
    }
    location := if finalRead then cache else None;
  }

  /** One more attempt extends the cache history by one step. */
  lemma {:induction false} CacheThroughStep(outcomes: seq<Attempt>, from: nat, to: nat, cache: Option<Coordinates>)
    requires from <= to < |outcomes|
    ensures CacheThrough(outcomes, from, to + 1, cache)
      == CacheAfter(outcomes[to], CacheThrough(outcomes, from, to, cache))
    decreases |outcomes| - from
  {
    if from < to {
      CacheThroughStep(outcomes, from + 1, to, CacheAfter(outcomes[from], cache));
    }
  }

  /** Only the last write before the script gives up matters: when all
      attempts fail, the cache holds the fix of the last attempt that wrote
      one, or what it held before if none did. */
  lemma {:induction false} LastWriteWins(outcomes: seq<Attempt>, from: nat, to: nat, cache: Option<Coordinates>, k: nat)
    requires from <= k < to <= |outcomes| && Writes(outcomes[k])
    requires forall j :: k < j < to ==> !Writes(outcomes[j])
    ensures CacheThrough(outcomes, from, to, cache) == Some(outcomes[k].location)
    decreases |outcomes| - from
  {
    if from < k {
      LastWriteWins(outcomes, from + 1, to, CacheAfter(outcomes[from], cache), k);
    } else {
      NoWritesKeepCache(outcomes, k + 1, to, Some(outcomes[k].location));
    }
  }

  lemma {:induction false} NoWritesKeepCache(outcomes: seq<Attempt>, from: nat, to: nat, cache: Option<Coordinates>)
    requires from <= to <= |outcomes|
    requires forall j :: from <= j < to ==> !Writes(outcomes[j])
    ensures CacheThrough(outcomes, from, to, cache) == cache
    decreases |outcomes| - from
  {
    if from < to {
      NoWritesKeepCache(outcomes, from + 1, to, cache);
    }
  }

  /** A script that never gets a fix and has no readable cache renders with
      an `undefined` location rather than throwing. */
  lemma {:induction false} NoFixNoCache(outcomes: seq<Attempt>, finalRead: bool)
    requires |outcomes| == MaxAttempts
    requires forall j :: 0 <= j < MaxAttempts ==> outcomes[j] == NoFix
    ensures GetLocation(outcomes, 0, None, finalRead).location == None
  {
    NoWritesKeepCache(outcomes, 0, MaxAttempts, None);
  }

  /** A fix that was written but failed the read-back is not returned by its
      own attempt; a later exhaustion returns it if the final read succeeds
      and `undefined` if that read fails too, while the file keeps it. */
  lemma {:induction false} WrittenButUnconfirmed(c: Coordinates, finalRead: bool)
    ensures var outcomes := [Fix(c, true, false), NoFix, NoFix, NoFix];
      GetLocation(outcomes, 0, None, finalRead) == Resolved(if finalRead then Some(c) else None, Some(c))
  {
    var outcomes := [Fix(c, true, false), NoFix, NoFix, NoFix];
    assert FirstSuccess(outcomes, 0) == -1;
    LastWriteWins(outcomes, 0, MaxAttempts, None, 0);
  }
}

=== FILE: matches.dfy ===
/** `getMatches`: today's results followed by not-yet-seen fixtures, capped,
    and the team-logo plan built from the merged list. Three scripts carry it:
    the organiser (cap 5) and top-scores (cap 12) tolerate a missing feed, the
    football-scores widget (cap 13) does not. */
module FeedMerger {
  import opened Js
  import opened Text
  import opened ListText
  import Sequences

  const OrganiserMaxMatches: nat := 5
  const TopScoresMaxMatches: nat := 12
  const FootballScoresMaxMatches: nat := 13

  datatype Team = Team(displayName: string, score: Score)

  /** One element of the fixtures or results feed. */
  datatype Match = Match(
    id: int,
    date: Option<string>,
    friendlyDateTime: Option<string>,
    homeTeam: Team,
    awayTeam: Team,
    started: bool,
    finished: bool,
    timeLabel: Option<string>,
    kickOffTime: Option<string>,
    channel: Option<string>)

  function Ids(ms: seq<Match>): set<int>
  {
    set m | m in ms :: m.id
  }

  /** A result is shown when its ISO date is today's UTC ISO date; it is
      then labelled "Today". */
  function OnDate(today: string): Match -> bool
  {
    (m: Match) => m.date == Some(today)
  }

  function Relabelled(m: Match): Match
  {
    m.(friendlyDateTime := Some("Today"))
  }

  /** Today's results in feed order, each relabelled "Today", and nothing
      else. */
  function TodaysResults(results: seq<Match>, today: string): (r: seq<Match>)
    ensures forall k :: 0 <= k < |r| ==> r[k].friendlyDateTime == Some("Today")
    ensures forall x :: x in results && x.date == Some(today) ==> Relabelled(x) in r
    decreases |results|
  {
    if |results| == 0 then
      []
    else
      var x := results[0];
      var rest := TodaysResults(results[1..], today);
      assert forall y :: y in results ==> y == x || y in results[1..];
      if x.date == Some(today) then [Relabelled(x)] + rest else rest
  }

  /** The results loop keeps exactly today's results, in feed order, each
      relabelled. */
  lemma {:induction false} TodaysResultsIsFilter(results: seq<Match>, today: string)
    ensures var r, kept := TodaysResults(results, today), Sequences.Filter(results, OnDate(today));
      |r| == |kept| && forall k :: 0 <= k < |r| ==> r[k] == Relabelled(kept[k])
    decreases |results|
  {
    if |results| == 0 {
      assert Sequences.Filter(results, OnDate(today)) == [];
    } else {
      TodaysResultsIsFilter(results[1..], today);
      TodaysResultsStep(results, today, TodaysResults(results[1..], today));
    }
  }

  /** One step of the results loop: the first result, kept or not, in
      front of what the rest gives. */
  lemma {:induction false} TodaysResultsStep(results: seq<Match>, today: string, rest: seq<Match>)
    requires |results| > 0
    requires var kept := Sequences.Filter(results[1..], OnDate(today));
      |rest| == |kept| && forall k :: 0 <= k < |rest| ==> rest[k] == Relabelled(kept[k])
    ensures var x := results[0];
      var r := if x.date == Some(today) then [Relabelled(x)] + rest else rest;
      var kept := Sequences.Filter(results, OnDate(today));
      |r| == |kept| && (forall k :: 0 <= k < |r| ==> r[k] == Relabelled(kept[k]))
  {
    var x := results[0];
    assert results == [x] + results[1..];
    Sequences.FilterCons(x, results[1..], OnDate(today));
    var tail := Sequences.Filter(results[1..], OnDate(today));
    if x.date == Some(today) {
      var r := [Relabelled(x)] + rest;
      var kept := [x] + tail;
      assert forall k :: 1 <= k < |r| ==> r[k] == rest[k - 1] && kept[k] == tail[k - 1];
    }
  }

  /** Nothing else is shown as today's: every shown result is a result of
      today's date, relabelled. */
  lemma {:induction false} TodaysResultsAreToday(results: seq<Match>, today: string, k: nat)
    requires k < |TodaysResults(results, today)|
    ensures exists x :: (x in results && x.date == Some(today) &&
                         TodaysResults(results, today)[k] == Relabelled(x))
  {
    TodaysResultsIsFilter(results, today);
    var kept := Sequences.Filter(results, OnDate(today));
    Sequences.FilterMembers(results, OnDate(today), kept[k]);
    assert kept[k] in kept;
  }

  /** A fixture joins the list when it has a truthy `friendlyDateTime` and no
      match already in the list has its `id`. */
  predicate Keeps(acc: seq<Match>, f: Match)
  {
    f.id !in Ids(acc) && Truthy(f.friendlyDateTime)
  }

  /** Every element from index `from` on carries a fresh id: none of the
      elements before it shares its id. Earlier elements (today's results)
      are not compared with one another. */
  predicate FreshFrom(ms: seq<Match>, from: nat)
  {
    forall i, j :: 0 <= i < j < |ms| && j >= from ==> ms[i].id != ms[j].id
  }

  predicate Dated(f: Match)
  {
    Truthy(f.friendlyDateTime)
  }

  function MatchId(m: Match): int
  {
    m.id
  }

  /** The fixture loop without its early stop: the reference the capped
      loop is measured against. It appends, in feed order, the dated
      fixtures whose id is new, keeping the first fixture of each id. */
  function AllFixtures(acc: seq<Match>, fixtures: seq<Match>): (r: seq<Match>)
    ensures |acc| <= |r| && r[..|acc|] == acc
    ensures forall k :: |acc| <= k < |r| ==> r[k] in fixtures && Truthy(r[k].friendlyDateTime)
    ensures FreshFrom(r, |acc|)
    ensures forall f :: f in fixtures && Truthy(f.friendlyDateTime) ==> f.id in Ids(r)
    decreases |fixtures|
  {
    if |fixtures| == 0 then
      acc
    else
      var f := fixtures[0];
      var acc' := if Keeps(acc, f) then acc + [f] else acc;
      var r := AllFixtures(acc', fixtures[1..]);
      AllFixturesStep(acc, fixtures, r);
      r
  }

  /** What the fixture loop appends: in feed order, the dated fixtures
      whose id is new, keeping the first fixture of each id. */
  lemma {:induction false} AllFixturesIsDedupe(acc: seq<Match>, fixtures: seq<Match>)
    ensures AllFixtures(acc, fixtures)
      == acc + Sequences.DedupeFrom(Sequences.Filter(fixtures, Dated), MatchId, Ids(acc))
    decreases |fixtures|
  {
    if |fixtures| == 0 {
      assert Sequences.Filter(fixtures, Dated) == [];
    } else {
      var f := fixtures[0];
      var acc' := if Keeps(acc, f) then acc + [f] else acc;
      AllFixturesIsDedupe(acc', fixtures[1..]);
      AllFixturesDedupe(acc, fixtures, AllFixtures(acc', fixtures[1..]));
    }
  }

  /** The step of the fixture loop, stated as de-duplication: a dated
      fixture with a new id joins the list and its id joins the seen ids;
      any other fixture is passed over. */
  lemma {:induction false} AllFixturesDedupe(acc: seq<Match>, fixtures: seq<Match>, r: seq<Match>)
    requires |fixtures| > 0
    requires var f := fixtures[0];
      var acc' := if Keeps(acc, f) then acc + [f] else acc;
      r == acc' + Sequences.DedupeFrom(Sequences.Filter(fixtures[1..], Dated), MatchId, Ids(acc'))
    ensures r == acc + Sequences.DedupeFrom(Sequences.Filter(fixtures, Dated), MatchId, Ids(acc))
  {
    var f := fixtures[0];
    var tail := Sequences.Filter(fixtures[1..], Dated);
    var all := Sequences.Filter(fixtures, Dated);
    assert all == (if Dated(f) then [f] else []) + tail by {
      assert fixtures == [f] + fixtures[1..];
      Sequences.FilterCons(f, fixtures[1..], Dated);
    }
    if !Dated(f) {
      assert all == tail;
    } else if f.id in Ids(acc) {
      assert r == acc + Sequences.DedupeFrom(all, MatchId, Ids(acc)) by {
        Sequences.DedupeFromCons(f, tail, MatchId, Ids(acc));
      }
    } else {
      KeptFixtureDedupe(acc, f, tail);
    }
  }

  /** A fixture with a new id moves from the de-duplicated rest onto the
      list. */
  lemma {:induction false} KeptFixtureDedupe(acc: seq<Match>, f: Match, tail: seq<Match>)
    requires f.id !in Ids(acc)
    ensures (acc + [f]) + Sequences.DedupeFrom(tail, MatchId, Ids(acc + [f]))
      == acc + Sequences.DedupeFrom([f] + tail, MatchId, Ids(acc))
  {
    var rest := Sequences.DedupeFrom(tail, MatchId, Ids(acc + [f]));
    var d := Sequences.DedupeFrom([f] + tail, MatchId, Ids(acc));
    assert d == [f] + rest by {
      assert MatchId(f) == f.id;
      IdsAppend(acc, f);
      Sequences.DedupeFromCons(f, tail, MatchId, Ids(acc));
    }
    AppendAssoc(acc, [f], rest);
  }

  lemma {:induction false} AppendAssoc(a: seq<Match>, b: seq<Match>, c: seq<Match>)
    ensures (a + b) + c == a + (b + c)
  {
  }

  lemma {:induction false} IdsAppend(acc: seq<Match>, f: Match)
    ensures Ids(acc + [f]) == Ids(acc) + {f.id}
  {
  }

  /** The step of the fixture loop: what holds of the list after the
      remaining fixtures, from the list with the first fixture considered,
      holds of it from the list before. */
  lemma {:induction false} AllFixturesStep(acc: seq<Match>, fixtures: seq<Match>, r: seq<Match>)
    requires |fixtures| > 0
    requires var f := fixtures[0];
      var acc' := if Keeps(acc, f) then acc + [f] else acc;
      |acc'| <= |r| && r[..|acc'|] == acc' &&
      (forall k :: |acc'| <= k < |r| ==> r[k] in fixtures[1..] && Truthy(r[k].friendlyDateTime)) &&
      FreshFrom(r, |acc'|) &&
      (forall g :: g in fixtures[1..] && Truthy(g.friendlyDateTime) ==> g.id in Ids(r))
    ensures |acc| <= |r| && r[..|acc|] == acc
    ensures forall k :: |acc| <= k < |r| ==> r[k] in fixtures && Truthy(r[k].friendlyDateTime)
    ensures FreshFrom(r, |acc|)
    ensures forall g :: g in fixtures && Truthy(g.friendlyDateTime) ==> g.id in Ids(r)
  {
    var f := fixtures[0];
    var acc' := if Keeps(acc, f) then acc + [f] else acc;
    assert r[..|acc|] == acc by {
      assert acc'[..|acc|] == acc;
    }
    assert f.id in Ids(r) || !Truthy(f.friendlyDateTime) by {
      IdsOfPrefix(r, acc');
    }
    assert FreshFrom(r, |acc|) by {
      if Keeps(acc, f) {
        assert r[|acc|] == f;
        FreshExtend(r, |acc|);
      }
    }
    assert forall k :: |acc| <= k < |r| ==> r[k] in fixtures by {
      assert forall g :: g in fixtures[1..] ==> g in fixtures;
    }
    assert forall g :: g in fixtures ==> g == f || g in fixtures[1..] by {
      assert fixtures == [f] + fixtures[1..];
    }
  }

  /** Every id of a prefix is an id of the whole. */
  lemma {:induction false} IdsOfPrefix(r: seq<Match>, p: seq<Match>)
    requires |p| <= |r| && r[..|p|] == p
    ensures Ids(p) <= Ids(r)
  {
    forall id | id in Ids(p) ensures id in Ids(r) {
      var m :| m in p && m.id == id;
      var k :| 0 <= k < |p| && p[k] == m;
      assert r[k] == m;
    }
  }

  /** A match whose id is new to everything before it extends the fresh
      part of the list by one place. */
  lemma {:induction false} FreshExtend(r: seq<Match>, n: nat)
    requires n < |r| && FreshFrom(r, n + 1) && r[n].id !in Ids(r[..n])
    ensures FreshFrom(r, n)
  {
    forall i, j | 0 <= i < j < |r| && j >= n ensures r[i].id != r[j].id {
      if j == n {
        assert r[..n][i] == r[i];
      }
    }
  }

  /** The fixture loop as written: after each fixture, stop once the list
      holds `max` matches. */
  function AddFixtures(acc: seq<Match>, fixtures: seq<Match>, max: nat): (r: seq<Match>)
    ensures |r| <= |AllFixtures(acc, fixtures)|
    ensures r == AllFixtures(acc, fixtures)[..|r|]
    ensures |r| >= max || r == AllFixtures(acc, fixtures)
    decreases |fixtures|
  {
    if |fixtures| == 0 then
      acc
    else
      var f := fixtures[0];
      var acc' := if Keeps(acc, f) then acc + [f] else acc;
      if |acc'| >= max then
        var all := AllFixtures(acc', fixtures[1..]);
        assert all[..|acc'|] == acc';
        acc'
      else
        AddFixtures(acc', fixtures[1..], max)
  }

  /** What a tolerant script makes of a feed: only a non-empty array
      contributes; a failed request or a non-array contributes nothing. */
  function Items(feed: Fetched<Match>): (r: seq<Match>)
    ensures feed.List? ==> r == feed.items
    ensures !feed.List? ==> r == []
  {
    if feed.List? && |feed.items| > 0 then feed.items else []
  }

  /** The merged list before the final slice. */
  function Unsliced(fixtures: Fetched<Match>, results: Fetched<Match>, today: string, max: nat): seq<Match>
  {
    AddFixtures(TodaysResults(Items(results), today), Items(fixtures), max)
  }

  /** The uncapped merge: today's results in feed order, then every kept
      fixture in feed order. */
  function Reference(fixtures: Fetched<Match>, results: Fetched<Match>, today: string): seq<Match>
  {
    AllFixtures(TodaysResults(Items(results), today), Items(fixtures))
  }

  /** `getMatches` of the organiser and top-scores widgets. The early stop
      and the final slice together give exactly the first `max` matches of
      the uncapped merge; every match shown has a date label; and no fixture
      repeats the id of anything before it. */
  function Merge(fixtures: Fetched<Match>, results: Fetched<Match>, today: string, max: nat): (r: seq<Match>)
    ensures var all := Reference(fixtures, results, today);
      |r| == (if |all| < max then |all| else max) && r == all[..|r|]
    ensures |r| <= max
    ensures forall k :: 0 <= k < |r| ==> Truthy(r[k].friendlyDateTime)
    ensures FreshFrom(r, |TodaysResults(Items(results), today)|)
  {
    var u := Unsliced(fixtures, results, today, max);
    var r := if |u| > 0 then u[..if |u| < max then |u| else max] else [];
    var base := TodaysResults(Items(results), today);
    var all := Reference(fixtures, results, today);
    assert FreshFrom(base, |base|);
    assert forall k :: 0 <= k < |all| ==> Truthy(all[k].friendlyDateTime) by {
      forall k | 0 <= k < |all| ensures Truthy(all[k].friendlyDateTime) {
        if k < |base| {
          assert all[k] == base[k];
        }
      }
    }
    assert r == all[..|r|];
    r
  }

  /** An unavailable, non-array or empty feed contributes nothing and does
      not fail the merge. */
  lemma {:induction false} MissingFeedsContributeNothing(today: string, max: nat)
    ensures Merge(Failed, Failed, today, max) == []
    ensures Merge(NotAList, List([]), today, max) == []
  {
  }

  /** The results feed fills the list first: the list opens with today's
      results, in feed order, as far as the cap allows. */
  lemma {:induction false} ResultsComeFirst(fixtures: Fetched<Match>, results: Fetched<Match>, today: string, max: nat)
    ensures var base := TodaysResults(Items(results), today);
      var r := Merge(fixtures, results, today, max);
      var n := if |base| < max then |base| else max;
      |r| >= n && r[..n] == base[..n]
  {
    var base := TodaysResults(Items(results), today);
    var all := Reference(fixtures, results, today);
    assert all[..|base|] == base;
  }

  /** The scenario of a result and a fixture sharing an id: the result is
      kept, the fixture dropped, and the next fixture follows. */
  lemma {:induction false} ResultWinsOverFixture(today: string, t: Team)
    ensures
      var result := Match(1, Some(today), None, t, t, true, true, None, None, None);
      var fixture1 := Match(1, Some(today), Some("Today"), t, t, false, false, None, None, None);
      var fixture2 := Match(2, Some("later"), Some("Tomorrow"), t, t, false, false, None, None, None);
      Merge(List([fixture1, fixture2]), List([result]), today, OrganiserMaxMatches)
        == [result.(friendlyDateTime := Some("Today")), fixture2]
  {
    var result := Match(1, Some(today), None, t, t, true, true, None, None, None);
    var fixture1 := Match(1, Some(today), Some("Today"), t, t, false, false, None, None, None);
    var fixture2 := Match(2, Some("later"), Some("Tomorrow"), t, t, false, false, None, None, None);
    var base := [result.(friendlyDateTime := Some("Today"))];
    var fixtures, results := List([fixture1, fixture2]), List([result]);
    assert Reference(fixtures, results, today) == base + [fixture2] by {
      assert TodaysResults([result], today) == base by {
        assert [result][1..] == [];
      }
      assert Ids(base) == {1};
      SecondFixtureOnly(base, fixture1, fixture2);
    }
    ShortMergeIsReference(fixtures, results, today, OrganiserMaxMatches);
  }

  /** When the uncapped merge fits under the cap, it is shown whole. */
  lemma {:induction false} ShortMergeIsReference(fixtures: Fetched<Match>, results: Fetched<Match>, today: string, max: nat)
    requires |Reference(fixtures, results, today)| <= max
    ensures Merge(fixtures, results, today, max) == Reference(fixtures, results, today)
  {
    var all := Reference(fixtures, results, today);
    assert all[..|all|] == all;
  }

  /** Of two fixtures, the first repeating an id already listed, only the
      second joins. */
  lemma {:induction false} SecondFixtureOnly(acc: seq<Match>, f1: Match, f2: Match)
    requires !Keeps(acc, f1) && Keeps(acc, f2)
    ensures AllFixtures(acc, [f1, f2]) == acc + [f2]
  {
    assert [f1, f2][1..] == [f2];
    assert [f2][1..] == [];
    assert AllFixtures(acc, [f1, f2]) == AllFixtures(acc, [f2]);
  }

  /** When today's results alone exceed the cap, the loop still examines one
      fixture before stopping, and the slice still cuts the list to the cap. */
  lemma {:induction false} CapHoldsWhenResultsOverflow(fixtures: Fetched<Match>, results: Fetched<Match>, today: string)
    requires |TodaysResults(Items(results), today)| > TopScoresMaxMatches
    ensures Merge(fixtures, results, today, TopScoresMaxMatches)
      == TodaysResults(Items(results), today)[..TopScoresMaxMatches]
    ensures |Unsliced(fixtures, results, today, TopScoresMaxMatches)|
      <= |TodaysResults(Items(results), today)| + 1
  {
    var base := TodaysResults(Items(results), today);
    var all := Reference(fixtures, results, today);
    assert all[..|base|] == base;
    assert all[..TopScoresMaxMatches] == base[..TopScoresMaxMatches];
  }

  /** `getMatches` of the football-scores widget: the feeds come from
      `loadJSON` directly, so a failed request rejects and a non-array feed
      makes the `for ... of` loop throw; otherwise the merge is the same. */
  function MergeUnguarded(fixtures: Fetched<Match>, results: Fetched<Match>, today: string, max: nat): (r: Result<seq<Match>>)
    ensures r.Ok? <==> fixtures.List? && results.List?
    ensures r.Ok? ==> r.value == Merge(fixtures, results, today, max)
    ensures (fixtures.Failed? || results.Failed?) ==> r == Err(FetchFailed)
    ensures !fixtures.Failed? && !results.Failed? && r.Err? ==> r.error == TypeError
  {
    if fixtures.Failed? || results.Failed? then Err(FetchFailed)
    else if results.NotAList? || fixtures.NotAList? then Err(TypeError)
    else Ok(Merge(fixtures, results, today, max))
  }

  // ---------------------------------------------------------------------
  // Team logos

  const ServerDomain := "https://football-scores-api.fly.dev"
  const NoLogoPath := "/icons/team-logos/_noLogo.png"

  /** The answer of the `/teams/<name>/logo` endpoint: a failed request,
      a body that parses to JSON `null`, or an object with or without a
      `logoPath`. */
  datatype LogoResponse = LogoFailed | LogoNull | LogoJson(logoPath: Option<string>)

  /** The display names of all teams in a match list, home teams first. */
  function TeamNames(ms: seq<Match>): (r: seq<string>)
    ensures |r| == 2 * |ms|
    ensures forall k :: 0 <= k < |ms| ==> r[k] == ms[k].homeTeam.displayName
    ensures forall k :: 0 <= k < |ms| ==> r[|ms| + k] == ms[k].awayTeam.displayName
  {
    seq(|ms|, k requires 0 <= k < |ms| => ms[k].homeTeam.displayName)
      + seq(|ms|, k requires 0 <= k < |ms| => ms[k].awayTeam.displayName)
  }

  function Identity(s: string): string { s }

  /** `[...new Set(teams)]`: each display name once, in first-seen order. */
  function UniqueTeams(ms: seq<Match>): (r: seq<string>)
    ensures Sequences.DistinctKeys(r, Identity)
    ensures forall n :: n in r <==> n in TeamNames(ms)
    ensures |r| == |set n | n in TeamNames(ms)|
  {
    var names := TeamNames(ms);
    DedupedNames(names);
    Sequences.Dedupe(names, Identity)
  }

  /** Dropping repeated names keeps each name once: the same names, as many
      as there are distinct ones. */
  lemma {:induction false} DedupedNames(names: seq<string>)
    ensures var r := Sequences.Dedupe(names, Identity);
      (forall n :: n in r <==> n in names) && |r| == |set n | n in names|
  {
    var r := Sequences.Dedupe(names, Identity);
    var inR, inNames := set n | n in r, set n | n in names;
    assert inR == inNames by {
      IdentityKeys(r);
      IdentityKeys(names);
    }
    forall n ensures n in r <==> n in names {
      assert n in r <==> n in inR;
      assert n in names <==> n in inNames;
    }
    assert |r| == |inNames| by {
      IdentityKeys(r);
      Sequences.DistinctCardinality(r, Identity);
    }
  }

  /** Under the identity key, the key set is the set of members. */
  lemma {:induction false} IdentityKeys(xs: seq<string>)
    ensures Sequences.KeySet(xs, Identity) == set n | n in xs
  {
    forall n ensures n in Sequences.KeySet(xs, Identity) <==> n in xs {
      if n in xs {
        assert Identity(n) == n;
      }
    }
  }

  /** `getTeamLogoPath` would not ask the server about a two-team name or a
      knockout placeholder. */
  predicate HasNoLogo(name: string)
  {
    Contains(name, "/") || IsPlaceholder(name)
  }

  /** The image URL `setTeamLogos` loads for a team: the server's logo path
      when the lookup returns a truthy one, the no-logo image otherwise. */
  function LogoUrl(name: string, response: LogoResponse): (url: string)
    ensures HasNoLogo(name) ==> url == ServerDomain + NoLogoPath
    ensures !HasNoLogo(name) && response.LogoJson? && Truthy(response.logoPath) ==>
      url == ServerDomain + response.logoPath.value
    ensures !HasNoLogo(name) && !(response.LogoJson? && Truthy(response.logoPath)) ==>
      url == ServerDomain + NoLogoPath
  {
    if !HasNoLogo(name) && response.LogoJson? && Truthy(response.logoPath) then
      ServerDomain + response.logoPath.value
    else
      ServerDomain + NoLogoPath
  }

  /** The names the tolerant scripts send a logo lookup for: one per distinct
      name that is not a two-team name or a placeholder. */
  function LogoLookups(ms: seq<Match>): (r: seq<string>)
    ensures Sequences.DistinctKeys(r, Identity)
    ensures forall n :: n in r <==> n in TeamNames(ms) && !HasNoLogo(n)
  {
    var u := UniqueTeams(ms);
    var r := Sequences.Filter(u, NeedsLookup);
    Sequences.FilterDistinct(u, NeedsLookup, Identity);
    assert forall n :: n in r <==> n in u && NeedsLookup(n) by {
      forall n ensures n in r <==> n in u && NeedsLookup(n) {
        Sequences.FilterMembers(u, NeedsLookup, n);
      }
    }
    r
  }

  predicate NeedsLookup(name: string)
  {
    !HasNoLogo(name)
  }

  /** The `teamLogos` table after one pass of the tolerant `getMatches`: an
      image URL for every team of the unsliced list, so every row shown, the
      slice being a prefix, finds its logos. */
  function TeamLogos(ms: seq<Match>, lookup: string -> LogoResponse): (logos: map<string, string>)
    ensures logos.Keys == set n | n in TeamNames(ms)
    ensures forall n :: n in logos ==> logos[n] == LogoUrl(n, lookup(n))
  {
    var teams := UniqueTeams(ms);
    var logos := map n | n in teams :: LogoUrl(n, lookup(n));
    SameMembersSameSet(teams, TeamNames(ms));
    logos
  }

  /** Two lists with the same members make the same set. */
  lemma {:induction false} SameMembersSameSet(a: seq<string>, b: seq<string>)
    requires forall n :: n in a <==> n in b
    ensures (set n | n in a) == (set n | n in b)
  {
  }

  /** Every team of the displayed (sliced) list has an entry in the logo
      table built from the unsliced list. */
  lemma {:induction false} ShownTeamsHaveLogos(fixtures: Fetched<Match>, results: Fetched<Match>, today: string, max: nat, lookup: string -> LogoResponse)
    ensures var shown := Merge(fixtures, results, today, max);
      var logos := TeamLogos(Unsliced(fixtures, results, today, max), lookup);
      forall k :: 0 <= k < |shown| ==>
        shown[k].homeTeam.displayName in logos && shown[k].awayTeam.displayName in logos
  {
    var shown := Merge(fixtures, results, today, max);
    var u := Unsliced(fixtures, results, today, max);
    MergeIsUnslicedPrefix(fixtures, results, today, max);
    PrefixTeamsHaveLogos(u, shown, lookup);
  }

  /** The displayed list is the front of the unsliced list. */
  lemma {:induction false} MergeIsUnslicedPrefix(fixtures: Fetched<Match>, results: Fetched<Match>, today: string, max: nat)
    ensures var shown := Merge(fixtures, results, today, max);
      var u := Unsliced(fixtures, results, today, max);
      |shown| <= |u| && shown == u[..|shown|]
  {
  }

  /** Every team of a front part of the list has a logo entry. */
  lemma {:induction false} PrefixTeamsHaveLogos(u: seq<Match>, shown: seq<Match>, lookup: string -> LogoResponse)
    requires |shown| <= |u| && shown == u[..|shown|]
    ensures var logos := TeamLogos(u, lookup);
      forall k :: 0 <= k < |shown| ==>
        shown[k].homeTeam.displayName in logos && shown[k].awayTeam.displayName in logos
  {
    var names := TeamNames(u);
    var logos := TeamLogos(u, lookup);
    forall k | 0 <= k < |shown|
      ensures shown[k].homeTeam.displayName in logos && shown[k].awayTeam.displayName in logos
    {
      assert shown[k] == u[k];
      assert names[k] == u[k].homeTeam.displayName;
      assert names[|u| + k] == u[k].awayTeam.displayName;
    }
  }

  /** The football-scores logo URL: the lookup is not guarded, so a failed
      request rejects, reading `logoPath` of a `null` body throws, and a
      missing `logoPath` is interpolated as the text "undefined". */
  function UnguardedLogoUrl(response: LogoResponse): (r: Result<string>)
    ensures r.Err? <==> !response.LogoJson?
    ensures r == Err(FetchFailed) <==> response.LogoFailed?
    ensures r == Err(TypeError) <==> response.LogoNull?
    ensures response.LogoJson? && response.logoPath.Some? ==> r == Ok(ServerDomain + response.logoPath.value)
    ensures response.LogoJson? && response.logoPath.None? ==> r == Ok(ServerDomain + "undefined")
  {
    match response
    case LogoFailed => Err(FetchFailed)
    case LogoNull => Err(TypeError)
    case LogoJson(path) => Ok(ServerDomain + (if path.Some? then path.value else "undefined"))
  }

  /** The football-scores `getMatches` with its per-match logo lookups: any
      failed or `null` lookup for a team of the unsliced list fails the
      whole call. A failed request is reported in preference to a `null`
      body, since which rejection `Promise.all` sees first depends on
      timing. */
  function FootballScoresMatches(fixtures: Fetched<Match>, results: Fetched<Match>, today: string, lookup: string -> LogoResponse): (r: Result<seq<Match>>)
    ensures r.Ok? <==> (fixtures.List? && results.List? &&
      forall n :: n in TeamNames(Unsliced(fixtures, results, today, FootballScoresMaxMatches)) ==> lookup(n).LogoJson?)
    ensures r.Ok? ==> r.value == Merge(fixtures, results, today, FootballScoresMaxMatches)
    ensures (fixtures.Failed? || results.Failed?) ==> r == Err(FetchFailed)
    ensures fixtures.List? && results.List? ==>
      var names := TeamNames(Unsliced(fixtures, results, today, FootballScoresMaxMatches));
      ((exists n :: n in names && lookup(n).LogoFailed?) ==> r == Err(FetchFailed))
      && ((forall n :: n in names ==> !lookup(n).LogoFailed?) && (exists n :: n in names && lookup(n).LogoNull?) ==> r == Err(TypeError))
  {
    var merged := MergeUnguarded(fixtures, results, today, FootballScoresMaxMatches);
    if merged.Err? then merged
    else
      var names := TeamNames(Unsliced(fixtures, results, today, FootballScoresMaxMatches));
      if exists n :: n in names && lookup(n).LogoFailed? then Err(FetchFailed)
      else if exists n :: n in names && lookup(n).LogoNull? then Err(TypeError)
      else merged
  }
}

=== FILE: numbers.dfy ===
/** Decimal digit strings: JavaScript's string-to-number coercion (as used by
    `-` on two strings) and `Number.prototype.toString` on integers. */
module Numbers {
  import opened Js
  import opened Text

  predicate IsDigit(ch: char)
  {
    '0' <= ch <= '9'
  }

  predicate AllDigits(s: string)
  {
    forall i :: 0 <= i < |s| ==> IsDigit(s[i])
  }

  function DigitValue(ch: char): (d: nat)
    requires IsDigit(ch)
    ensures d < 10
  {
    ch as int - '0' as int
  }

  function DigitChar(d: nat): (ch: char)
    requires d < 10
    ensures IsDigit(ch) && DigitValue(ch) == d
  {
    ('0' as int + d) as char
  }

  /** Digit characters are ordered as the digits they stand for. */
  lemma DigitCharOrder(d: nat, e: nat)
    requires d < 10 && e < 10
    ensures DigitChar(d) < DigitChar(e) <==> d < e
    ensures DigitChar(d) == DigitChar(e) <==> d == e
  {
  }

  function Pow10(n: nat): (p: nat)
    ensures p >= 1
  {
    if n == 0 then 1 else 10 * Pow10(n - 1)
  }

  /** The value of a string of decimal digits; the empty string is 0. */
  function Value(s: string): nat
    requires AllDigits(s)
  {
    if |s| == 0 then 0 else 10 * Value(s[..|s| - 1]) + DigitValue(s[|s| - 1])
  }

  /** `Number(s)` for the strings the feeds carry: a run of decimal digits
      (or the empty string, which coerces to 0) gives its value. Any other
      string gives `None`, which stands for `NaN`; the signed, decimal,
      exponent, hexadecimal and space-padded forms are not distinguished. */
  function ToNumber(s: string): (r: Option<int>)
    ensures r.Some? <==> AllDigits(s)
    ensures r.Some? ==> r.value >= 0 && r.value == Value(s)
  {
    if AllDigits(s) then Some(Value(s)) else None
  }

  /** A digit string has at most its length in decimal places. */
  lemma {:induction false} ValueBound(s: string)
    requires AllDigits(s)
    ensures Value(s) < Pow10(|s|)
    decreases |s|
  {
    if |s| > 0 {
      ValueBound(s[..|s| - 1]);
    }
  }

  /** Concatenating digit strings shifts the left part by the length of the
      right part: this is what `"0005" + 2400` does to the number. */
  lemma {:induction false} ValueConcat(a: string, b: string)
    requires AllDigits(a) && AllDigits(b)
    ensures AllDigits(a + b)
    ensures Value(a + b) == Value(a) * Pow10(|b|) + Value(b)
    decreases |b|
  {
    if |b| > 0 {
      var b' := b[..|b| - 1];
      assert AllDigits(b') by {
        assert forall i :: 0 <= i < |b'| ==> b'[i] == b[i];
      }
      ValueConcat(a, b');
      ValueConcatStep(a, b);
    } else {
      assert a + b == a;
    }
  }

  /** The induction step of `ValueConcat`: one more digit on the right of
      `b`. */
  lemma {:induction false} ValueConcatStep(a: string, b: string)
    requires AllDigits(a) && AllDigits(b) && |b| > 0
    requires Value(a + b[..|b| - 1]) == Value(a) * Pow10(|b| - 1) + Value(b[..|b| - 1])
    ensures Value(a + b) == Value(a) * Pow10(|b|) + Value(b)
  {
    var b' := b[..|b| - 1];
    var va, vb', p', d := Value(a), Value(b'), Pow10(|b'|), DigitValue(b[|b| - 1]);
    assert Value(a + b) == 10 * (va * p' + vb') + d by {
      assert (a + b)[..|a + b| - 1] == a + b';
      assert (a + b)[|a + b| - 1] == b[|b| - 1];
    }
    assert Value(b) == 10 * vb' + d;
    assert Pow10(|b|) == 10 * p';
    ShiftStep(va, vb', p', d);
  }

  /** One more digit on the right multiplies everything before it by ten. */
  lemma ShiftStep(va: int, vb: int, p: int, d: int)
    ensures 10 * (va * p + vb) + d == va * (10 * p) + (10 * vb + d)
  {
  }

  /** `n.toString()` for a non-negative integer: no leading zeros. */
  function NatToString(n: nat): (s: string)
    ensures |s| >= 1 && AllDigits(s)
    ensures Value(s) == n
    ensures |s| > 1 ==> s[0] != '0'
  {
    if n < 10 then
      [DigitChar(n)]
    else
      var p := NatToString(n / 10);
      var s := p + [DigitChar(n % 10)];
      assert s[..|s| - 1] == p;
      s
  }

  /** Coercing the decimal text of a count gives the count back. */
  lemma {:induction false} ToNumberOfNatToString(n: nat)
    ensures ToNumber(NatToString(n)) == Some(n)
  {
  }

  /** `n.toString()` for any integer. */
  function IntToString(n: int): (s: string)
    ensures n >= 0 ==> s == NatToString(n)
    ensures n < 0 ==> s == "-" + NatToString(-n)
  {
    if n >= 0 then NatToString(n) else "-" + NatToString(-n)
  }
  /** A number written with exactly `width` digits, zero-padded on the left,
      as in the fields of an ISO 8601 timestamp. */
  function Fixed(n: nat, width: nat): (s: string)
    requires n < Pow10(width)
    ensures |s| == width && AllDigits(s)
    ensures Value(s) == n
    decreases width
  {
    if width == 0 then
      ""
    else
      var p := Fixed(n / 10, width - 1);
      var s := p + [DigitChar(n % 10)];
      assert s[..|s| - 1] == p;
      s
  }

  /** Every digit string is the zero-padded form of its own value. */
  lemma {:induction false} FixedOfValue(t: string)
    requires AllDigits(t)
    ensures Value(t) < Pow10(|t|)
    ensures Fixed(Value(t), |t|) == t
    decreases |t|
  {
    ValueBound(t);
    if |t| > 0 {
      var p := t[..|t| - 1];
      var c := t[|t| - 1];
      FixedOfValue(p);
      assert Value(t) / 10 == Value(p);
      assert Value(t) % 10 == DigitValue(c);
      assert DigitChar(DigitValue(c)) == c;
      assert t == p + [c];
    }
  }
  /** The first digit and the rest: a digit string's value read from the
      left. */
  lemma {:induction false} ValueFirst(s: string)
    requires |s| > 0 && AllDigits(s)
    ensures Value(s) == DigitValue(s[0]) * Pow10(|s| - 1) + Value(s[1..])
  {
    var c, t := s[0], s[1..];
    assert s == [c] + t;
    assert [c][..0] == [];
    assert Value([c]) == DigitValue(c);
    ValueConcat([c], t);
  }

  /** A smaller leading digit outweighs any tail shorter than the scale. */
  lemma {:induction false} LeadingDigitDecides(da: nat, db: nat, p: nat, ra: nat, rb: nat)
    requires da < db && ra < p
    ensures da * p + ra < db * p + rb
  {
    var k: nat := db - da - 1;
    calc {
      db * p;
      (da + 1 + k) * p;
      da * p + p + k * p;
    }
    assert k * p >= 0;
  }

  /** For digit strings of equal length, string order is numeric order. */
  lemma {:induction false} LessDigits(a: string, b: string)
    requires |a| == |b| && AllDigits(a) && AllDigits(b)
    ensures Less(a, b) <==> Value(a) < Value(b)
    decreases |a|
  {
    if |a| > 0 {
      var p := Pow10(|a| - 1);
      ValueFirst(a);
      ValueFirst(b);
      ValueBound(a[1..]);
      ValueBound(b[1..]);
      var da, db := DigitValue(a[0]), DigitValue(b[0]);
      if a[0] == b[0] {
        LessDigits(a[1..], b[1..]);
      } else if da < db {
        LeadingDigitDecides(da, db, p, Value(a[1..]), Value(b[1..]));
      } else {
        LeadingDigitDecides(db, da, p, Value(b[1..]), Value(a[1..]));
      }
    }
  }
  /** A fixed-width digit field ahead of the rest decides the order by its
      value, and only a tie hands the decision to the rest. */
  lemma {:induction false} DigitsThenRest(a1: string, r1: string, a2: string, r2: string)
    requires |a1| == |a2| && AllDigits(a1) && AllDigits(a2)
    ensures Less(a1 + r1, a2 + r2) <==>
      Value(a1) < Value(a2) || (Value(a1) == Value(a2) && Less(r1, r2))
  {
    LessConcat(a1, r1, a2, r2);
    LessDigits(a1, a2);
    FixedOfValue(a1);
    FixedOfValue(a2);
  }

  lemma {:induction false} Pow10Small()
    ensures Pow10(2) == 100 && Pow10(3) == 1000 && Pow10(4) == 10000
  {
    assert Pow10(1) == 10;
  }

}

=== FILE: organiser.dfy ===
/** The list sections of the life organiser: the reminders and grocery
    columns, the calendar events, and the bin-collection label. */
module Organiser {
  import opened Js
  import opened Text
  import opened Numbers
  import opened Sequences
  import opened ListText
  import opened DateBuckets
  import opened Bins

  // ---------------------------------------------------------------------
  // Reminders

  /** A reminder as `Reminder.*` return it; `dueDate` is `None` when there
      is no due date. */
  datatype Reminder = Reminder(identifier: string, title: string, calendar: string,
    isOverdue: bool, isCompleted: bool, dueDate: Option<int>)

  function Title(r: Reminder): string { r.title }

  predicate IsOverdue(r: Reminder) { r.isOverdue }
  predicate Open(r: Reminder) { !r.isCompleted }
  predicate Undated(r: Reminder) { r.dueDate.None? }

  function InCalendar(category: string): Reminder -> bool
  {
    (r: Reminder) => r.calendar == category
  }

  /** The three sections of the candidate list, each with the category
      test folded in. */
  function OverdueIn(category: string): Reminder -> bool
  {
    (r: Reminder) => r.isOverdue && !r.isCompleted && r.calendar == category
  }

  function DueTodayIn(category: string): Reminder -> bool
  {
    (r: Reminder) => !r.isCompleted && r.calendar == category
  }

  function UndatedIn(category: string): Reminder -> bool
  {
    (r: Reminder) => r.dueDate.None? && r.calendar == category
  }

  /** The candidates in priority order: overdue and not completed (from the
      scheduled list), then due today and not completed, then incomplete
      without a due date; only those in the category's calendar. */
  function Candidates(incomplete: seq<Reminder>, dueToday: seq<Reminder>, scheduled: seq<Reminder>, category: string): (r: seq<Reminder>)
    ensures r == Filter(scheduled, OverdueIn(category)) + Filter(dueToday, DueTodayIn(category))
      + Filter(incomplete, UndatedIn(category))
    ensures forall x :: x in r <==> (x.calendar == category &&
      ((x in scheduled && IsOverdue(x) && Open(x)) || (x in dueToday && Open(x)) || (x in incomplete && Undated(x))))
  {
    var all := Filter(Filter(scheduled, IsOverdue), Open) + Filter(dueToday, Open) + Filter(incomplete, Undated);
    var r := Filter(all, InCalendar(category));
    CandidateSections(incomplete, dueToday, scheduled, category);
    assert forall x :: x in r <==> (x.calendar == category &&
      ((x in scheduled && IsOverdue(x) && Open(x)) || (x in dueToday && Open(x)) || (x in incomplete && Undated(x)))) by {
      forall x ensures x in r <==> (x.calendar == category &&
        ((x in scheduled && IsOverdue(x) && Open(x)) || (x in dueToday && Open(x)) || (x in incomplete && Undated(x)))) {
        FilterMembers(scheduled, OverdueIn(category), x);
        FilterMembers(dueToday, DueTodayIn(category), x);
        FilterMembers(incomplete, UndatedIn(category), x);
      }
    }
    r
  }

  /** Filtering the joined lists by calendar is filtering each section by
      its folded test. */
  lemma {:induction false} CandidateSections(incomplete: seq<Reminder>, dueToday: seq<Reminder>, scheduled: seq<Reminder>, category: string)
    ensures Filter(Filter(Filter(scheduled, IsOverdue), Open) + Filter(dueToday, Open) + Filter(incomplete, Undated), InCalendar(category))
      == Filter(scheduled, OverdueIn(category)) + Filter(dueToday, DueTodayIn(category))
      + Filter(incomplete, UndatedIn(category))
  {
    var inCal := InCalendar(category);
    var overdue := Filter(Filter(scheduled, IsOverdue), Open);
    var today, undated := Filter(dueToday, Open), Filter(incomplete, Undated);
    FilterAppend(overdue + today, undated, inCal);
    FilterAppend(overdue, today, inCal);
    var overdueOpen := (r: Reminder) => r.isOverdue && !r.isCompleted;
    FilterFilter(scheduled, IsOverdue, Open, overdueOpen);
    FilterFilter(scheduled, overdueOpen, inCal, OverdueIn(category));
    FilterFilter(dueToday, Open, inCal, DueTodayIn(category));
    FilterFilter(incomplete, Undated, inCal, UndatedIn(category));
  }

  /** `getReminders(category)`: the candidates with repeated titles dropped,
      keeping the first, so the higher-priority reminder of a title wins. */
  function GetReminders(incomplete: seq<Reminder>, dueToday: seq<Reminder>, scheduled: seq<Reminder>, category: string): (r: seq<Reminder>)
    ensures var c := Candidates(incomplete, dueToday, scheduled, category);
      Subseq(r, c) && DistinctKeys(r, Title) && KeySet(r, Title) == KeySet(c, Title)
      && forall i :: 0 <= i < |r| ==> Title(r[i]) in KeySet(c, Title) && r[i] == FirstWithKey(c, Title, Title(r[i]))
    ensures var c := Candidates(incomplete, dueToday, scheduled, category);
      InKeyOrder(c, Title, r)
    ensures forall x :: x in r ==> x.calendar == category
  {
    var c := Candidates(incomplete, dueToday, scheduled, category);
    var r := Dedupe(c, Title);
    SubseqElements(r, c);
    r
  }

  /** An overdue reminder beats a reminder due today with the same title. */
  lemma {:induction false} OverdueWins(a: Reminder, b: Reminder, category: string)
    requires a.title == b.title && a != b
    requires a.calendar == category && b.calendar == category
    requires IsOverdue(a) && Open(a) && Open(b)
    ensures GetReminders([], [b], [a], category) == [a]
  {
    OverdueThenDueToday(a, b, category);
    DedupeSameTitle(a, b);
  }

  /** Of two reminders with one title, only the first survives. */
  lemma {:induction false} DedupeSameTitle(a: Reminder, b: Reminder)
    requires a.title == b.title
    ensures Dedupe([a, b], Title) == [a]
  {
    var c := [a, b];
    var r := Dedupe(c, Title);
    assert KeySet(c, Title) == {a.title};
    DistinctCardinality(r, Title);
    assert r[0] == FirstWithKey(c, Title, a.title);
  }

  /** A reminder listed twice with another between (due today at 09:00
      and overdue by 10:00, say) keeps its first place: `[x, y, x]` gives
      `[x, y]`, so `x` heads the reminders column. */
  lemma {:induction false} RepeatKeepsFirstPlace(x: Reminder, y: Reminder)
    requires x.title != y.title
    ensures Dedupe([x, y, x], Title) == [x, y]
  {
    var c := [x, y, x];
    var r := Dedupe(c, Title);
    RepeatTitlesInOrder(x, y);
    assert r[0] == FirstWithKey(c, Title, x.title) == x;
    assert r[1] == FirstWithKey(c, Title, y.title) == FirstWithKey(c[1..], Title, y.title) == y;
  }

  /** The de-duplicated `[x, y, x]` holds two reminders, titled as `x` and
      `y` in that order. */
  lemma {:induction false} RepeatTitlesInOrder(x: Reminder, y: Reminder)
    requires x.title != y.title
    ensures var r := Dedupe([x, y, x], Title);
      |r| == 2 && Title(r[0]) == x.title && Title(r[1]) == y.title
  {
    var c := [x, y, x];
    var r := Dedupe(c, Title);
    TitlesOfRepeat(x, y);
    DistinctCardinality(r, Title);
    assert FirstIndex(c, Title, x.title) == 0 && FirstIndex(c, Title, y.title) == 1;
    KeyInKeySet(r, Title, 0);
    KeyInKeySet(r, Title, 1);
  }

  /** The titles of `[x, y, x]` are those of `x` and `y`. */
  lemma {:induction false} TitlesOfRepeat(x: Reminder, y: Reminder)
    ensures KeySet([x, y, x], Title) == {x.title, y.title}
  {
    var c := [x, y, x];
    KeySetCons(c, Title);
    assert c[1..] == [y, x];
    KeySetCons([y, x], Title);
    assert [y, x][1..] == [x];
    KeySetCons([x], Title);
    assert [x][1..] == [];
  }

  /** An overdue reminder and one due today, both open and in the
      category, are the candidates in that order. */
  lemma {:induction false} OverdueThenDueToday(a: Reminder, b: Reminder, category: string)
    requires a.calendar == category && b.calendar == category
    requires IsOverdue(a) && Open(a) && Open(b)
    ensures Candidates([], [b], [a], category) == [a, b]
  {
    assert OverdueIn(category)(a) && DueTodayIn(category)(b);
    FilterSingle(a, OverdueIn(category));
    FilterSingle(b, DueTodayIn(category));
    assert Filter([], UndatedIn(category)) == [];
    assert [a] + [b] + [] == [a, b];
  }

  /** What a reminders column shows: the first reminder's title and, when
      there are more, "+" and how many more. Nothing when the list is empty. */
  datatype ReminderColumn = ReminderColumn(link: string, title: string, more: Option<string>)

  function RemindersColumn(reminders: seq<Reminder>): (c: Option<ReminderColumn>)
    ensures c.Some? <==> |reminders| > 0
    ensures c.Some? ==> c.value.title == reminders[0].title
    ensures c.Some? ==> (c.value.more.Some? <==> |reminders| > 1)
    ensures c.Some? && c.value.more.Some? ==>
      |c.value.more.value| >= 2 && c.value.more.value[0] == '+'
      && AllDigits(c.value.more.value[1..]) && Value(c.value.more.value[1..]) == |reminders| - 1
  {
    if |reminders| == 0 then None
    else
      var more := if |reminders| > 1 then Some("+" + NatToString(|reminders| - 1)) else None;
      assert more.Some? ==> more.value[1..] == NatToString(|reminders| - 1);
      Some(ReminderColumn("x-apple-reminderkit://REMCDReminder/" + reminders[0].identifier,
        reminders[0].title, more))
  }

  // ---------------------------------------------------------------------
  // Calendar events

  const MaxEvents: nat := 5
  const Calendars := ["Mike Wagstaff", "Parties", "School"]
  const CalendarTags := ["", "🎉", ""]
  const DoNotShowEvents := ["laundry"]

  /** A calendar event; `startDay` is the local day number of its start. */
  datatype Event = Event(title: string, calendar: string, startDay: int, isAllDay: bool, startTime: string)

  /** `shouldShowEvent`, over any list of words: the lower-cased title
      contains none of the lower-cased words. */
  function ShowsDespite(title: string, words: seq<string>): (b: bool)
    ensures b <==> forall k :: 0 <= k < |words| ==> !Contains(Lower(title), Lower(words[k]))
  {
    if |words| == 0 then true
    else if Contains(Lower(title), Lower(words[0])) then false
    else
      var rest := ShowsDespite(title, words[1..]);
      assert forall k :: 1 <= k < |words| ==> words[k] == words[1..][k - 1];
      rest
  }

  predicate ShouldShowEvent(e: Event)
  {
    ShowsDespite(e.title, DoNotShowEvents)
  }

  /** The selection test of the event loop. */
  predicate EventShown(e: Event)
  {
    e.calendar in Calendars && ShouldShowEvent(e)
  }

  /** A shown event comes from a listed calendar and its title does not
      mention laundry, in any case. */
  lemma {:induction false} ShownIsListed(e: Event)
    requires EventShown(e)
    ensures e.calendar in Calendars && !Contains(Lower(e.title), "laundry")
  {
    assert Lower(DoNotShowEvents[0]) == "laundry";
  }

  /** The events the loop draws: at most five, in input order, each from a
      listed calendar and free of the blocked words; with fewer than five
      drawn, every such event is drawn. */
  function ShownEvents(events: seq<Event>): (r: seq<Event>)
    ensures r == Take(Filter(events, EventShown), MaxEvents)
    ensures |r| <= MaxEvents
    ensures forall k :: 0 <= k < |r| ==>
      r[k].calendar in Calendars && !Contains(Lower(r[k].title), "laundry")
    ensures forall e :: e in r ==> e in events
    ensures |r| < MaxEvents ==> forall e :: e in events && EventShown(e) ==> e in r
  {
    var shown := Filter(events, EventShown);
    assert forall e :: e in shown <==> e in events && EventShown(e) by {
      forall e ensures e in shown <==> e in events && EventShown(e) {
        FilterMembers(events, EventShown, e);
      }
    }
    var r := FirstPassing(events, EventShown, MaxEvents);
    forall k | 0 <= k < |r|
      ensures r[k].calendar in Calendars && !Contains(Lower(r[k].title), "laundry")
    {
      assert r[k] == shown[k];
      ShownIsListed(shown[k]);
    }
    r
  }

  /** The event loop with its `eventsFound` counter selects `ShownEvents`. */
  method EventLoop(events: seq<Event>) returns (shown: seq<Event>)
    ensures shown == ShownEvents(events)
    ensures |shown| <= MaxEvents
  {
    shown := CappedFilter(events, EventShown, MaxEvents);
  }

  /** Letter case does not get an event past the blocked words. */
  lemma {:induction false} BlockedInAnyCase(e: Event)
    requires e.title == "Do the Laundry"
    ensures !ShouldShowEvent(e)
  {
    var t := Lower(e.title);
    assert t[7..14] == "laundry";
    assert Lower("laundry") == "laundry";
    ContainsIff(t, "laundry");
    assert OccursAt(t, "laundry", 7);
  }

  /** The cells of one event row: the day label ("Today", "Tomorrow" or the
      host's short date) in 10 characters, the start time (blank for an
      all-day event) in 6, the title in 35, and the calendar's tag. */
  datatype EventRow = EventRow(day: string, time: string, title: string, tag: string, style: Style)

  function EventRowOf(e: Event, today: int, shortDate: string): (row: EventRow)
    requires e.calendar in Calendars
    ensures |row.day| == 10 && |row.time| == 6 && |row.title| == 35
    ensures row.day == FormatForListWidget(DayLabel(e.startDay, today, shortDate), 10)
    ensures e.isAllDay ==> row.time == Spaces(6)
    ensures !e.isAllDay ==> row.time == FormatForListWidget(e.startTime, 6)
    ensures row.title == FormatForListWidget(e.title, 35)
    ensures row.tag == CalendarTags[IndexOfItem(Calendars, e.calendar)]
    ensures row.tag == "🎉" <==> e.calendar == "Parties"
    ensures row.style == DateStyle(e.startDay, today)
  {
    var k := IndexOfItem(Calendars, e.calendar);
    EventRow(
      FormatForListWidget(DayLabel(e.startDay, today, shortDate), 10),
      FormatForListWidget(if e.isAllDay then "" else e.startTime, 6),
      FormatForListWidget(e.title, 35),
      CalendarTags[k],
      DateStyle(e.startDay, today))
  }

  // ---------------------------------------------------------------------
  // Bin collection label

  /** The next-collections answer; `nextCollectionDate` is the local day
      number of the date. */
  datatype NextCollections = NextCollections(nextCollectionDateDay: Option<string>, nextCollectionDate: int, bins: Option<seq<string>>)

  function Icons(bins: seq<string>): (r: seq<string>)
    ensures |r| == |bins|
    ensures forall k :: 0 <= k < |bins| ==> r[k] == BinIcon(Table, bins[k])
  {
    TableWellFormed();
    seq(|bins|, k requires 0 <= k < |bins| => BinIcon(Table, bins[k]))
  }

  /** The organiser's bin label: present only when the answer arrived with a
      day name and at least one bin; then the day label, ": ", and the
      bins' icons joined by spaces. */
  function BinLabel(answer: Option<NextCollections>, today: int): (shown: Option<string>)
    ensures shown.Some? <==> (answer.Some? && Truthy(answer.value.nextCollectionDateDay)
      && answer.value.bins.Some? && |answer.value.bins.value| > 0)
    ensures shown.Some? ==>
      var a := answer.value;
      shown.value == DayLabel(a.nextCollectionDate, today, a.nextCollectionDateDay.value) + ": "
        + Join(Icons(a.bins.value), ' ')
  {
    if answer.Some? && Truthy(answer.value.nextCollectionDateDay)
      && answer.value.bins.Some? && |answer.value.bins.value| > 0 then
      var a := answer.value;
      Some(DayLabel(a.nextCollectionDate, today, a.nextCollectionDateDay.value) + ": "
        + Join(Icons(a.bins.value), ' '))
    else None
  }

  /** The icons after the ": " are the bins' own icons, one per bin, in
      answer order: splitting on the spaces gives them back. */
  lemma {:induction false} BinIconsByIdentity(bins: seq<string>)
    requires |bins| > 0
    ensures Split(Join(Icons(bins), ' '), ' ') == Icons(bins)
  {
    var icons := Icons(bins);
    forall k | 0 <= k < |icons| ensures ' ' !in icons[k] {
      TableWellFormed();
    }
    SplitJoin(icons, ' ');
  }

  /** A lone general-waste bin shows the general-waste icon. */
  lemma {:induction false} LoneRefuseBin(today: int, day: string, bin: string)
    requires day == "Tuesday" && bin == "Non-Recyclable Refuse"
    ensures BinLabel(Some(NextCollections(Some(day), today + 3, Some([bin]))), today)
      == Some("Tuesday: 🗑️")
  {
    TableWellFormed();
    assert bin == Table.interest[2];
    assert Icons([bin]) == ["🗑️"];
    assert BucketOf(today + 3, today) == Other;
    assert Join(["🗑️"], ' ') == "🗑️";
    assert Truthy(Some(day));
    assert DayLabel(today + 3, today, day) == day;
    assert day + ": " + "🗑️" == "Tuesday: 🗑️";
  }
}

=== FILE: rows.dfy ===
/** Where date labels and date separators go in a football list: rows are
    grouped by their `friendlyDateTime`, a group's first row carries the
    date, and a separator closes every group but the last. */
module RowLayout {
  import opened Js

  /** Row `i` starts a date group: it is the first row, or its date label
      differs from the previous row's. */
  predicate StartsGroup(dates: seq<Option<string>>, i: int)
    requires 0 <= i < |dates|
  {
    i == 0 || dates[i - 1] != dates[i]
  }

  /** A separator follows row `i`: it is not the last row and the next row's
      date label differs. */
  predicate SeparatorAfter(dates: seq<Option<string>>, i: int)
    requires 0 <= i < |dates|
  {
    i < |dates| - 1 && dates[i + 1] != dates[i]
  }

  /** A separator follows a row exactly when the next row starts a group, and
      never follows the last row. */
  lemma {:induction false} SeparatorBeforeEveryNewGroup(dates: seq<Option<string>>, i: int)
    requires 0 <= i < |dates|
    ensures SeparatorAfter(dates, i) <==> i + 1 < |dates| && StartsGroup(dates, i + 1)
  {
  }

  function CountTrue(bs: seq<bool>): (n: nat)
    ensures n <= |bs|
  {
    if |bs| == 0 then 0 else CountTrue(bs[..|bs| - 1]) + (if bs[|bs| - 1] then 1 else 0)
  }

  /** The date-label flags of a list, row by row. */
  function Labels(dates: seq<Option<string>>): (r: seq<bool>)
    ensures |r| == |dates|
    ensures forall i :: 0 <= i < |dates| ==> r[i] == StartsGroup(dates, i)
  {
    seq(|dates|, i requires 0 <= i < |dates| => StartsGroup(dates, i))
  }

  /** The separator flags of a list, row by row. */
  function Separators(dates: seq<Option<string>>): (r: seq<bool>)
    ensures |r| == |dates|
    ensures forall i :: 0 <= i < |dates| ==> r[i] == SeparatorAfter(dates, i)
  {
    seq(|dates|, i requires 0 <= i < |dates| => SeparatorAfter(dates, i))
  }

  /** A non-empty list has one more date label than separators: the groups
      are separated, not terminated. */
  lemma {:induction false} LabelsOutnumberSeparators(dates: seq<Option<string>>)
    requires |dates| > 0
    ensures CountTrue(Labels(dates)) == CountTrue(Separators(dates)) + 1
    decreases |dates|
  {
    var n := |dates|;
    if n == 1 {
      assert Labels(dates) == [true];
      assert Separators(dates) == [false];
    } else {
      var init := dates[..n - 1];
      LabelsOutnumberSeparators(init);
      assert Labels(dates)[..n - 1] == Labels(init);
      assert Labels(dates)[n - 1] == (dates[n - 2] != dates[n - 1]);
      var s := Separators(dates);
      var s' := Separators(init);
      assert s[..n - 2] == s'[..n - 2];
      assert s'[n - 2] == false;
      assert s[n - 2] == (dates[n - 1] != dates[n - 2]);
      assert s[n - 1] == false;
      CountPrefixFalse(s', n - 2);
      CountSplitLast(s, n - 1);
      CountSplitLast(s[..n - 1], n - 2);
      assert s[..n - 1][..n - 2] == s'[..n - 2];
    }
  }

  lemma {:induction false} CountSplitLast(bs: seq<bool>, k: nat)
    requires k + 1 == |bs|
    ensures CountTrue(bs) == CountTrue(bs[..k]) + (if bs[k] then 1 else 0)
  {
  }

  lemma {:induction false} CountPrefixFalse(bs: seq<bool>, k: nat)
    requires k + 1 == |bs| && !bs[k]
    ensures CountTrue(bs) == CountTrue(bs[..k])
  {
  }

  /** The football-scores header loop, which remembers the date of the last
      header it printed rather than looking at the previous row; a header is
      emitted for the same rows as `StartsGroup` picks. */
  method FootballScoresHeaders(dates: seq<Option<string>>) returns (headers: seq<bool>)
    requires |dates| > 0
    ensures |headers| == |dates|
    ensures forall i :: 0 <= i < |dates| ==> headers[i] == StartsGroup(dates, i)
  {
    var previous := dates[0];
    headers := [];
    var i := 0;
    while i < |dates|
      invariant 0 <= i <= |dates|
      invariant |headers| == i
      invariant forall k :: 0 <= k < i ==> headers[k] == StartsGroup(dates, k)
      invariant previous == dates[if i == 0 then 0 else i - 1]
    {
      var current := dates[i];
      var shown := i == 0 || current != previous;
      if shown {
        previous := current;
      }
      headers := headers + [shown];
      i := i + 1;
    }
  }
}

=== FILE: sequences.dfy ===
/** Order-preserving, keep-first de-duplication, as the scripts write it with
    `[...new Set(xs)]` and with `filter((x, i, self) => i === self.findIndex(...))`. */
module Sequences {

  /** `a` is `b` with some elements removed, the rest kept in order. */
  predicate Subseq<T(==)>(a: seq<T>, b: seq<T>)
    decreases |b|
  {
    if |a| == 0 then true
    else if |b| == 0 then false
    else if a[0] == b[0] then Subseq(a[1..], b[1..])
    else Subseq(a, b[1..])
  }

  lemma {:induction false} SubseqDropFirst<T>(a: seq<T>, b: seq<T>)
    requires |a| > 0 && Subseq(a, b)
    ensures Subseq(a[1..], b)
    decreases |b|, 0
  {
    if a[0] != b[0] {
      SubseqDropFirst(a, b[1..]);
      SubseqSkip(a[1..], b[1..], b[0]);
      assert [b[0]] + b[1..] == b;
    } else {
      SubseqSkip(a[1..], b[1..], b[0]);
      assert [b[0]] + b[1..] == b;
    }
  }

  /** A subsequence stays one when the longer sequence gains a first element. */
  lemma {:induction false} SubseqSkip<T>(a: seq<T>, b: seq<T>, y: T)
    requires Subseq(a, b)
    ensures Subseq(a, [y] + b)
    decreases |b|, 1
  {
    if |a| > 0 && a[0] == y {
      assert ([y] + b)[1..] == b;
      SubseqDropFirst(a, b);
    } else {
      assert ([y] + b)[1..] == b;
    }
  }

  /** The elements of a subsequence come from the longer sequence. */
  lemma {:induction false} SubseqElements<T>(a: seq<T>, b: seq<T>)
    requires Subseq(a, b)
    ensures forall x :: x in a ==> x in b
    decreases |b|
  {
    if |a| > 0 {
      if a[0] == b[0] {
        SubseqElements(a[1..], b[1..]);
        assert a == [a[0]] + a[1..];
      } else {
        SubseqElements(a, b[1..]);
      }
    }
  }

  /** The keys the elements of `xs` carry. */
  function KeySet<T(==), K(==)>(xs: seq<T>, key: T -> K): set<K>
  {
    set x | x in xs :: key(x)
  }

  lemma {:induction false} KeySetCons<T, K>(xs: seq<T>, key: T -> K)
    requires |xs| > 0
    ensures KeySet(xs, key) == {key(xs[0])} + KeySet(xs[1..], key)
  {
    assert forall y :: y in xs <==> y == xs[0] || y in xs[1..];
  }

  /** No two elements of `xs` share a key. */
  predicate DistinctKeys<T, K(==)>(xs: seq<T>, key: T -> K)
  {
    forall i, j :: 0 <= i < j < |xs| ==> key(xs[i]) != key(xs[j])
  }

  /** The first element of `xs` carrying key `k`. */
  function FirstWithKey<T(==), K(==)>(xs: seq<T>, key: T -> K, k: K): (x: T)
    requires k in KeySet(xs, key)
    ensures x in xs && key(x) == k
  {
    if key(xs[0]) == k then xs[0]
    else
      KeySetCons(xs, key);
      FirstWithKey(xs[1..], key, k)
  }

  /** Keep-first de-duplication of `xs`, skipping the keys already `seen`:
      each element is kept when no earlier element (and nothing in `seen`)
      carries its key. */
  function DedupeFrom<T(==), K(==)>(xs: seq<T>, key: T -> K, seen: set<K>): (r: seq<T>)
    ensures Subseq(r, xs)
    ensures DistinctKeys(r, key)
    ensures KeySet(r, key) == KeySet(xs, key) - seen
    ensures forall i :: 0 <= i < |r| ==>
      key(r[i]) in KeySet(xs, key) && r[i] == FirstWithKey(xs, key, key(r[i]))
    decreases |xs|
  {
    if |xs| == 0 then
      []
    else
      var x := xs[0];
      KeySetCons(xs, key);
      if key(x) in seen then
        var r := DedupeFrom(xs[1..], key, seen);
        SubseqSkip(r, xs[1..], x);
        assert [x] + xs[1..] == xs;
        FirstWithKeyTail(xs, key, r);
        r
      else
        var rest := DedupeFrom(xs[1..], key, seen + {key(x)});
        var r := [x] + rest;
        assert r[1..] == rest;
        assert xs[1..] == xs[1..];
        SubseqElements(rest, xs[1..]);
        KeySetCons(r, key);
        FirstWithKeyTail(xs, key, rest);
        r
  }

  /** One step of the de-duplication: an element with a seen key is
      dropped, any other is kept and its key becomes seen. */
  lemma {:induction false} DedupeFromCons<T, K>(x: T, xs: seq<T>, key: T -> K, seen: set<K>)
    ensures DedupeFrom([x] + xs, key, seen)
      == if key(x) in seen then DedupeFrom(xs, key, seen) else [x] + DedupeFrom(xs, key, seen + {key(x)})
  {
    assert ([x] + xs)[0] == x && ([x] + xs)[1..] == xs;
  }

  /** Skipping the head keeps "first with its key" for keys the head lacks. */
  lemma {:induction false} FirstWithKeyTail<T, K>(xs: seq<T>, key: T -> K, r: seq<T>)
    requires |xs| > 0
    requires forall i :: 0 <= i < |r| ==> key(r[i]) != key(xs[0])
    requires forall i :: 0 <= i < |r| ==>
      key(r[i]) in KeySet(xs[1..], key) && r[i] == FirstWithKey(xs[1..], key, key(r[i]))
    ensures forall i :: 0 <= i < |r| ==>
      key(r[i]) in KeySet(xs, key) && r[i] == FirstWithKey(xs, key, key(r[i]))
  {
    forall i | 0 <= i < |r|
      ensures r[i] == FirstWithKey(xs, key, key(r[i]))
    {
      var k := key(r[i]);
      assert k in KeySet(xs[1..], key);
      var w :| w in xs[1..] && key(w) == k;
      assert w in xs;
    }
  }

  /** The position of the first element of `xs` carrying key `k`, or -1
      when there is none (`findIndex` on a key test). */
  function FirstIndex<T, K(==)>(xs: seq<T>, key: T -> K, k: K): (i: int)
    ensures -1 <= i < |xs|
    ensures i >= 0 ==> key(xs[i]) == k && forall j :: 0 <= j < i ==> key(xs[j]) != k
    ensures i < 0 ==> forall j :: 0 <= j < |xs| ==> key(xs[j]) != k
    decreases |xs|
  {
    if |xs| == 0 then -1
    else if key(xs[0]) == k then 0
    else
      var t := FirstIndex(xs[1..], key, k);
      if t < 0 then -1 else t + 1
  }

  /** The keys of `r` first occur in `xs` in the order of `r`. */
  predicate InKeyOrder<T, K(==)>(xs: seq<T>, key: T -> K, r: seq<T>)
  {
    forall i, j :: 0 <= i < j < |r| ==> FirstIndex(xs, key, key(r[i])) < FirstIndex(xs, key, key(r[j]))
  }

  /** A key of the tail that the head lacks first occurs one place later in
      the whole sequence. */
  lemma {:induction false} FirstIndexTail<T, K>(xs: seq<T>, key: T -> K, k: K)
    requires |xs| > 0 && key(xs[0]) != k && k in KeySet(xs[1..], key)
    ensures FirstIndex(xs, key, k) == FirstIndex(xs[1..], key, k) + 1 >= 1
  {
    KeyIndexed(xs[1..], key, k);
  }

  /** Putting an element in front of `xs` keeps the order of keys it does
      not share, and places them after it. */
  lemma {:induction false} InKeyOrderShift<T, K>(xs: seq<T>, key: T -> K, r: seq<T>)
    requires |xs| > 0 && InKeyOrder(xs[1..], key, r)
    requires forall i :: 0 <= i < |r| ==> key(r[i]) != key(xs[0]) && key(r[i]) in KeySet(xs[1..], key)
    ensures InKeyOrder(xs, key, r)
    ensures forall i :: 0 <= i < |r| ==> FirstIndex(xs, key, key(r[i])) >= 1
  {
    forall i | 0 <= i < |r|
      ensures FirstIndex(xs, key, key(r[i])) == FirstIndex(xs[1..], key, key(r[i])) + 1 >= 1
    {
      FirstIndexTail(xs, key, key(r[i]));
    }
  }

  /** The head of `xs`, followed by elements whose keys first occur later
      and in order, is in key order. */
  lemma {:induction false} InKeyOrderCons<T, K>(xs: seq<T>, key: T -> K, r: seq<T>)
    requires |xs| > 0 && InKeyOrder(xs, key, r)
    requires forall i :: 0 <= i < |r| ==> FirstIndex(xs, key, key(r[i])) >= 1
    ensures InKeyOrder(xs, key, [xs[0]] + r)
  {
    var t := [xs[0]] + r;
    assert FirstIndex(xs, key, key(xs[0])) == 0;
    forall i, j | 0 <= i < j < |t|
      ensures FirstIndex(xs, key, key(t[i])) < FirstIndex(xs, key, key(t[j]))
    {
      assert t[j] == r[j - 1];
      if i > 0 {
        assert t[i] == r[i - 1];
      }
    }
  }

  /** The de-duplication keeps its elements in the order in which their
      keys first occur in `xs`. */
  lemma {:induction false} DedupeFromInOrder<T, K>(xs: seq<T>, key: T -> K, seen: set<K>)
    ensures InKeyOrder(xs, key, DedupeFrom(xs, key, seen))
    decreases |xs|
  {
    if |xs| > 0 {
      var x, tail := xs[0], xs[1..];
      assert xs == [x] + tail;
      DedupeFromCons(x, tail, key, seen);
      var seen' := if key(x) in seen then seen else seen + {key(x)};
      var rest := DedupeFrom(tail, key, seen');
      DedupeFromInOrder(tail, key, seen');
      forall i | 0 <= i < |rest|
        ensures key(rest[i]) != key(x) && key(rest[i]) in KeySet(tail, key)
      {
        KeyInKeySet(rest, key, i);
      }
      InKeyOrderShift(xs, key, rest);
      if key(x) !in seen {
        InKeyOrderCons(xs, key, rest);
      }
    }
  }

  /** The key of an element of `xs` belongs to its key set. */
  lemma {:induction false} KeyInKeySet<T, K>(xs: seq<T>, key: T -> K, i: int)
    requires 0 <= i < |xs|
    ensures key(xs[i]) in KeySet(xs, key)
  {
    assert xs[i] in xs;
  }

  /** A key of `xs` has a first position. */
  lemma {:induction false} KeyIndexed<T, K>(xs: seq<T>, key: T -> K, k: K)
    requires k in KeySet(xs, key)
    ensures FirstIndex(xs, key, k) >= 0
  {
    var w :| w in xs && key(w) == k;
    var j :| 0 <= j < |xs| && xs[j] == w;
    assert key(xs[j]) == k;
  }

  /** `[...new Set(xs)]` / the `findIndex` filter: keep-first de-duplication,
      in the order in which the keys first occur. */
  function Dedupe<T(==), K(==)>(xs: seq<T>, key: T -> K): (r: seq<T>)
    ensures Subseq(r, xs)
    ensures DistinctKeys(r, key)
    ensures KeySet(r, key) == KeySet(xs, key)
    ensures forall i :: 0 <= i < |r| ==>
      key(r[i]) in KeySet(xs, key) && r[i] == FirstWithKey(xs, key, key(r[i]))
    ensures InKeyOrder(xs, key, r)
  {
    DedupeFromInOrder(xs, key, {});
    DedupeFrom(xs, key, {})
  }

  /** A sequence without repeated keys has as many elements as keys. */
  lemma {:induction false} DistinctCardinality<T, K>(xs: seq<T>, key: T -> K)
    requires DistinctKeys(xs, key)
    ensures |KeySet(xs, key)| == |xs|
    decreases |xs|
  {
    if |xs| > 0 {
      var rest := xs[1..];
      DistinctCardinality(rest, key);
      KeySetCons(xs, key);
      assert key(xs[0]) !in KeySet(rest, key) by {
        forall y | y in rest ensures key(y) != key(xs[0]) {
          var j :| 0 <= j < |rest| && rest[j] == y;
          assert xs[j + 1] == y;
        }
      }
    }
  }
  /** `xs.filter(keep)`: the elements that pass, in their order. */
  function Filter<T>(xs: seq<T>, keep: T -> bool): (r: seq<T>)
    ensures |r| <= |xs|
    ensures forall i :: 0 <= i < |r| ==> keep(r[i])
    decreases |xs|
  {
    if |xs| == 0 then []
    else Filter(xs[..|xs| - 1], keep) + (if keep(xs[|xs| - 1]) then [xs[|xs| - 1]] else [])
  }

  /** A single element is kept or dropped on its own test. */
  lemma {:induction false} FilterSingle<T>(x: T, keep: T -> bool)
    ensures Filter([x], keep) == if keep(x) then [x] else []
  {
    assert [x][..0] == [];
  }

  /** Filtering keeps exactly the elements that pass. */
  lemma {:induction false} FilterMembers<T>(xs: seq<T>, keep: T -> bool, x: T)
    ensures x in Filter(xs, keep) <==> x in xs && keep(x)
    decreases |xs|
  {
    if |xs| > 0 {
      var init := xs[..|xs| - 1];
      FilterMembers(init, keep, x);
      assert xs == init + [xs[|xs| - 1]];
    }
  }

  /** Filtering never brings two elements with one key together. */
  lemma {:induction false} FilterDistinct<T, K>(xs: seq<T>, keep: T -> bool, key: T -> K)
    requires DistinctKeys(xs, key)
    ensures DistinctKeys(Filter(xs, keep), key)
    decreases |xs|
  {
    if |xs| > 0 {
      var init, last := xs[..|xs| - 1], xs[|xs| - 1];
      assert DistinctKeys(init, key) by {
        forall i, j | 0 <= i < j < |init| ensures key(init[i]) != key(init[j]) {
          assert init[i] == xs[i] && init[j] == xs[j];
        }
      }
      FilterDistinct(init, keep, key);
      var f := Filter(init, keep);
      if keep(last) {
        forall i | 0 <= i < |f| ensures key(f[i]) != key(last) {
          FilterMembers(init, keep, f[i]);
          var j :| 0 <= j < |init| && init[j] == f[i];
          assert xs[j] == f[i];
        }
      }
    }
  }

  /** Filtering distributes over concatenation, so it preserves order. */
  lemma {:induction false} FilterAppend<T>(a: seq<T>, b: seq<T>, keep: T -> bool)
    ensures Filter(a + b, keep) == Filter(a, keep) + Filter(b, keep)
    decreases |b|
  {
    if |b| == 0 {
      assert a + b == a;
    } else {
      var b' := b[..|b| - 1];
      assert (a + b)[..|a + b| - 1] == a + b';
      assert (a + b)[|a + b| - 1] == b[|b| - 1];
      FilterAppend(a, b', keep);
    }
  }

  /** Filtering a sequence with a first element: that element is tested on
      its own, then the rest is filtered. */
  lemma {:induction false} FilterCons<T>(x: T, xs: seq<T>, keep: T -> bool)
    ensures Filter([x] + xs, keep) == (if keep(x) then [x] else []) + Filter(xs, keep)
  {
    FilterAppend([x], xs, keep);
    FilterSingle(x, keep);
  }

  /** Two filters in a row keep what passes both tests. */
  lemma {:induction false} FilterFilter<T>(xs: seq<T>, p: T -> bool, q: T -> bool, both: T -> bool)
    requires forall x :: both(x) == (p(x) && q(x))
    ensures Filter(Filter(xs, p), q) == Filter(xs, both)
    decreases |xs|
  {
    if |xs| > 0 {
      var init, last := xs[..|xs| - 1], xs[|xs| - 1];
      FilterFilter(init, p, q, both);
      FilterAppend(Filter(init, p), if p(last) then [last] else [], q);
      if p(last) {
        FilterSingle(last, q);
      } else {
        assert Filter([], q) == [];
      }
    }
  }

  /** The first `n` elements, or all of them when there are fewer. */
  function Take<T>(xs: seq<T>, n: nat): (r: seq<T>)
    ensures |r| == (if |xs| < n then |xs| else n)
    ensures r == xs[..|r|]
  {
    if |xs| < n then xs else xs[..n]
  }

  /** The walk of a capped selection loop: take the passing elements front
      to back and stop once `max` are taken. It keeps exactly the first
      `max` elements that pass, in their order. */
  function FirstPassing<T>(xs: seq<T>, keep: T -> bool, max: nat): (r: seq<T>)
    ensures r == Take(Filter(xs, keep), max)
    decreases |xs|
  {
    if |xs| == 0 then
      assert Filter(xs, keep) == [];
      []
    else if max == 0 then
      []
    else
      var rest := FirstPassing(xs[1..], keep, if keep(xs[0]) then max - 1 else max);
      FirstPassingStep(xs, keep, max, rest);
      if keep(xs[0]) then [xs[0]] + rest else rest
  }

  lemma {:induction false} FirstPassingStep<T>(xs: seq<T>, keep: T -> bool, max: nat, rest: seq<T>)
    requires |xs| > 0 && max > 0
    requires rest == Take(Filter(xs[1..], keep), if keep(xs[0]) then max - 1 else max)
    ensures (if keep(xs[0]) then [xs[0]] + rest else rest) == Take(Filter(xs, keep), max)
  {
    assert xs == [xs[0]] + xs[1..];
    FilterCons(xs[0], xs[1..], keep);
    var f := Filter(xs[1..], keep);
    if keep(xs[0]) {
      assert Take([xs[0]] + f, max) == [xs[0]] + Take(f, max - 1);
    }
  }

  /** The loop `for (i = 0; i < xs.length && kept.length < max; i++) if
      (keep(xs[i])) kept.push(xs[i])`: it stops as soon as `max` elements
      are kept, and keeps the first `max` elements that pass. */
  method CappedFilter<T>(xs: seq<T>, keep: T -> bool, max: nat) returns (kept: seq<T>)
    ensures kept == FirstPassing(xs, keep, max)
  {
    kept := [];
    var i := 0;
    while i < |xs| && |kept| < max
      invariant 0 <= i <= |xs|
      invariant kept == Filter(xs[..i], keep)
      invariant |kept| <= max
    {
      assert xs[..i + 1][..i] == xs[..i];
      if keep(xs[i]) {
        kept := kept + [xs[i]];
      }
      i := i + 1;
    }
    CappedLoopExit(xs, keep, max, i, kept);
  }

  /** When a capped selection loop stops, at the end of the input or with
      `max` elements taken, it holds the first `max` passing elements. */
  lemma {:induction false} CappedLoopExit<T>(xs: seq<T>, keep: T -> bool, max: nat, i: nat, kept: seq<T>)
    requires i <= |xs| && kept == Filter(xs[..i], keep) && |kept| <= max
    requires i == |xs| || |kept| == max
    ensures kept == Take(Filter(xs, keep), max)
  {
    assert xs == xs[..i] + xs[i..];
    FilterAppend(xs[..i], xs[i..], keep);
  }

  /** `xs.indexOf(x)`: the first position holding `x`, or -1. */
  function IndexOfItem<T(==)>(xs: seq<T>, x: T): (k: int)
    ensures k == -1 <==> x !in xs
    ensures k != -1 ==> 0 <= k < |xs| && xs[k] == x
    ensures k != -1 ==> forall j :: 0 <= j < k ==> xs[j] != x
  {
    if |xs| == 0 then -1
    else if xs[0] == x then 0
    else
      var k := IndexOfItem(xs[1..], x);
      if k == -1 then -1 else k + 1
  }
}

=== FILE: text.dfy ===
/** The JavaScript string operations the widgets rely on, over `seq<char>`:
    `padEnd`, `padStart`, `indexOf`/`includes`, `replace` with a string
    pattern, `split` on one character, `join`, ASCII `toLowerCase` and the
    relational `<` on strings. */
module Text {

  /** `n` space characters. */
  function Spaces(n: nat): (r: string)
    ensures |r| == n
    ensures forall i :: 0 <= i < n ==> r[i] == ' '
  {
    if n == 0 then "" else Spaces(n - 1) + " "
  }

  /** `s.padEnd(n, ' ')`: spaces appended until the length is `n`; a string
      already that long is returned unchanged. */
  function PadEnd(s: string, n: nat): (r: string)
    ensures |s| >= n ==> r == s
    ensures |s| < n ==> |r| == n
    ensures r[..|s|] == s
    ensures forall i :: |s| <= i < |r| ==> r[i] == ' '
  {
    if |s| >= n then s else s + Spaces(n - |s|)
  }

  /** `s.padStart(n, ' ')`: spaces prepended until the length is `n`. */
  function PadStart(s: string, n: nat): (r: string)
    ensures |s| >= n ==> r == s
    ensures |s| < n ==> |r| == n
    ensures r[|r| - |s|..] == s
    ensures forall i :: 0 <= i < |r| - |s| ==> r[i] == ' '
  {
    if |s| >= n then s else Spaces(n - |s|) + s
  }

  /** `pat` occurs in `s` starting at index `i`. */
  predicate OccursAt(s: string, pat: string, i: int)
  {
    0 <= i && i + |pat| <= |s| && s[i..i + |pat|] == pat
  }

  /** `s.indexOf(pat)`: the first index at which `pat` occurs, or -1. */
  function IndexOf(s: string, pat: string): (r: int)
    ensures r == -1 || OccursAt(s, pat, r)
    ensures forall j :: 0 <= j && (r == -1 || j < r) ==> !OccursAt(s, pat, j)
    decreases |s|
  {
    if |pat| > |s| then
      -1
    else if s[..|pat|] == pat then
      0
    else
      var k := IndexOf(s[1..], pat);
      assert forall j :: 1 <= j ==> OccursAt(s, pat, j) == OccursAt(s[1..], pat, j - 1) by {
        forall j | 1 <= j
          ensures OccursAt(s, pat, j) == OccursAt(s[1..], pat, j - 1)
        {
          if j + |pat| <= |s| {
            assert s[1..][j - 1..j - 1 + |pat|] == s[j..j + |pat|];
          }
        }
      }
      if k < 0 then -1 else k + 1
  }

  /** `s.includes(pat)`. */
  predicate Contains(s: string, pat: string)
  {
    IndexOf(s, pat) >= 0
  }

  /** `includes` holds exactly when the pattern occurs somewhere. */
  lemma {:induction false} ContainsIff(s: string, pat: string)
    ensures Contains(s, pat) <==> exists i :: OccursAt(s, pat, i)
  {
    if exists i :: OccursAt(s, pat, i) {
      var i :| OccursAt(s, pat, i);
      assert IndexOf(s, pat) != -1;
    }
  }

  /** A single character is included exactly when it is an element. */
  lemma {:induction false} ContainsChar(s: string, c: char)
    ensures Contains(s, [c]) <==> c in s
  {
    if c in s {
      var i :| 0 <= i < |s| && s[i] == c;
      assert s[i..i + 1] == [c];
      assert OccursAt(s, [c], i);
    }
    if Contains(s, [c]) {
      var i := IndexOf(s, [c]);
      assert s[i..i + 1] == [c];
      assert s[i] == c;
    }
  }

  /** A pattern whose first character never appears (or that is longer than
      the string) is not found. */
  lemma {:induction false} AbsentFirstChar(s: string, pat: string)
    requires |pat| > 0 && (|pat| > |s| || pat[0] !in s)
    ensures IndexOf(s, pat) == -1
  {
  }

  /** An occurrence at `i` with no earlier copy of the pattern's first
      character is the one `indexOf` finds. */
  lemma {:induction false} FirstAt(s: string, pat: string, i: nat)
    requires |pat| > 0 && OccursAt(s, pat, i)
    requires forall j :: 0 <= j < i ==> s[j] != pat[0]
    ensures IndexOf(s, pat) == i
  {
    var r := IndexOf(s, pat);
    assert !(r == -1 || i < r);
    assert s[r..r + |pat|][0] == s[r];
  }

  /** `s.replace(pat, rep)` with a string pattern: only the first occurrence
      of `pat` is replaced; a string without `pat` comes back unchanged. */
  function ReplaceFirst(s: string, pat: string, rep: string): (r: string)
    ensures (forall j :: !OccursAt(s, pat, j)) ==> r == s
    ensures forall i ::
      (OccursAt(s, pat, i) && forall j :: 0 <= j < i ==> !OccursAt(s, pat, j)) ==>
        r == s[..i] + rep + s[i + |pat|..]
  {
    var i := IndexOf(s, pat);
    if i < 0 then s else s[..i] + rep + s[i + |pat|..]
  }

  /** Replacing the first occurrence changes the length by the difference
      of the two texts; without an occurrence nothing changes. */
  lemma {:induction false} ReplaceFirstLength(s: string, pat: string, rep: string)
    ensures !Contains(s, pat) ==> ReplaceFirst(s, pat, rep) == s
    ensures Contains(s, pat) ==> |ReplaceFirst(s, pat, rep)| == |s| - |pat| + |rep|
  {
  }

  /** `s.split(c)` with a one-character separator: the maximal runs between
      separators, in order, including empty ones. */
  function Split(s: string, c: char): (r: seq<string>)
    ensures |r| >= 1 && (|r| >= 2 <==> c in s)
    ensures forall k :: 0 <= k < |r| ==> c !in r[k]
    decreases |s|
  {
    var i := IndexOf(s, [c]);
    ContainsChar(s, c);
    if i < 0 then
      [s]
    else
      NoSeparatorBefore(s, c);
      [s[..i]] + Split(s[i + 1..], c)
  }

  /** The first separator found by `indexOf` has no copy before it. */
  lemma {:induction false} NoSeparatorBefore(s: string, c: char)
    ensures var i := IndexOf(s, [c]); i >= 0 ==> s[i] == c && c !in s[..i]
  {
    var i := IndexOf(s, [c]);
    if i >= 0 {
      assert s[i..i + 1] == [c];
      forall j | 0 <= j < i ensures s[j] != c {
        assert s[j..j + 1] == [s[j]];
        assert !OccursAt(s, [c], j);
      }
    }
  }

  /** `split` loses nothing: there is one more piece than the text has
      separators, and joining the pieces with the separator gives the text
      back. */
  lemma {:induction false} JoinSplit(s: string, c: char)
    ensures |Split(s, c)| == multiset(s)[c] + 1
    ensures Join(Split(s, c), c) == s
    decreases |s|
  {
    if c in s {
      SplitCut(s, c);
      NoSeparatorBefore(s, c);
      var i := IndexOf(s, [c]);
      JoinSplit(s[i + 1..], c);
      SplitStep(s, c, i, Split(s[i + 1..], c));
    } else {
      SplitWithoutSeparator(s, c);
      assert multiset(s)[c] == 0;
    }
  }

  /** One cut of `split`: the run before the first separator, then the
      pieces of what follows it. */
  lemma {:induction false} SplitStep(s: string, c: char, i: nat, rest: seq<string>)
    requires i < |s| && s[i] == c && c !in s[..i]
    requires |rest| == multiset(s[i + 1..])[c] + 1 && Join(rest, c) == s[i + 1..]
    ensures |[s[..i]] + rest| == multiset(s)[c] + 1
    ensures Join([s[..i]] + rest, c) == s
  {
    assert s == s[..i] + [c] + s[i + 1..];
    assert multiset(s) == multiset(s[..i]) + multiset([c]) + multiset(s[i + 1..]);
    assert multiset(s[..i])[c] == 0;
    var r := [s[..i]] + rest;
    assert r[1..] == rest;
  }

  /** The first piece of a split is the text up to the first separator, or
      all of it when there is none. */
  lemma {:induction false} SplitFirst(s: string, c: char)
    ensures var p := Split(s, c)[0];
      |p| <= |s| && s[..|p|] == p && (|p| == |s| || s[|p|] == c)
  {
    var i := IndexOf(s, [c]);
    if i >= 0 {
      assert s[i..i + 1] == [c];
    }
  }

  /** With the separator present, `split` cuts at its first occurrence. */
  lemma {:induction false} SplitCut(s: string, c: char)
    requires c in s
    ensures var i := IndexOf(s, [c]);
      0 <= i < |s| && Split(s, c) == [s[..i]] + Split(s[i + 1..], c)
  {
    ContainsChar(s, c);
    assert IndexOf(s, [c]) >= 0;
  }

  /** `split(c)[1]`, when the separator occurs: the text after the first
      separator, up to the next one or the end. */
  lemma {:induction false} SplitSecond(s: string, c: char)
    requires c in s
    ensures |Split(s, c)| >= 2
    ensures var i, p := IndexOf(s, [c]), Split(s, c)[1];
      0 <= i && i + 1 + |p| <= |s| && s[i + 1..i + 1 + |p|] == p
      && (i + 1 + |p| == |s| || s[i + 1 + |p|] == c) && c !in p
  {
    SplitCut(s, c);
    SecondPiece(s, c, IndexOf(s, [c]));
  }

  /** The second piece of a split cut at `i`. */
  lemma {:induction false} SecondPiece(s: string, c: char, i: nat)
    requires i < |s| && Split(s, c) == [s[..i]] + Split(s[i + 1..], c)
    ensures |Split(s, c)| >= 2
    ensures var p := Split(s, c)[1];
      i + 1 + |p| <= |s| && s[i + 1..i + 1 + |p|] == p
      && (i + 1 + |p| == |s| || s[i + 1 + |p|] == c) && c !in p
  {
    var pieces := Split(s[i + 1..], c);
    SplitFirst(s[i + 1..], c);
    assert Split(s, c)[1] == pieces[0];
    SliceAfter(s, i + 1, pieces[0], c);
  }

  /** A prefix of `s[from..]` that ends at a separator or the end, read back
      as a slice of `s`. */
  lemma {:induction false} SliceAfter(s: string, from: nat, p: string, c: char)
    requires from <= |s|
    requires |p| <= |s| - from && s[from..][..|p|] == p
    requires |p| == |s| - from || s[from..][|p|] == c
    ensures from + |p| <= |s| && s[from..from + |p|] == p
    ensures from + |p| == |s| || s[from + |p|] == c
  {
    assert s[from..][..|p|] == s[from..from + |p|];
  }

  /** A string without the separator splits into itself alone. */
  lemma {:induction false} SplitWithoutSeparator(s: string, c: char)
    requires c !in s
    ensures Split(s, c) == [s]
  {
    ContainsChar(s, c);
  }

  /** `xs.join(c)` with a one-character separator. */
  function Join(xs: seq<string>, c: char): (r: string)
    ensures |xs| == 1 ==> r == xs[0]
  {
    if |xs| == 0 then ""
    else if |xs| == 1 then xs[0]
    else xs[0] + [c] + Join(xs[1..], c)
  }

  /** The first separator in `a + [c] + rest` is the one after `a` when `a`
      has none. */
  lemma {:induction false} FirstSeparator(a: string, c: char, rest: string)
    requires c !in a
    ensures IndexOf(a + [c] + rest, [c]) == |a|
  {
    var s := a + [c] + rest;
    assert s[|a|..|a| + 1] == [c];
    assert OccursAt(s, [c], |a|);
    forall j | 0 <= j < |a| ensures !OccursAt(s, [c], j) {
      assert s[j..j + 1] == [a[j]];
    }
  }

  /** Splitting `a + [c] + rest`, with no separator in `a`, cuts off `a`
      and splits the rest. */
  lemma {:induction false} SplitAfterFirst(a: string, c: char, rest: string)
    requires c !in a
    ensures Split(a + [c] + rest, c) == [a] + Split(rest, c)
  {
    var s := a + [c] + rest;
    FirstSeparator(a, c, rest);
    assert s[..|a|] == a;
    assert s[|a| + 1..] == rest;
  }

  /** Joining pieces that do not contain the separator can be undone by
      splitting on it: the two operations are inverse. */
  lemma {:induction false} SplitJoin(xs: seq<string>, c: char)
    requires |xs| >= 1
    requires forall k :: 0 <= k < |xs| ==> c !in xs[k]
    ensures Split(Join(xs, c), c) == xs
    decreases |xs|
  {
    if |xs| > 1 {
      var tail := xs[1..];
      assert forall k :: 0 <= k < |tail| ==> c !in tail[k] by {
        forall k | 0 <= k < |tail| ensures tail[k] == xs[k + 1] { }
      }
      SplitJoin(tail, c);
      SplitAfterFirst(xs[0], c, Join(tail, c));
      assert xs == [xs[0]] + tail;
    } else {
      SplitWithoutSeparator(xs[0], c);
    }
  }

  /** `ch.toLowerCase()` on the ASCII letters; other characters unchanged. */
  function LowerChar(ch: char): (r: char)
    ensures 'A' <= ch <= 'Z' ==> 'a' <= r <= 'z' && r as int == ch as int + 32
    ensures !('A' <= ch <= 'Z') ==> r == ch
  {
    if 'A' <= ch <= 'Z' then (ch as int + 32) as char else ch
  }

  /** `s.toLowerCase()`, restricted to the ASCII letters. */
  function Lower(s: string): (r: string)
    ensures |r| == |s|
    ensures forall i :: 0 <= i < |s| ==> r[i] == LowerChar(s[i])
  {
    if |s| == 0 then "" else Lower(s[..|s| - 1]) + [LowerChar(s[|s| - 1])]
  }

  /** JavaScript's `a < b` on strings: the first differing character
      decides, and a proper prefix is smaller. */
  predicate Less(a: string, b: string)
  {
    if |b| == 0 then false
    else if |a| == 0 then true
    else if a[0] != b[0] then a[0] < b[0]
    else Less(a[1..], b[1..])
  }

  /** No string is smaller than itself, so `x > x` is always false. */
  lemma {:induction false} LessIrreflexive(a: string)
    ensures !Less(a, a)
    decreases |a|
  {
    if |a| > 0 {
      LessIrreflexive(a[1..]);
    }
  }

  /** `<` on strings is a strict order: it is transitive. */
  lemma {:induction false} LessTransitive(a: string, b: string, c: string)
    requires Less(a, b) && Less(b, c)
    ensures Less(a, c)
    decreases |a|
  {
    if |a| > 0 && a[0] == b[0] && b[0] == c[0] {
      LessTransitive(a[1..], b[1..], c[1..]);
    }
  }

  /** Any string is strictly smaller than a proper extension of itself. */
  lemma {:induction false} LessPrefix(a: string, t: string)
    requires |t| > 0
    ensures Less(a, a + t)
    decreases |a|
  {
    if |a| > 0 {
      assert (a + t)[1..] == a[1..] + t;
      LessPrefix(a[1..], t);
    }
  }
  /** The first position where two strings differ decides `<`: the string
      with the smaller character there is the smaller string. */
  lemma {:induction false} LessAt(a: string, b: string, k: nat)
    requires k < |a| && k < |b| && a[..k] == b[..k]
    ensures a[k] < b[k] ==> Less(a, b)
    ensures b[k] < a[k] ==> !Less(a, b)
    decreases k
  {
    if k > 0 {
      assert a[0] == a[..k][0] && b[0] == b[..k][0];
      assert a[1..][..k - 1] == a[..k][1..] && b[1..][..k - 1] == b[..k][1..];
      LessAt(a[1..], b[1..], k - 1);
    }
  }
  /** Comparing two concatenations whose first parts have equal length:
      the first parts decide unless they are equal, then the second parts. */
  lemma {:induction false} LessConcat(a1: string, b1: string, a2: string, b2: string)
    requires |a1| == |a2|
    ensures a1 != a2 ==> (Less(a1 + b1, a2 + b2) <==> Less(a1, a2))
    ensures a1 == a2 ==> (Less(a1 + b1, a2 + b2) <==> Less(b1, b2))
    decreases |a1|
  {
    if |a1| > 0 {
      assert (a1 + b1)[0] == a1[0] && (a2 + b2)[0] == a2[0];
      assert (a1 + b1)[1..] == a1[1..] + b1 && (a2 + b2)[1..] == a2[1..] + b2;
      LessConcat(a1[1..], b1, a2[1..], b2);
      if a1[0] == a2[0] && a1 != a2 {
        assert a1 == [a1[0]] + a1[1..] && a2 == [a2[0]] + a2[1..];
      }
    } else {
      assert a1 + b1 == b1 && a2 + b2 == b2;
    }
  }
}

=== FILE: trains.dfy ===
/** The train boards: which direction the organiser shows, what its trains
    panel shows for each answer of the trains server, and the two boards of
    the TrainTrack widget. */
module TrainBoards {
  import opened Js
  import opened Text
  import opened Numbers
  import opened Departures

  const OrganiserFrom := "KTH"
  const OrganiserTo := "VIC"
  const ReverseJourneyAfter := "12:00"
  const OrganiserMaxTrains: nat := 4

  const TrainTrackFrom := "ECR"
  const TrainTrackTo := "VIC"
  const TrainTrackMaxTrains: nat := 3

  /** The time part of `toISOString()`: "HH:MM:SS.sssZ", in UTC. */
  function IsoTime(h: nat, m: nat, s: nat, ms: nat): (t: string)
    requires h < 24 && m < 60 && s < 60 && ms < 1000
    ensures |t| == 13 && t[2] == ':' && t[5] == ':' && t[8] == '.' && t[12] == 'Z'
    ensures t[0] == DigitChar(h / 10) && t[1] == DigitChar(h % 10)
    ensures t[3] == DigitChar(m / 10) && t[4] == DigitChar(m % 10)
  {
    Pow10Small();
    TwoDigits(h);
    TwoDigits(m);
    Clock(Fixed(h, 2), Fixed(m, 2), Fixed(s, 2), Fixed(ms, 3))
  }

  function Clock(hh: string, mm: string, ss: string, mmm: string): (t: string)
    requires |hh| == 2 && |mm| == 2 && |ss| == 2 && |mmm| == 3
    ensures |t| == 13 && t[2] == ':' && t[5] == ':' && t[8] == '.' && t[12] == 'Z'
    ensures t[0] == hh[0] && t[1] == hh[1] && t[3] == mm[0] && t[4] == mm[1]
  {
    hh + [':'] + mm + [':'] + ss + ['.'] + mmm + ['Z']
  }

  /** The two characters of a zero-padded two-digit number. */
  lemma {:induction false} TwoDigits(n: nat)
    requires n < 100
    ensures Fixed(n, 2) == [DigitChar(n / 10), DigitChar(n % 10)]
  {
    assert Pow10(1) == 10;
    assert Fixed(n / 10, 1) == Fixed(n / 100, 0) + [DigitChar((n / 10) % 10)];
    assert Fixed(n, 2) == Fixed(n / 10, 1) + [DigitChar(n % 10)];
  }

  /** `currentTime > REVERSE_JOURNEY_AFTER_TIME` compares strings; it holds
      exactly from 12:00 UTC to midnight. */
  lemma {:induction false} AfterNoonIff(h: nat, m: nat, s: nat, ms: nat)
    requires h < 24 && m < 60 && s < 60 && ms < 1000
    ensures Less(ReverseJourneyAfter, IsoTime(h, m, s, ms)) <==> h >= 12
  {
    NoonComparison(IsoTime(h, m, s, ms), h, m);
  }

  /** The comparison with "12:00" reads only the hour and minute digits of
      a clock string. */
  lemma {:induction false} NoonComparison(t: string, h: nat, m: nat)
    requires h < 24 && m < 60 && |t| > 5 && t[2] == ':'
    requires t[0] == DigitChar(h / 10) && t[1] == DigitChar(h % 10)
    requires t[3] == DigitChar(m / 10) && t[4] == DigitChar(m % 10)
    ensures Less(ReverseJourneyAfter, t) <==> h >= 12
  {
    var a := ReverseJourneyAfter;
    var h1, h0, m1, m0 := h / 10, h % 10, m / 10, m % 10;
    assert a == [DigitChar(1), DigitChar(2), ':', DigitChar(0), DigitChar(0)];
    if h1 != 1 {
      DigitCharOrder(1, h1);
      LessAt(a, t, 0);
    } else if h0 != 2 {
      DigitCharOrder(2, h0);
      assert a[..1] == t[..1];
      LessAt(a, t, 1);
    } else if m1 != 0 {
      DigitCharOrder(0, m1);
      assert a[..3] == t[..3];
      LessAt(a, t, 3);
    } else if m0 != 0 {
      DigitCharOrder(0, m0);
      assert a[..4] == t[..4];
      LessAt(a, t, 4);
    } else {
      assert t == a + t[5..] by {
        assert t[..5] == a;
      }
      LessPrefix(a, t[5..]);
    }
  }

  datatype Route = Route(origin: string, destination: string)

  /** `getTrainsData` of the organiser: the journey is reversed once the UTC
      time of day is past 12:00. */
  function OrganiserRoute(h: nat, m: nat, s: nat, ms: nat): (r: Route)
    requires h < 24 && m < 60 && s < 60 && ms < 1000
    ensures h >= 12 ==> r == Route(OrganiserTo, OrganiserFrom)
    ensures h < 12 ==> r == Route(OrganiserFrom, OrganiserTo)
  {
    AfterNoonIff(h, m, s, ms);
    if Less(ReverseJourneyAfter, IsoTime(h, m, s, ms)) then Route(OrganiserTo, OrganiserFrom)
    else Route(OrganiserFrom, OrganiserTo)
  }

  /** The trains server's answer, once parsed: `departures` may be absent. */
  datatype Journey = Journey(departures: Option<seq<Departure>>)

  /** A board: the origin station's code and one row per departure shown. */
  datatype Board = Board(station: string, rows: seq<DepartureRow>)

  /** `populateTrainsRowContent`: the station code of the first departure,
      then the first `max` departures. An empty list has no first departure,
      and reading its station throws. */
  function MakeBoard(departures: seq<Departure>, max: nat): (r: Result<Board>)
    ensures r.Err? <==> |departures| == 0
    ensures r.Err? ==> r.error == TypeError
    ensures r.Ok? ==> r.value.station == departures[0].crs
    ensures r.Ok? ==> |r.value.rows| == (if |departures| < max then |departures| else max)
    ensures r.Ok? ==> forall i :: 0 <= i < |r.value.rows| ==> r.value.rows[i] == Row(departures[i])
  {
    if |departures| == 0 then Err(TypeError)
    else
      var n := if |departures| < max then |departures| else max;
      Ok(Board(departures[0].crs, seq(n, i requires 0 <= i < n => Row(departures[i]))))
  }

  datatype TrainsPanel = NoTrainsFound | Trains(board: Board)

  /** `populateTrainsContent` of the organiser: "No trains found" when the
      request failed or the answer has no departures, otherwise a board of
      at most four trains. */
  function OrganiserTrains(data: Option<Journey>): (r: Result<TrainsPanel>)
    ensures data.None? || data.value.departures.None? ==> r == Ok(NoTrainsFound)
    ensures data.Some? && data.value.departures.Some? ==>
      var ds := data.value.departures.value;
      (r.Err? <==> |ds| == 0) &&
      (r.Ok? ==> r.value.Trains? && Ok(r.value.board) == MakeBoard(ds, OrganiserMaxTrains))
  {
    if data.None? || data.value.departures.None? then Ok(NoTrainsFound)
    else
      var b := MakeBoard(data.value.departures.value, OrganiserMaxTrains);
      if b.Err? then Err(b.error) else Ok(Trains(b.value))
  }

  /** The two routes TrainTrack requests, outbound first. */
  const TrainTrackRoutes := [Route(TrainTrackFrom, TrainTrackTo), Route(TrainTrackTo, TrainTrackFrom)]

  /** The departure list of an answer that has one: a failed request or
      an answer without `departures` lists nothing. */
  function ListedOne(answer: Option<Journey>): seq<seq<Departure>>
  {
    if answer.Some? && answer.value.departures.Some? then [answer.value.departures.value] else []
  }

  /** The departure lists of the answers, in route order. */
  function Listed(data: seq<Option<Journey>>): seq<seq<Departure>>
    decreases |data|
  {
    if |data| == 0 then [] else ListedOne(data[0]) + Listed(data[1..])
  }

  /** `r` is the outcome of drawing one board per list, in order: a
      TypeError exactly when some list is empty, otherwise the boards of
      `MakeBoard` with TrainTrack's three trains. */
  predicate BoardsFor(lists: seq<seq<Departure>>, r: Result<seq<Board>>)
  {
    (r.Ok? <==> forall k :: 0 <= k < |lists| ==> |lists[k]| > 0)
    && (r.Err? ==> r.error == TypeError)
    && (r.Ok? ==> (|r.value| == |lists| &&
          forall k :: 0 <= k < |lists| ==> Ok(r.value[k]) == MakeBoard(lists[k], TrainTrackMaxTrains)))
  }

  /** An answer's board ahead of the boards of the answers after it; an
      answer without departures adds none, and an empty list throws. */
  function PrependBoard(answer: Journey, rest: Result<seq<Board>>): (r: Result<seq<Board>>)
    ensures answer.departures.None? ==> r == rest
    ensures answer.departures.Some? && |answer.departures.value| == 0 ==> r == Err(TypeError)
    ensures answer.departures.Some? && |answer.departures.value| > 0 ==>
      r == (if rest.Ok? then Ok([MakeBoard(answer.departures.value, TrainTrackMaxTrains).value] + rest.value) else rest)
    ensures forall lists :: BoardsFor(lists, rest) ==> BoardsFor(ListedOne(Some(answer)) + lists, r)
  {
    var r := if answer.departures.None? then rest
      else
        var b := MakeBoard(answer.departures.value, TrainTrackMaxTrains);
        if b.Err? then Err(b.error)
        else if rest.Err? then rest
        else Ok([b.value] + rest.value);
    forall lists | BoardsFor(lists, rest) ensures BoardsFor(ListedOne(Some(answer)) + lists, r) {
      PrependStep(answer, lists, rest, r);
    }
    r
  }

  /** One more answer in front keeps `BoardsFor`. */
  lemma {:induction false} PrependStep(answer: Journey, lists: seq<seq<Departure>>, rest: Result<seq<Board>>, r: Result<seq<Board>>)
    requires BoardsFor(lists, rest)
    requires r == if answer.departures.None? then rest
      else
        var b := MakeBoard(answer.departures.value, TrainTrackMaxTrains);
        if b.Err? then Err(b.error)
        else if rest.Err? then rest
        else Ok([b.value] + rest.value)
    ensures BoardsFor(ListedOne(Some(answer)) + lists, r)
  {
    if answer.departures.Some? {
      var ds := answer.departures.value;
      assert ListedOne(Some(answer)) + lists == [ds] + lists;
      if |ds| == 0 {
        assert r == Err(TypeError);
        EmptyListThrows(ds, lists);
      } else if rest.Err? {
        assert r == rest;
        LaterFailureThrows(ds, lists, rest);
      } else {
        assert r == Ok([MakeBoard(ds, TrainTrackMaxTrains).value] + rest.value);
        BoardInFront(ds, lists, rest.value);
      }
    } else {
      assert ListedOne(Some(answer)) + lists == lists;
    }
  }

  lemma {:induction false} EmptyListThrows(ds: seq<Departure>, lists: seq<seq<Departure>>)
    requires |ds| == 0
    ensures BoardsFor([ds] + lists, Err(TypeError))
  {
    assert ([ds] + lists)[0] == ds;
  }

  lemma {:induction false} LaterFailureThrows(ds: seq<Departure>, lists: seq<seq<Departure>>, rest: Result<seq<Board>>)
    requires BoardsFor(lists, rest) && rest.Err?
    ensures BoardsFor([ds] + lists, rest)
  {
    var k :| 0 <= k < |lists| && |lists[k]| == 0;
    assert ([ds] + lists)[k + 1] == lists[k];
  }

  lemma {:induction false} BoardInFront(ds: seq<Departure>, lists: seq<seq<Departure>>, bs: seq<Board>)
    requires BoardsFor(lists, Ok(bs)) && |ds| > 0
    ensures BoardsFor([ds] + lists, Ok([MakeBoard(ds, TrainTrackMaxTrains).value] + bs))
  {
    var b := MakeBoard(ds, TrainTrackMaxTrains);
    assert Ok(b.value) == b;
    ConsPointwise(ds, lists, b.value, bs, d => MakeBoard(d, TrainTrackMaxTrains));
  }

  /** Two sequences that agree pointwise through `f` still do with one
      more pair in front. */
  lemma {:induction false} ConsPointwise<A, B>(a: A, xs: seq<A>, b: B, ys: seq<B>, f: A -> Result<B>)
    requires Ok(b) == f(a) && |xs| == |ys|
    requires forall k :: 0 <= k < |xs| ==> Ok(ys[k]) == f(xs[k])
    ensures |[b] + ys| == |[a] + xs|
    ensures forall k :: 0 <= k < |[a] + xs| ==> Ok(([b] + ys)[k]) == f(([a] + xs)[k])
  {
    forall k | 0 <= k < |[a] + xs| ensures Ok(([b] + ys)[k]) == f(([a] + xs)[k]) {
      if k > 0 {
        assert ([a] + xs)[k] == xs[k - 1] && ([b] + ys)[k] == ys[k - 1];
      }
    }
  }

  /** `populateTrainsContent` of TrainTrack, as written: one answer per
      route, `undefined` where the request failed. Reading `departures` of a
      failed answer throws, as does an empty list; an answer without
      departures gets no board. With every request answered, the boards are
      those of the listed departure lists, in route order. */
  function TrainTrack(data: seq<Option<Journey>>): (r: Result<seq<Board>>)
    ensures (exists i :: 0 <= i < |data| && data[i].None?) ==> r == Err(TypeError)
    ensures (forall i :: 0 <= i < |data| ==> data[i].Some?) ==> BoardsFor(Listed(data), r)
    decreases |data|
  {
    if |data| == 0 then Ok([])
    else if data[0].None? then Err(TypeError)
    else
      var rest := TrainTrack(data[1..]);
      assert (exists i :: 0 <= i < |data| && data[i].None?) ==> rest == Err(TypeError) by {
        if exists i :: 0 <= i < |data| && data[i].None? {
          var i :| 0 <= i < |data| && data[i].None?;
          assert data[1..][i - 1] == data[i];
        }
      }
      assert (forall i :: 0 <= i < |data| ==> data[i].Some?) ==>
        (forall i :: 0 <= i < |data[1..]| ==> data[1..][i].Some?) by {
        forall i | 0 <= i < |data[1..]| ensures data[1..][i] == data[i + 1] { }
      }
      PrependBoard(data[0].value, rest)
  }

  /** One answer's contribution ahead of the boards of the answers after
      it, with a failed request or an answer without departures skipped. */
  function SkipOrBoard(answer: Option<Journey>, rest: Result<seq<Board>>): (r: Result<seq<Board>>)
    ensures answer.None? ==> r == rest
    ensures answer.Some? ==> r == PrependBoard(answer.value, rest)
    ensures forall lists :: BoardsFor(lists, rest) ==> BoardsFor(ListedOne(answer) + lists, r)
  {
    if answer.None? then
      assert forall lists: seq<seq<Departure>> :: ListedOne(answer) + lists == lists;
      rest
    else PrependBoard(answer.value, rest)
  }

  /** TrainTrack with a failed request skipped, as the guard beside it
      evidently intends: a failed direction shows no board, and the boards
      are those of the answers that have departure lists, in route order. */
  function TrainTrackSkippingFailures(data: seq<Option<Journey>>): (r: Result<seq<Board>>)
    ensures BoardsFor(Listed(data), r)
    ensures (forall i :: 0 <= i < |data| ==> data[i].Some?) ==> r == TrainTrack(data)
    decreases |data|
  {
    if |data| == 0 then Ok([])
    else
      var rest := TrainTrackSkippingFailures(data[1..]);
      assert (forall i :: 0 <= i < |data| ==> data[i].Some?) ==>
        (forall i :: 0 <= i < |data[1..]| ==> data[1..][i].Some?) by {
        forall i | 0 <= i < |data[1..]| ensures data[1..][i] == data[i + 1] { }
      }
      SkipOrBoard(data[0], rest)
  }

  /** With failures skipped, a failed request anywhere leaves the other
      boards exactly as they would be without it. */
  lemma {:induction false} FailedDirectionIsolated(before: seq<Option<Journey>>, after: seq<Option<Journey>>)
    ensures TrainTrackSkippingFailures(before + [None] + after) == TrainTrackSkippingFailures(before + after)
    decreases |before|
  {
    var with, without := before + [None] + after, before + after;
    if |before| == 0 {
      assert with[1..] == after && with[0] == None && without == after;
      assert TrainTrackSkippingFailures(with) == SkipOrBoard(None, TrainTrackSkippingFailures(after));
    } else {
      assert with[1..] == before[1..] + [None] + after && without[1..] == before[1..] + after by {
        assert with == [before[0]] + (before[1..] + [None] + after);
        assert without == [before[0]] + (before[1..] + after);
      }
      FailedDirectionIsolated(before[1..], after);
      assert with[0] == before[0] && without[0] == before[0];
      assert TrainTrackSkippingFailures(with) == SkipOrBoard(before[0], TrainTrackSkippingFailures(with[1..]));
      assert TrainTrackSkippingFailures(without) == SkipOrBoard(before[0], TrainTrackSkippingFailures(without[1..]));
    }
  }

  /** As written, a failed outbound request takes down the inbound board as
      well, although the inbound answer is fine. */
  lemma {:induction false} FailedOutboundHidesInbound(inbound: seq<Departure>)
    requires |inbound| > 0
    ensures TrainTrack([None, Some(Journey(Some(inbound)))]) == Err(TypeError)
    ensures TrainTrackSkippingFailures([None, Some(Journey(Some(inbound)))])
      == Ok([MakeBoard(inbound, TrainTrackMaxTrains).value])
  {
    var data := [None, Some(Journey(Some(inbound)))];
    assert data[1..] == [Some(Journey(Some(inbound)))];
    assert data[1..][1..] == [];
    assert TrainTrackSkippingFailures(data[1..][1..]) == Ok([]);
    var b := MakeBoard(inbound, TrainTrackMaxTrains);
    assert b.Ok?;
    assert [b.value] + [] == [b.value];
    assert TrainTrackSkippingFailures(data[1..]) == Ok([b.value]);
    assert TrainTrackSkippingFailures(data) == TrainTrackSkippingFailures(data[1..]);
  }
}
